=== FILE: README.md ===
# WhatsApp broadcast engine — a Dafny model

This project models the campaign delivery engine of the WhatsApp broadcast
application and the small client-side helpers around it, and proves
properties of that model with Dafny.

- **Scheduler** (`Scheduler`): the `send-campaign` job processor and its
  state machine over campaign status (scheduled, sending, completed, failed,
  cancelled, paused). It also covers provider selection, computing the
  enqueue delay, cancel, reschedule and the startup re-enqueue scan. The
  database and the job queue are one immutable `World`: campaigns by id, jobs
  by job id, stored messages and the events pushed to dashboards.
- **Dispatch pass** (`Delivery`): the WhatsApp and Twilio dispatchers as one
  pass parametrised by channel. It is written twice: once as a declarative
  function, once as a method with a loop. Sending is an oracle that never
  throws, the clock is a parameter, and pauses are counted. Bodies are
  rendered as the server renders them (`Templating.RenderAsWritten`),
  including keys its patterns read as quantifiers. A contact whose rendering
  throws, or whose rendered body is empty and so refused by the message
  schema, takes the loop's error path: nothing is stored or sent for it, and
  it is only counted as failed.
- **Providers** (`Providers`): `determineProvider`, recipient formatting for
  each provider, and the result contract of the two send adapters.
- **Rendering** (`Templating`, `TemplateText`): `replaceVariables`. This is
  three ordered passes of global replacement. The server's own patterns
  (`RenderAsWritten`) are proved equal to literal replacement whenever no key
  reads as a quantifier (digits alone, `n,` or `n,m`), and literal
  replacement is proved equal to
  resolving a template given as literal pieces and `{{key}}` tokens.
- **Receipt ingestion** (`Ingestion`): the webhook walk and
  `updateMessageStatus`. It covers the first-time timestamps and the move
  between progress counters with a floor at 0.
- **Routes** (`CampaignRoutes`, `ContactRoutes`, `AuthRoutes`, `Paging`):
  - the guards of the campaign create, update, pause, resume, delete and
    message-listing handlers;
  - contact bulk import with de-duplication by phone, and the list filter;
  - register and login check order, and the reset-token lifecycle;
  - pagination.
- **Client helpers**:
  - `ContactCsv`: CSV export and parse;
  - `ContactForm`: phone normalisation, the submit guard and tags;
  - `TemplateForm`: variable extraction, preview and the variable editor;
  - `ResetPassword` and `ForgotPassword`: the validators and submit order;
  - `BroadcastForm`: group toggling, recipient totals and the submit guard.

Shared pieces live in `Wrappers` (Option and Result), `Text` (the string
helpers JavaScript provides), `Lists` (duplicate-free lists, removal,
de-duplication) and `Domain` (the stored records and their schema defaults).

Time is an integer number of milliseconds, passed in as a parameter. Integers
are unbounded. Pacing delays are reals.

## Model

| member | source | states |
|---|---|---|
| Domain.NewCampaign | server/models/Campaign.js:32-65 | a new campaign is scheduled, all five counters are 0, the rate is 60, the provider is automatic and there is no job |
| Domain.NewMessage | server/models/Message.js:23-52 | a new message is pending, has no provider id and no timestamps, and has retry count 0 of at most 3 |
| Domain.SaveChanged | server/routes/campaigns.js:136-137 | a save writes only the fields the copy changed since it was loaded: over an unchanged store it stores the copy, and an unedited copy leaves the store as it is |
| Domain.Eligible | server/services/whatsappService.js:19-24 | the contacts a pass may message are exactly the listed ones that are active and not opted out |
| Providers.DetermineProvider | server/services/scheduler.js:97-114 | an explicit provider is kept; `auto` picks WhatsApp iff both WhatsApp credentials are set, even when Twilio's are too; it picks Twilio iff only Twilio's pair is complete; it fails iff neither pair is |
| Providers.WhatsAppRecipient | server/services/whatsappService.js:130-131 | the WhatsApp recipient holds no `+`, and a number without `+` is sent as typed |
| Providers.WhatsAppRecipientProperties | server/services/whatsappService.js:130-131 | stripping `+` is idempotent and works piece by piece |
| Providers.TwilioRecipient | server/services/twilioService.js:28-29 | the Twilio address is `whatsapp:+` then the number, with a leading `+` never doubled |
| Providers.TwilioRecipientNoDoublePlus | server/services/twilioService.js:28-29 | re-formatting a formatted Twilio number gives the same address |
| Providers.SendWhatsApp | server/services/whatsappService.js:128-164 | a send succeeds iff the API answers with at least one id, and success carries the first id; an API error comes back as a failed result, never as an exception |
| Providers.SendTwilio | server/services/twilioService.js:21-50 | without a client every send fails with "Twilio client not initialized"; otherwise the SDK result for the formatted address is returned |
| Delivery.EffectiveRate | server/services/whatsappService.js:35 | the rate is the campaign's own when non-zero, otherwise 60 for WhatsApp and 10 for Twilio; it is never 0 |
| Delivery.PacingDelay | server/services/whatsappService.js:35-36 | the pause between sends times the rate is one minute |
| Delivery.Deliver | server/services/whatsappService.js:43-67 | a contact on whom the server's rendering throws, or whose body it renders empty, gets no message: the message is never created, or its first save refuses empty content; otherwise the message carries the body as the server renders it, is sent iff the provider accepted it, a sent one has the send time and no error, a failed one the provider's error, and only WhatsApp sends record a provider id |
| Delivery.DeliverIntended | server/services/whatsappService.js:43-67 | when no key in the campaign variables or the contact's metadata reads as a quantifier, the empty-body test and the stored content are those of the intended rendering |
| Delivery.DeliverDigitKeySendsPlaceholder | server/services/whatsappService.js:43-67 | with the campaign variable `2` on the body `{{2}}`, the contact is sent and stored the unfilled `{{2}}`, while the intended rendering gives the value |
| Delivery.DeliverCommaKeySendsPlaceholder | server/services/whatsappService.js:43-67 | with the campaign variable `1,2` on the body `{{1,2}}`, the contact is sent and stored the unfilled `{{1,2}}` |
| Delivery.DeliverUnparsableKey | server/services/whatsappService.js:41-43 | a campaign variable key the server cannot build a pattern from (such as `2,1`) throws for every contact before any message exists |
| Delivery.MessageText | server/services/whatsappService.js:43-53 | a message is created only with a non-empty text the server's rendering returns without throwing |
| Delivery.Recorded | server/services/whatsappService.js:45-69 | the stored messages are exactly the contacts' messages that were saved, never more than the contacts handled |
| Delivery.ProgressAfter | server/services/whatsappService.js:58-100 | handling contacts sets the total to the contact count and grows sent plus failed by exactly the number handled, never lowering either |
| Delivery.ProgressAfterAppend | server/services/whatsappService.js:58-100 | one more contact bumps exactly one counter: sent if its message was sent, failed otherwise, including when its message could not be saved |
| Delivery.OutcomeAppend | server/services/whatsappService.js:69-101 | one more contact adds its message, its progress event and, unless it is the last, a pause when its message was saved, and nothing to any of them when it was not |
| Delivery.Dispatch | server/services/whatsappService.js:11-126 | a pass aborts with the campaign failed iff the template is missing or no contact is eligible; otherwise it completes the campaign even if every send failed, with the stored messages, progress events, completion event and pauses the contacts' outcomes give in order |
| Delivery.EventsAndPausesAll | server/services/whatsappService.js:72-83 | when every message was saved, event i reports the counters after contact i at position i + 1 of n, and the pass pauses once between each two consecutive contacts |
| Delivery.Record | server/services/whatsappService.js:58-83 | one iteration's in-place update of the counters, messages, events and pauses gives exactly the declarative tally after one more contact |
| Delivery.HandleContact | server/services/whatsappService.js:38-102 | one iteration, from the send to the bookkeeping, extends the tally by the next contact's outcome |
| Delivery.HandleAll | server/services/whatsappService.js:38-103 | the loop over the eligible contacts yields the declarative tally over all of them |
| Delivery.RunPass | server/services/whatsappService.js:38-113 | the loop with counters updated in place, an event per saved message and a pause after every saved message but the last produces exactly the declarative pass |
| Delivery.SendOne | server/services/whatsappService.js:41-70 | one iteration renders with the server's patterns and stores the message the declarative pass stores for that contact, and nothing when that body is empty |
| Delivery.SentCountPrefix | server/services/whatsappService.js:58-67 | the sent count over a longer prefix is at least the shorter count and at most one more per extra contact |
| Delivery.ProgressEventsMonotone | server/services/whatsappService.js:62-101 | every progress event belongs to this campaign, reports a position already reached whose sent plus failed matches it, stays within the counters reached, and no later event shows a counter lower than an earlier one |
| Delivery.ProgressEventsFinal | server/services/whatsappService.js:62-83 | every progress event stays within the final counters, and when the last contact's message was saved the last event shows exactly them |
| Delivery.PassProgressMonotone | server/services/whatsappService.js:62-113 | during a pass the dashboard never sees a counter go down, the completion event carries the final counters, and when the last contact's message was saved its progress event shows them too |
| Delivery.PassProgressCountsContacts | server/services/whatsappService.js:30-101 | starting from zero, each progress event's sent plus failed equals its contact position, which never exceeds the total |
| Delivery.PassOneMessagePerContact | server/services/whatsappService.js:38-69 | when every contact has a message text (the server's rendering neither throws nor is empty), the pass stores one message per contact, in contact order, each the one the contact's delivery gives |
| Delivery.PassOneEventPerContact | server/services/whatsappService.js:72-83 | when every contact has a message text, the pass emits one progress event per contact with its position, then the completion event, and pauses n − 1 times |
| Delivery.EmptyBodyStoresNothing | server/services/whatsappService.js:85-101 | a contact with no message text (the server's rendering throws or is empty) gets no message, no progress event and no pause, and is counted as failed |
| Delivery.PassStoresRendered | server/services/whatsappService.js:43-69 | every contact with a message text has its message stored by the pass, with that text as its content |
| Delivery.NoneStored | server/services/whatsappService.js:85-101 | contacts none of whose messages was saved leave no message, no progress event and no pause |
| Delivery.PassWithUnparsableKey | server/services/whatsappService.js:38-113 | a campaign variable whose pattern cannot be built still lets the pass complete, with nothing stored, sent or paused for and every contact counted as failed |
| Delivery.PassAllSucceed | server/services/whatsappService.js:58-107 | when every body is non-empty and every send succeeds, the campaign completes with every contact counted as sent |
| Delivery.PassAllFail | server/services/whatsappService.js:63-107 | when every send fails, the campaign still completes with every contact counted as failed; every stored message is failed, each non-empty contact's message is stored with its provider's error, and with no empty body there is one message per contact |
| Delivery.PassFailsWith | server/services/whatsappService.js:63-69 | when every send fails with the same error, every stored message is failed with that error |
| Delivery.PassProviderIds | server/services/twilioService.js:103 | Twilio sends never record a provider id in the message, so no receipt can match them; WhatsApp sends record one iff they were sent |
| Delivery.PacingExample | server/services/twilioService.js:77-78 | at the default rates, two pauses wait 2 s for WhatsApp and 12 s for Twilio |
| Scheduler.EnqueueDelay | server/services/scheduler.js:118-147 | no delay when the scheduled time is not in the future; otherwise a delay that ends exactly at the scheduled time |
| Scheduler.ScheduleCampaign | server/services/scheduler.js:116-157 | a job with 3 attempts and a 2000 ms backoff is enqueued under a fresh id, and that id is stored on the campaign; the store invariants are kept |
| Scheduler.CancelCampaign | server/services/scheduler.js:159-183 | cancel fails iff the campaign or its job is missing; otherwise the job leaves the queue and the campaign ends cancelled with no job, whatever its prior status |
| Scheduler.RequeuedQueue | server/services/scheduler.js:192-202 | after a reschedule the queue holds the new job under the fresh id, every other job except the campaign's old one is kept as it was, and nothing else is added |
| Scheduler.RescheduleCampaign | server/services/scheduler.js:185-210 | as written: reschedule fails iff the campaign is missing; otherwise the old job leaves the queue, a fresh job is enqueued and recorded, the time is moved, and the status ends cancelled iff the campaign was scheduled with a job (the cancel's save wins over the handler's unchanged status), scheduled otherwise; nothing else changes |
| Scheduler.RescheduledScheduledCampaignIsSkipped | server/services/scheduler.js:42-45 | a scheduled campaign rescheduled as written ends cancelled with its fresh job queued, and that job is skipped without sending |
| Scheduler.RescheduleCampaignIntended | server/services/scheduler.js:197-202 | the intended reschedule: the campaign is scheduled at the new time with a freshly enqueued job, and its old job is gone; nothing else changes |
| Scheduler.RescheduledCampaignRuns | server/services/scheduler.js:32-86 | after the intended reschedule the fresh job is not skipped |
| Scheduler.ScheduleExisting | server/services/scheduler.js:212-229 | the startup scan creates no campaign, message or event, and keeps the store invariants |
| Scheduler.ScheduleExistingOverStore | server/services/scheduler.js:214-223 | scanning the campaigns the query returns, every scheduled campaign due now or later without a job gains a queued job and nothing else, and every other campaign is unchanged |
| Scheduler.ScheduleExistingEffect | server/services/scheduler.js:214-223 | after the scan, exactly the scheduled campaigns with no job and a time not yet past hold a queued job; every other campaign is unchanged |
| Scheduler.ScheduledJobStays | server/services/scheduler.js:219-223 | a campaign that already has a queued job is left alone by the scan |
| Scheduler.ProcessJob | server/services/scheduler.js:32-86 | a job for a missing campaign fails with nothing changed; one for a campaign not scheduled is skipped with nothing changed; only the job's own campaign can change |
| Scheduler.ProcessJobOutcome | server/services/scheduler.js:47-85 | for a scheduled campaign, the first event is "sending"; the campaign ends failed iff the job fails and completed iff it is done; a failure stores no message and ends with a "failed" event |
| Scheduler.RunJobDispatched | server/services/scheduler.js:47-65 | once a provider is resolved and the pass completes, the job stores the pass's campaign, messages and events after the "sending" event |
| Scheduler.RetryAfterFailureIsNoop | server/services/scheduler.js:42-85 | a queue retry of a failed job changes nothing |
| Scheduler.ProcessJobIdempotent | server/services/scheduler.js:42-45 | running the same job a second time changes nothing |
| Scheduler.CancelledJobIsNoop | server/services/scheduler.js:42-45 | a job whose campaign was cancelled is skipped |
| Scheduler.NoCredentialsFailsBeforeSending | server/services/scheduler.js:58-85 | with automatic selection and no credentials, the job fails, the campaign is failed and no message is stored |
| Scheduler.ExplicitTwilioWithoutClientCompletes | server/services/scheduler.js:99-101 | an explicit Twilio campaign without Twilio credentials still completes with every contact counted as failed; every message it stores failed as "Twilio client not initialized", one per contact when every contact has a message text |
| Templating.PassOrderIsPrecedence | server/services/whatsappService.js:166-187 | the three passes give a placeholder the campaign variable first, then the contact field, then metadata |
| Templating.ServerPattern | server/services/whatsappService.js:171 | the server's pattern for a key is the literal placeholder unless the key is all digits, in which case it is a run of `{` and a `}` that differs from the placeholder |
| Templating.CommaBounds | server/services/whatsappService.js:171 | a key of digits, a comma and optional digits yields the bounds of the quantifier `{n,}` or `{n,m}`; such a key is neither all digits nor a word-character key |
| Templating.ServerRegexFor | server/services/whatsappService.js:171 | the server's pattern is the placeholder for a word-character key that is not all digits, a brace run for an all-digit key, a run of between n and m `{` then `}` for `n,` and `n,m`, and a syntax error exactly when n > m |
| Templating.RunMatch | server/services/whatsappService.js:171-172 | a brace-run pattern matches at a position only over a run of `{` within its bounds followed by `}`, and never in text without `}` |
| Templating.ReplaceRunNeedsClose | server/services/whatsappService.js:172 | a brace-run pattern leaves text without `}` unchanged |
| Templating.ReplaceKey | server/services/whatsappService.js:171-172 | one variable's `replace` throws iff its pattern is a syntax error, and is literal replacement of the placeholder for a word-character key that is not all digits |
| Templating.CleanPlainKeys | server/services/whatsappService.js:171 | word-character keys that are not all digits are plain and never make the pattern throw |
| Templating.ReplaceEachAsWritten | server/services/whatsappService.js:170-173 | the server's pass throws iff some key's pattern is a syntax error, and with plain keys (none all digits, `n,` or `n,m`) it is the literal replacement pass |
| Templating.RenderAsWritten | server/services/whatsappService.js:166-187 | the server's rendering throws iff a campaign variable or metadata key makes its pattern a syntax error, and with plain keys it is the intended rendering |
| Templating.CommaKeyNotFilled | server/services/whatsappService.js:170-173 | a campaign variable named `1,2` on the body `{{1,2}}`: literal replacement gives its value, the server as written leaves the body unchanged |
| Templating.UnparsableKeyThrows | server/services/whatsappService.js:170-173 | the key `2,1` makes the pattern a syntax error, so no body renders |
| Templating.DigitKeyNotFilled | server/services/whatsappService.js:170-173 | a campaign variable named `2` on the body `{{2}}`: the intended rendering gives its value, the server as written leaves the body unchanged |
| Templating.RenderResolves | server/services/whatsappService.js:166-187 | rendering a template with brace-free values replaces each `{{key}}` token by its value and keeps every literal part |
| Templating.CampaignVariableWins | server/services/whatsappService.js:170-178 | a campaign variable named `name` makes the contact's name irrelevant to the rendered text |
| Templating.UnmatchedPlaceholderStays | server/services/whatsappService.js:166-187 | a placeholder no pass binds stays verbatim |
| Templating.OrderExample | server/services/whatsappService.js:166-187 | "Order {{order_id}} for {{name}}" with order_id 42 for Ann renders "Order 42 for Ann" |
| TemplateText.ReplaceAllFill | server/services/whatsappService.js:172-174 | one global replacement of a key fills exactly that key's tokens in a well-formed template |
| TemplateText.ReplaceEachResolves | server/services/whatsappService.js:170-185 | replacing a list of bindings in order resolves each token to the first binding of its key |
| TemplateText.ResolveCompose | server/services/twilioService.js:169-190 | resolving with one list of bindings and then another is resolving with both lists in order, so consecutive passes act as one ordered pass |
| Ingestion.Transfer | server/services/whatsappService.js:243-253 | on a status change the new counter gains one and the old one loses one, floored at 0; nothing changes when the status is the same |
| Ingestion.TransferConserves | server/services/whatsappService.js:245-250 | a move from a positive counter keeps the counted total; one from an empty counter adds one |
| Ingestion.Stamp | server/services/whatsappService.js:231-238 | the message takes the receipt's status; delivered and read times are set from timestamp × 1000, and only the first time |
| Ingestion.ApplyReceipt | server/services/whatsappService.js:214-253 | a receipt with an unknown provider id or a missing campaign changes nothing; otherwise it stamps that one message and moves its campaign's counters; the store invariants are kept |
| Ingestion.ApplyReceiptFrame | server/services/whatsappService.js:230-240 | a receipt never touches content, provider id, send time or retry fields, nor any other message |
| Ingestion.ApplyReceiptIdempotent | server/services/whatsappService.js:234-253 | applying the same receipt twice is the same as applying it once |
| Ingestion.RepeatedReceiptIsNoop | server/services/whatsappService.js:234-253 | a repeated webhook event is a no-op |
| Ingestion.ReadThenDeliveredGoesBack | server/services/whatsappService.js:231-250 | a "delivered" receipt after "read" is accepted: the status moves back, read time is kept, delivered gains one and read loses one |
| Ingestion.HandleWebhookApplies | server/services/whatsappService.js:190-212 | the webhook applies the statuses of `messages` changes, in order, as one sequence of receipts |
| Ingestion.ApplyAllAppend | server/services/whatsappService.js:194-204 | applying two batches of receipts is applying the first and then the second |
| Paging.Paginate | server/routes/campaigns.js:216-233 | a page skips (page − 1) × limit items and holds the next at most `limit`; total pages is the ceiling of total over limit; a negative skip is an error |
| Paging.PagesCoverAll | server/routes/contacts.js:29-40 | page p is non-empty iff p is at most the reported page count |
| CampaignRoutes.CreateCampaign | server/routes/campaigns.js:42-111 | creation fails with 400 iff the template is missing or no contact is eligible, then with 500 iff the name is blank; otherwise the campaign has its trimmed name, total = eligible count and zero counters, rate 60 when unset, a past time replaced by now, and a job enqueued |
| CampaignRoutes.Assign | server/routes/campaigns.js:136 | assigning an update keeps the id and job, sets each field the update names (the name trimmed, the status as given) and changes nothing for an empty update |
| CampaignRoutes.SaveOverReschedule | server/routes/campaigns.js:130-137 | the handler's save over a just-rescheduled campaign keeps every edit and keeps the reschedule's status and job unless the update named a different status |
| CampaignRoutes.UpdateCampaign | server/routes/campaigns.js:113-148 | 404 for a missing campaign and 400 for a sending or completed one, both changing nothing; a blank name is a 500 after any reschedule took effect; otherwise a moved time reschedules as written and the edits are saved over it, leaving the campaign cancelled when it was scheduled with a job and the update named no other status; an unmoved update assigns the fields and leaves the queue alone; other campaigns, messages and events never change |
| CampaignRoutes.UpdateMovingScheduledCampaignIsSkipped | server/routes/campaigns.js:130-137 | moving a scheduled campaign's time through the update route leaves it cancelled with a fresh job that is then skipped |
| CampaignRoutes.PauseCampaign | server/routes/campaigns.js:167-188 | pause succeeds iff the campaign is sending, and changes only its status to paused |
| CampaignRoutes.ResumeCampaign | server/routes/campaigns.js:190-211 | resume succeeds iff the campaign is paused, and changes only its status to sending |
| CampaignRoutes.PauseResumeRoundTrip | server/routes/campaigns.js:176-204 | pausing then resuming a sending campaign restores the store exactly |
| CampaignRoutes.DeleteCampaign | server/routes/campaigns.js:243-261 | delete removes the campaign and all its messages; it dequeues the job iff the campaign was scheduled with one |
| CampaignRoutes.DeleteLeavesNothing | server/routes/campaigns.js:253-261 | after a delete no message of the campaign remains, all others do, and a leftover job finds no campaign |
| CampaignRoutes.CancelRoute | server/routes/campaigns.js:150-165 | the cancel route fails with 500 iff cancelling fails, and otherwise leaves the campaign cancelled with no job |
| CampaignRoutes.CampaignMessagesNewestFirst | server/routes/campaigns.js:225 | the message listing is newest first: a message stored later comes before every earlier one |
| CampaignRoutes.ListMessages | server/routes/campaigns.js:213-241 | the listed page only holds messages of that campaign, filtered by status when given |
| ContactRoutes.Validate | server/models/Contact.js:3-40 | the schema accepts a row iff name and phone are non-blank and any status is one of the three |
| ContactRoutes.ValidateFields | server/models/Contact.js:3-40 | a stored contact has trimmed name and phone, a trimmed lowercase email, trimmed tags, status active by default and is not opted out |
| ContactRoutes.ImportRow | server/routes/contacts.js:122-138 | a row is skipped iff its phone is stored, imported iff it is new and valid, and stored only when imported |
| ContactRoutes.BulkImport | server/routes/contacts.js:108-145 | a missing or empty batch is refused with 400; otherwise imported + skipped + errors equals the batch size and phones stay unique |
| ContactRoutes.ImportRowsKeepsUnique | server/routes/contacts.js:123-132 | an import never stores two contacts with one phone |
| ContactRoutes.RepeatedPhoneInBatchSkipped | server/routes/contacts.js:123-132 | a phone saved by an earlier row of the same batch makes the later row skipped |
| ContactRoutes.ImportAbsorbsBatch | server/routes/contacts.js:122-139 | after an import, each row of the batch is either stored or refused by the schema |
| ContactRoutes.ReimportImportsNothing | server/routes/contacts.js:122-139 | importing the same batch again imports nothing and changes nothing |
| ContactRoutes.Matching | server/routes/contacts.js:11-27 | the listed contacts are exactly those matching the search in name, phone or email, the exact status and any of the comma-separated tags |
| ContactRoutes.MatchingNewestFirst | server/routes/contacts.js:30 | the contact listing is newest first: a contact stored later comes before every earlier one |
| ContactRoutes.EmptyQueryMatchesAll | server/routes/contacts.js:11-30 | with no search, status or tags every contact is listed, newest first |
| ContactRoutes.ListContacts | server/routes/contacts.js:7-45 | the listing is the requested page of the matching contacts, with their count as total; every listed contact is stored and matches the query |
| AuthRoutes.Register | server/routes/auth.js:10-72 | register succeeds iff all fields are present, the password has 6 characters and the email is new; the checks report in that order; only success adds a user |
| AuthRoutes.RegisterKeepsEmailsUnique | server/routes/auth.js:27-31 | registration never stores two users with one email |
| AuthRoutes.RegisterTwiceRefused | server/routes/auth.js:27-31 | a second registration with the same email is refused |
| AuthRoutes.Login | server/routes/auth.js:75-131 | login succeeds iff the account exists, is active and the password matches; missing fields get 400 first, an unknown email 401; only success records the login time |
| AuthRoutes.LoginDoesNotRevealAccounts | server/routes/auth.js:85-98 | a wrong password gets the same reply as an unknown email; an inactive account is reported before the password is checked |
| AuthRoutes.ForgotPassword | server/routes/auth.js:220-249 | a known email gets a reset token that expires one hour later; the reply is the same success whether the email is known or not |
| AuthRoutes.ForgotPasswordDoesNotRevealAccounts | server/routes/auth.js:228-243 | the reply to a forgot-password request does not depend on the stored accounts |
| AuthRoutes.ResetPassword | server/routes/auth.js:251-286 | reset succeeds iff token and password are given, the password has 6 characters and some user holds that live token; missing fields are refused before a short password, and every refusal is a 400 that changes nothing; success sets the password and clears the token |
| AuthRoutes.ResetTokenSingleUse | server/routes/auth.js:263-278 | a reset token works once: a second reset with it is refused |
| AuthRoutes.ResetWithinTheHour | server/routes/auth.js:235-278 | a token just issued resets the password iff it is used within the hour |
| ContactCsv.ParseLine | src/components/ContactImportExport.tsx:49-79 | a line with fewer than two fields gives no contact, and every contact a line gives has a name and a phone |
| ContactCsv.ParseCsv | src/components/ContactImportExport.tsx:42-82 | fewer than two non-blank lines parse to nothing; every parsed contact has a name and a phone |
| ContactCsv.SetColumn | src/components/ContactImportExport.tsx:55-73 | unknown headers are ignored; name and phone take the value; an empty email leaves the email unset; a valid status is kept and any other becomes `active`; tags are the `;`-split list; every other column is untouched |
| ContactCsv.TagList | src/components/ContactImportExport.tsx:70-71 | parsed tags are non-empty, trimmed and free of `;` |
| ContactCsv.TagsRoundTrip | src/components/ContactImportExport.tsx:27-71 | splitting tags joined with `;` gives the tags back |
| ContactCsv.LineRoundTrip | src/components/ContactImportExport.tsx:22-78 | parsing an exported line under the exported header gives back its name, phone, email, status and tags |
| ContactCsv.ExportThenParse | src/components/ContactImportExport.tsx:18-82 | parsing exported text recovers every exported contact in order, for fields free of commas, quotes and surrounding spaces |
| ContactCsv.HeaderColumns | src/components/ContactImportExport.tsx:19-46 | the exported header is read back as the five known column names |
| ContactCsv.TemplateIsExport | src/components/ContactImportExport.tsx:109 | the downloadable template is exactly the export of its two sample contacts, so it parses to those two contacts |
| ContactForm.FormatPhone | src/components/ContactForm.tsx:50-62 | with fewer than 10 digits the input is returned as typed; otherwise the result is `+` and digits, ending with the typed digits |
| ContactForm.FormatPhoneDigits | src/components/ContactForm.tsx:55-59 | ten digits not starting with 1 get a leading 1; any other valid number keeps its digits |
| ContactForm.FormatPhoneIdempotent | src/components/ContactForm.tsx:50-62 | formatting a formatted number changes nothing |
| ContactForm.FormatPhoneKeepsValid | src/components/ContactForm.tsx:50-67 | a number is valid after formatting iff it was before |
| ContactForm.Submit | src/components/ContactForm.tsx:69-83 | nothing is submitted iff the phone is invalid; otherwise the phone is formatted and an empty email is dropped |
| ContactForm.SubmittedPhoneIsFormatted | src/components/ContactForm.tsx:69-83 | a submitted phone is valid and already formatted |
| ContactForm.AddTag | src/components/ContactForm.tsx:85-93 | the list changes iff the trimmed draft is non-empty and new; then it is appended and the draft is cleared |
| ContactForm.RemoveTag | src/components/ContactForm.tsx:95-100 | every copy of the tag goes and every other tag stays |
| ContactForm.TagsStayDistinct | src/components/ContactForm.tsx:85-100 | the tag editor never creates a duplicate |
| ContactForm.RemoveUndoesAdd | src/components/ContactForm.tsx:85-100 | removing a tag just added restores the list |
| TemplateForm.ScanFlatten | src/components/TemplateForm.tsx:92-95 | scanning a template for `{{word}}` yields its tokens' keys in order |
| TemplateForm.Discovered | src/components/TemplateForm.tsx:95-101 | the discovered names are the scanned names, de-duplicated in first-occurrence order, minus those declared; each is a text variable, not required |
| TemplateForm.ExtractVariables | src/components/TemplateForm.tsx:91-108 | existing variables stay as a prefix; appended ones are new, distinct, scanned names; afterwards every scanned name is declared |
| TemplateForm.ExtractIdempotent | src/components/TemplateForm.tsx:97-101 | extracting twice adds nothing the second time |
| TemplateForm.ExtractFromPieces | src/components/TemplateForm.tsx:91-106 | for a well-formed template, the appended names are its keys de-duplicated, minus those declared |
| TemplateForm.PreviewPieces | src/components/TemplateForm.tsx:110-117 | the preview shows each declared variable's tokens as `[NAME]` and leaves undeclared tokens and text as written |
| TemplateForm.AddVariable | src/components/TemplateForm.tsx:74-82 | a draft is appended iff its trimmed name is non-empty, and the draft is then reset |
| TemplateForm.RemoveVariable | src/components/TemplateForm.tsx:84-89 | exactly index i is removed and the rest keep their order |
| TemplateForm.RemoveUndoesAdd | src/components/TemplateForm.tsx:74-89 | removing the variable just added restores the list |
| ResetPassword.FirstBroken | src/pages/ResetPassword.tsx:47-61 | no rule is broken iff all are met; otherwise the first broken rule in order is reported |
| ResetPassword.ValidatePassword | src/pages/ResetPassword.tsx:47-61 | a password is accepted iff it has 6 characters, a lowercase letter, an uppercase letter and a digit |
| ResetPassword.ValidateReportsFirstBroken | src/pages/ResetPassword.tsx:47-61 | the message is that of the first rule broken, in the order length, lowercase, uppercase, number |
| ResetPassword.Strength | src/pages/ResetPassword.tsx:119-127 | strength is at most 5; it is 5 iff all five criteria hold and 0 iff none do |
| ResetPassword.TextAndColorAgree | src/pages/ResetPassword.tsx:129-141 | text and colour change at the same thresholds (1, 2, 3) and never go down as strength rises |
| ResetPassword.AcceptedIsStrong | src/pages/ResetPassword.tsx:47-141 | an accepted password scores at least 4 and shows as strong |
| ResetPassword.StrongButRefused | src/pages/ResetPassword.tsx:47-141 | a password with a symbol but no digit shows as strong and is refused |
| ResetPassword.SubmitReset | src/pages/ResetPassword.tsx:63-97 | the reset is sent iff the password is non-empty, valid and equal to its confirmation; refusals come in the order empty field, weak password, mismatch |
| ResetPassword.SentPasswordPassesServerChecks | src/pages/ResetPassword.tsx:63-97 | whatever the page sends passes the server's own length check |
| ForgotPassword.ValidateEmail | src/pages/ForgotPassword.tsx:26-29 | an accepted email has no space, exactly one `@`, and something before it |
| ForgotPassword.ValidateEmailIsPattern | src/pages/ForgotPassword.tsx:27 | cutting at the first `@` accepts exactly the strings of the pattern's shape: a dot strictly inside the part after the `@` |
| ForgotPassword.SubmitForgot | src/pages/ForgotPassword.tsx:31-55 | a blank field is refused first, then a malformed email; only a valid email requests a link, as typed |
| ForgotPassword.RequestIffValid | src/pages/ForgotPassword.tsx:34-55 | a link is requested iff the email is valid |
| BroadcastForm.Toggle | src/components/NewBroadcastForm.tsx:40-46 | toggling flips the id's membership and leaves every other id; an added id is appended at the end |
| BroadcastForm.ToggleTwice | src/components/NewBroadcastForm.tsx:40-46 | toggling an absent id twice restores the selection |
| BroadcastForm.ToggleKeepsDistinct | src/components/NewBroadcastForm.tsx:40-46 | toggling never creates a duplicate |
| BroadcastForm.TotalAfterToggle | src/components/NewBroadcastForm.tsx:40-65 | adding a group raises the total by its size, dropping it lowers the total by its size |
| BroadcastForm.KnownGroupSizes | src/components/NewBroadcastForm.tsx:32-65 | the three groups count 450, 1200 and 890, and an unknown id adds nothing |
| BroadcastForm.FirstGroupEnablesSubmit | src/components/NewBroadcastForm.tsx:204 | with a name and a template, choosing a group enables submit and deselecting it disables it again |

## Left out

- The Bull queue and Redis: the queue is a map from job id to campaign, delay, attempts and backoff. Retries, backoff timing and the worker's concurrency are not modelled.
- Persistence failures: the model follows the schema refusals it names: the empty content of a message (`Delivery.Deliver`), a blank campaign name (`CampaignRoutes.CreateCampaign`, `CampaignRoutes.UpdateCampaign`) and the contact validators (`ContactRoutes.Validate`). Every other save is assumed to succeed, including the cancel's save that the unique `jobId` index refuses (see `Scheduler.CancelCampaign` below). The double count when a later save throws after `sent++` is therefore not modelled.
- Delivery.Dispatch: when a contact's message cannot be saved, the handler looks up an older message of the same campaign and contact, left by an earlier pass, and marks it failed; the model leaves earlier messages untouched.
- Concurrency: pause or cancel arriving while a pass is in flight, races between a pass and receipt ingestion, and a paused campaign later overwritten to completed. Routes act only between passes.
- Regular-expression semantics: keys, variable names and the contact search are literal text. Metacharacters in them, and `$` patterns in replacement values, are not modelled. The exception is a key that turns the braces of the server's rendering pattern into a quantifier (digits alone, `n,` or `n,m`), which `Templating.ServerRegexFor` models and the dispatch pass uses through `Templating.RenderAsWritten` (see Findings). Quantifier numbers are unbounded integers; an engine's cap on very large ones is not modelled.
- Character handling: strings are sequences of characters, not UTF-16 units. Whitespace is JavaScript's full `\s` set (the set `trim` strips); case mapping covers ASCII letters only.
- Floating point: `60000 / rate` is a real number, not a double.
- Hashing and tokens: bcrypt is an oracle on (password, stored hash); JWT issuing, OAuth, e-mail sending, the n8n routes and the server wiring are not modelled.
- CSV quoting: the importer is not quote-aware and is not section 2 of RFC 4180. Only its split-on-comma-and-strip-quotes behaviour is modelled.
- Receipts with a status outside sent, delivered, read and failed (such as `pending`) are not modelled.
- The toasts and navigation after the reset-password and forgot-password API calls: only the check order and the call are modelled.
- React state, rendering and the mock template list of the broadcast form.
- ContactCsv.ExportThenParse: the round trip is proved only for fields free of commas, quotes, newlines and surrounding spaces. Other fields do not round-trip in the source either.
- TemplateForm.PreviewPieces: proved for word-character variable names and brace-free text. Other names go through the regular-expression engine, which is not modelled.
- Paging.Paginate: page and limit are integers. The string-to-number coercion of query parameters is not modelled.
- Templating.RenderResolves: states the intended rendering, which fills every `{{key}}` token. The server as written misses tokens whose key reads as a quantifier (digits alone, `n,` or `n,m`) in campaign variables or metadata, and throws when its bounds are out of order (see Findings); `Templating.RenderAsWritten` agrees with it for every other key.
- Templating.PassOrderIsPrecedence: the precedence is that of the intended rendering; with keys that read as a quantifier the server's campaign and metadata passes do not fill the token at all (see Findings).
- TemplateText.ReplaceAllFill: a pass replaces the literal placeholder. The server's pattern is that placeholder for every word-character key except all-digit ones, and for no key of the form `n,` or `n,m` (see Findings).
- TemplateText.ReplaceEachResolves: as for ReplaceAllFill, keys that read as a quantifier go through `Templating.ReplaceEachAsWritten` instead, which agrees with it for every plain key.
- CampaignRoutes.UpdateCampaign: the update carries the nine fields the model stores (name, template, contacts, variables, time, status, progress, rate, provider). A `jobId`, `timezone` or other field in the body, and values the schema would reject (an unknown status, a malformed date), are not modelled. The time comparison is on integers, while the source compares the request's string with `toISOString()`, so a time written in another format for the same instant reschedules in the source and not in the model. The duplicate-key failure of the reschedule's cancel (see `Scheduler.CancelCampaign`) is not modelled either.
- Scheduler.CancelCampaign: the schema declares `jobId` unique and sparse (server/models/Campaign.js:44-48). Cancelling stores an explicit null (server/services/scheduler.js:173-175), and a sparse index still indexes an explicit null. So once one campaign has been cancelled, every later cancel's save fails with a duplicate key. By then the job has already been removed, and the campaign keeps its status and its old job id. The model does not distinguish an absent `jobId` from a null one, and every cancel of a campaign with a job succeeds in it.
- Scheduler.RescheduleCampaign: fails in the model iff the campaign is missing. The duplicate-key failure of its cancel, which the source propagates, is not modelled.
- CampaignRoutes.CancelRoute: answers 500 iff the model's cancel fails, so the duplicate-key 500 is not modelled.
- CampaignRoutes.DeleteCampaign: in the source, the cancel's duplicate-key failure would answer 500 after dequeuing the job, deleting neither the messages nor the campaign. The model always deletes them.

## Findings

| source | as written | input that shows it | evidently intended | confidence | as-written member | corrected member |
|---|---|---|---|---|---|---|
| server/services/scheduler.js:185-210 | the old job is cancelled through `cancelCampaign`, which saves its own copy as cancelled; the handler's copy still reads scheduled, so setting it to scheduled is no change and its save writes only the time and the new job | a scheduled campaign with a queued job, rescheduled to any time (directly or through `PUT /campaigns/:id` with a new time) | the campaign is scheduled again and its new job sends it | not executed | Scheduler.RescheduleCampaign, Scheduler.RescheduledScheduledCampaignIsSkipped, CampaignRoutes.UpdateMovingScheduledCampaignIsSkipped | Scheduler.RescheduleCampaignIntended, Scheduler.RescheduledCampaignRuns |
| server/services/whatsappService.js:171 | the pattern is built as ``new RegExp(`{{${key}}}`)`` without escaping, so for a key of digits, `n,` or `n,m` the inner braces read as a quantifier: `{{2}}` matches `{{}`, `{{1,2}}` matches one or two `{` then `}`, and `{{2,1}}` is a syntax error that fails every contact | campaign variables `{"2": "x"}` and body `{{2}}`; or `{"1,2": "x"}` and body `{{1,2}}`; or any body with a variable `2,1` | the placeholder renders as the variable's value | not executed | Templating.RenderAsWritten, Templating.DigitKeyNotFilled, Templating.CommaKeyNotFilled, Templating.UnparsableKeyThrows, Delivery.DeliverDigitKeySendsPlaceholder, Delivery.DeliverCommaKeySendsPlaceholder, Delivery.PassWithUnparsableKey | Templating.Render, Templating.DigitKeyFilled, Templating.CommaLiteralFills |

=== FILE: auth_routes.dfy ===
/** The email/password account routes: registration and login checks in
    their order, and the password-reset token, which is issued for one hour
    and cleared by the reset that uses it. Hashing is an oracle: the model
    stores the password as given and asks `Matches` whether a candidate
    fits a stored one. */
module AuthRoutes {
  import opened Wrappers
  import opened Text

  type Time = int

  /** One hour, the lifetime of a reset token. */
  const ResetTokenLifetime: int := 3600000
  const MinPasswordLength: nat := 6

  /** The stored account. `password` is absent for accounts created through
      an OAuth provider. */
  datatype User = User(
    email: string,
    password: Option<string>,
    firstName: string,
    lastName: string,
    isActive: bool,
    lastLoginAt: Option<Time>,
    resetToken: Option<string>,
    resetExpires: Option<Time>)

  /** The password-hash comparison. */
  type Matches = (string, string) -> bool

  /** The schema's setters on `email`, applied to stored values and to
      query values alike. */
  function NormalEmail(e: string): string {
    ToLower(Trim(e))
  }

  /** `findOne({ email })`: the first account with that email. */
  function FindByEmail(users: seq<User>, email: string): (r: Option<nat>)
    ensures r.Some? ==> r.value < |users| && users[r.value].email == NormalEmail(email)
    ensures r.Some? ==> forall k :: 0 <= k < r.value ==> users[k].email != NormalEmail(email)
    ensures r.None? <==> forall k :: 0 <= k < |users| ==> users[k].email != NormalEmail(email)
  {
    FindFrom(users, 0, (u: User) => u.email == NormalEmail(email))
  }

  /** The first index from `i` on whose account satisfies `p`. */
  function FindFrom(users: seq<User>, i: nat, p: User -> bool): (r: Option<nat>)
    requires i <= |users|
    ensures r.Some? ==> i <= r.value < |users| && p(users[r.value])
    ensures r.Some? ==> forall k :: i <= k < r.value ==> !p(users[k])
    ensures r.None? <==> forall k :: i <= k < |users| ==> !p(users[k])
    decreases |users| - i
  {
    if i == |users| then None
    else if p(users[i]) then Some(i)
    else FindFrom(users, i + 1, p)
  }

  datatype Reply = Reply(code: nat, message: string)

  const InternalError: Reply := Reply(500, "Internal server error")

  datatype RegisterRequest = RegisterRequest(email: string, password: string, firstName: string, lastName: string)

  const FieldsRequired: string := "Email, password, first name, and last name are required"
  const PasswordTooShort: string := "Password must be at least 6 characters long"
  const UserExists: string := "User already exists with this email"

  /** Every required field was sent. */
  predicate FieldsPresent(req: RegisterRequest) {
    req.email != "" && req.password != "" && req.firstName != "" && req.lastName != ""
  }

  /** The account the schema saves: email normalised, names trimmed, the
      password as given (hashing is an oracle), active, never logged in. */
  function NewUser(req: RegisterRequest): User {
    User(NormalEmail(req.email), Some(req.password), Trim(req.firstName), Trim(req.lastName), true, None, None, None)
  }

  /** `POST /auth/register`. An empty string stands for a missing field. The
      required-field checks see the fields as sent; the schema then trims
      them, and a name or email that was only spaces fails its save. */
  function Register(users: seq<User>, req: RegisterRequest): (r: (seq<User>, Reply))
    ensures r.1.code == 201 <==>
      && FieldsPresent(req) && |req.password| >= MinPasswordLength && FindByEmail(users, req.email).None?
      && NormalEmail(req.email) != "" && Trim(req.firstName) != "" && Trim(req.lastName) != ""
    ensures r.1.code == 201 ==> r.0 == users + [NewUser(req)]
    ensures r.1.code != 201 ==> r.0 == users
    ensures r.1.code == 201 || r.1.code == 400 || r.1 == InternalError
    ensures !FieldsPresent(req) ==> r.1 == Reply(400, FieldsRequired)
    ensures FieldsPresent(req) && |req.password| < MinPasswordLength ==> r.1 == Reply(400, PasswordTooShort)
    ensures FieldsPresent(req) && |req.password| >= MinPasswordLength && FindByEmail(users, req.email).Some? ==>
      r.1 == Reply(400, UserExists)
  {
    if !FieldsPresent(req) then (users, Reply(400, FieldsRequired))
    else if |req.password| < MinPasswordLength then (users, Reply(400, PasswordTooShort))
    else if FindByEmail(users, req.email).Some? then (users, Reply(400, UserExists))
    else if NormalEmail(req.email) == "" || Trim(req.firstName) == "" || Trim(req.lastName) == "" then
      (users, InternalError)
    else (users + [NewUser(req)], Reply(201, "User registered successfully"))
  }

  /** Registration keeps emails unique. */
  predicate EmailsUnique(users: seq<User>) {
    forall i, j :: 0 <= i < j < |users| ==> users[i].email != users[j].email
  }

  lemma RegisterKeepsEmailsUnique(users: seq<User>, req: RegisterRequest)
    requires EmailsUnique(users)
    ensures EmailsUnique(Register(users, req).0)
  {
    if Register(users, req).1.code == 201 {
      AppendNewEmail(users, NewUser(req));
    }
  }

  lemma AppendNewEmail(users: seq<User>, u: User)
    requires EmailsUnique(users)
    requires forall k :: 0 <= k < |users| ==> users[k].email != u.email
    ensures EmailsUnique(users + [u])
  {
    var next := users + [u];
    forall i, j | 0 <= i < j < |next|
      ensures next[i].email != next[j].email
    {
      assert next[i] == users[i];
    }
  }

  /** A second registration with the same address is refused, however its
      case and surrounding spaces differ. */
  lemma RegisterTwiceRefused(users: seq<User>, a: RegisterRequest, b: RegisterRequest)
    requires Register(users, a).1.code == 201
    requires FieldsPresent(b) && |b.password| >= MinPasswordLength && NormalEmail(b.email) == NormalEmail(a.email)
    ensures Register(Register(users, a).0, b).1 == Reply(400, UserExists)
  {
    var next := Register(users, a).0;
    assert next[|users|].email == NormalEmail(b.email);
  }

  const BadCredentials: string := "Invalid email or password"

  /** `POST /auth/login`: on success the account's `lastLoginAt` is `now`. */
  function Login(users: seq<User>, email: string, password: string, matches: Matches, now: Time): (r: (seq<User>, Reply))
    ensures r.1.code == 200 <==>
      && email != "" && password != "" && FindByEmail(users, email).Some?
      && var u := users[FindByEmail(users, email).value];
         u.isActive && u.password.Some? && matches(password, u.password.value)
    ensures r.1.code == 200 ==>
      var i := FindByEmail(users, email).value;
      r.0 == users[i := users[i].(lastLoginAt := Some(now))]
    ensures r.1.code != 200 ==> r.0 == users
    ensures email == "" || password == "" ==> r.1.code == 400
    ensures email != "" && password != "" && FindByEmail(users, email).None? ==>
      r.1 == Reply(401, BadCredentials)
    ensures r.1.code == 200 || r.1.code == 400 || r.1.code == 401
  {
    if email == "" || password == "" then (users, Reply(400, "Email and password are required"))
    else
      match FindByEmail(users, email)
      case None => (users, Reply(401, BadCredentials))
      case Some(i) =>
        var u := users[i];
        if !u.isActive then (users, Reply(401, "Account is deactivated"))
        else if u.password.None? || !matches(password, u.password.value) then (users, Reply(401, BadCredentials))
        else (users[i := u.(lastLoginAt := Some(now))], Reply(200, "Login successful"))
  }

  /** A wrong password and an unknown email get the same answer; a
      deactivated account is reported whatever the password. */
  lemma LoginDoesNotRevealAccounts(users: seq<User>, email: string, password: string, matches: Matches, now: Time)
    requires email != "" && password != ""
    ensures var i := FindByEmail(users, email);
      i.Some? && users[i.value].isActive && users[i.value].password.Some?
      && !matches(password, users[i.value].password.value)
      ==> Login(users, email, password, matches, now).1 == Login([], email, password, matches, now).1
    ensures var i := FindByEmail(users, email);
      i.Some? && !users[i.value].isActive
      ==> Login(users, email, password, matches, now).1 == Reply(401, "Account is deactivated")
  {
  }

  const ResetSent: string := "If an account with that email exists, a password reset link has been sent."

  /** `POST /auth/forgot-password`; `token` is the random token the route
      draws. */
  function ForgotPassword(users: seq<User>, email: string, token: string, now: Time): (r: (seq<User>, Reply))
    ensures email == "" ==> r == (users, Reply(400, "Email is required"))
    ensures email != "" ==> r.1 == Reply(200, ResetSent)
    ensures email != "" && FindByEmail(users, email).Some? ==>
      var i := FindByEmail(users, email).value;
      r.0 == users[i := users[i].(resetToken := Some(token), resetExpires := Some(now + ResetTokenLifetime))]
    ensures FindByEmail(users, email).None? ==> r.0 == users
  {
    if email == "" then (users, Reply(400, "Email is required"))
    else
      match FindByEmail(users, email)
      case None => (users, Reply(200, ResetSent))
      case Some(i) =>
        var u := users[i].(resetToken := Some(token), resetExpires := Some(now + ResetTokenLifetime));
        (users[i := u], Reply(200, ResetSent))
  }

  /** The reply never tells whether the address belongs to an account. */
  lemma ForgotPasswordDoesNotRevealAccounts(users: seq<User>, others: seq<User>, email: string, token: string, now: Time)
    ensures ForgotPassword(users, email, token, now).1 == ForgotPassword(others, email, token, now).1
  {
  }

  /** The account the reset query finds: a holder of `token` whose expiry
      is strictly after `now`. */
  predicate HoldsLiveToken(u: User, token: string, now: Time) {
    u.resetToken == Some(token) && u.resetExpires.Some? && u.resetExpires.value > now
  }

  /** `POST /auth/reset-password`. */
  function ResetPassword(users: seq<User>, token: string, password: string, now: Time): (r: (seq<User>, Reply))
    ensures r.1.code == 200 <==>
      token != "" && password != "" && |password| >= MinPasswordLength
      && exists k :: 0 <= k < |users| && HoldsLiveToken(users[k], token, now)
    ensures r.1.code == 200 ==>
      var i := FindFrom(users, 0, (u: User) => HoldsLiveToken(u, token, now)).value;
      r.0 == users[i := users[i].(password := Some(password), resetToken := None, resetExpires := None)]
    ensures r.1.code != 200 ==> r.0 == users && r.1.code == 400
    ensures token == "" || password == "" ==> r.1 == Reply(400, "Token and password are required")
    ensures token != "" && password != "" && |password| < MinPasswordLength ==> r.1 == Reply(400, PasswordTooShort)
  {
    if token == "" || password == "" then (users, Reply(400, "Token and password are required"))
    else if |password| < MinPasswordLength then (users, Reply(400, PasswordTooShort))
    else
      match FindFrom(users, 0, (u: User) => HoldsLiveToken(u, token, now))
      case None => (users, Reply(400, "Invalid or expired reset token"))
      case Some(i) =>
        var u := users[i].(password := Some(password), resetToken := None, resetExpires := None);
        (users[i := u], Reply(200, "Password reset successful"))
  }

  /** No two accounts hold the same reset token (tokens are 32 random
      bytes). */
  predicate TokenHeldOnce(users: seq<User>, token: string) {
    forall i, j ::
      (0 <= i < |users| && 0 <= j < |users| && users[i].resetToken == Some(token)
       && users[j].resetToken == Some(token)) ==> i == j
  }

  /** A reset token works once: the reset that uses it clears it. */
  lemma ResetTokenSingleUse(users: seq<User>, token: string, p1: string, p2: string, now1: Time, now2: Time)
    requires TokenHeldOnce(users, token)
    requires ResetPassword(users, token, p1, now1).1.code == 200
    ensures ResetPassword(ResetPassword(users, token, p1, now1).0, token, p2, now2).1.code == 400
  {
    var i := FindFrom(users, 0, (u: User) => HoldsLiveToken(u, token, now1)).value;
    var next := ResetPassword(users, token, p1, now1).0;
    forall k | 0 <= k < |next|
      ensures !HoldsLiveToken(next[k], token, now2)
    {
      if k != i {
        assert next[k] == users[k];
      }
    }
  }

  /** A token issued at `issued` opens a reset at `now` exactly while less
      than an hour has passed. */
  lemma ResetWithinTheHour(users: seq<User>, email: string, token: string, password: string, issued: Time, now: Time)
    requires email != "" && token != "" && password != "" && |password| >= MinPasswordLength
    requires FindByEmail(users, email).Some?
    requires forall k :: 0 <= k < |users| ==> users[k].resetToken != Some(token)
    ensures var next := ForgotPassword(users, email, token, issued).0;
      ResetPassword(next, token, password, now).1.code == 200 <==> now < issued + ResetTokenLifetime
  {
    var i := FindByEmail(users, email).value;
    var next := ForgotPassword(users, email, token, issued).0;
    if now < issued + ResetTokenLifetime {
      assert HoldsLiveToken(next[i], token, now);
    } else {
      forall k | 0 <= k < |next|
        ensures !HoldsLiveToken(next[k], token, now)
      {
        if k != i {
          assert next[k] == users[k];
        }
      }
    }
  }
}

=== FILE: broadcast_form.dfy ===
/** The new-broadcast form: choosing contact groups, the recipient total
    shown for the choice, and when the form may be submitted. */
module BroadcastForm {
  import opened Wrappers
  import opened Lists

  datatype Group = Group(id: string, name: string, count: nat)

  const VipId: string := "1"
  const NewsletterId: string := "2"
  const RecentId: string := "3"

  /** The groups the form offers. */
  const Groups: seq<Group> := [
    Group(VipId, "VIP Customers", 450),
    Group(NewsletterId, "Newsletter Subscribers", 1200),
    Group(RecentId, "Recent Customers", 890)
  ]

  /** `groups.find(g => g.id === id)`. */
  function FindGroup(groups: seq<Group>, id: string): (r: Option<Group>)
    ensures r.None? <==> forall i :: 0 <= i < |groups| ==> groups[i].id != id
    ensures r.Some? ==> exists i :: 0 <= i < |groups| && groups[i] == r.value && r.value.id == id
                                  && forall j :: 0 <= j < i ==> groups[j].id != id
  {
    if |groups| == 0 then None
    else if groups[0].id == id then Some(groups[0])
    else
      var r := FindGroup(groups[1..], id);
      assert forall i :: 1 <= i < |groups| ==> groups[i] == groups[1..][i - 1];
      if r.Some? then
        var i :| 0 <= i < |groups[1..]| && groups[1..][i] == r.value && r.value.id == id
                 && forall j :: 0 <= j < i ==> groups[1..][j].id != id;
        assert groups[i + 1] == r.value;
        r
      else r
  }

  /** What one selected id adds to the total: its group's size, or 0 for an
      id no group has (`group?.count || 0`). */
  function GroupSize(id: string): nat {
    match FindGroup(Groups, id)
    case Some(g) => g.count
    case None => 0
  }

  /** `handleGroupToggle`: a selected id is deselected, every copy of it;
      any other id is added at the end. */
  function Toggle(selected: seq<string>, id: string): (r: seq<string>)
    ensures id in r <==> id !in selected
    ensures forall other :: other != id ==> (other in r <==> other in selected)
    ensures id !in selected ==> |selected| < |r| && r[..|selected|] == selected
  {
    if id in selected then Without(selected, id) else selected + [id]
  }

  /** Toggling an unselected id twice restores the selection. */
  lemma ToggleTwice(selected: seq<string>, id: string)
    requires id !in selected
    ensures Toggle(Toggle(selected, id), id) == selected
  {
    WithoutAppended(selected, id);
  }

  /** A selection built by toggling never holds an id twice. */
  lemma ToggleKeepsDistinct(selected: seq<string>, id: string)
    requires Distinct(selected)
    ensures Distinct(Toggle(selected, id))
  {
    if id in selected {
      WithoutDistinct(selected, id);
    } else {
      AppendDistinct(selected, id);
    }
  }

  /** `totalRecipients`: the sizes of the selected ids added up. */
  function TotalRecipients(selected: seq<string>): nat {
    if |selected| == 0 then 0 else GroupSize(selected[0]) + TotalRecipients(selected[1..])
  }

  lemma {:induction false} TotalAppend(a: seq<string>, b: seq<string>)
    ensures TotalRecipients(a + b) == TotalRecipients(a) + TotalRecipients(b)
  {
    if |a| == 0 {
      assert a + b == b;
    } else {
      assert (a + b)[1..] == a[1..] + b;
      TotalAppend(a[1..], b);
    }
  }

  lemma TotalDrop(before: seq<string>, after: seq<string>, id: string)
    ensures TotalRecipients(before + ([id] + after)) == TotalRecipients(before + after) + GroupSize(id)
  {
    TotalAppend(before, after);
    TotalAppend(before, [id] + after);
    assert ([id] + after)[1..] == after;
  }

  /** Toggling moves the total by the toggled group's size: up when it is
      added, down when a selection without repeats drops it. */
  lemma TotalAfterToggle(selected: seq<string>, id: string)
    requires Distinct(selected)
    ensures id !in selected ==> TotalRecipients(Toggle(selected, id)) == TotalRecipients(selected) + GroupSize(id)
    ensures id in selected ==> TotalRecipients(Toggle(selected, id)) + GroupSize(id) == TotalRecipients(selected)
  {
    if id in selected {
      var i :| 0 <= i < |selected| && selected[i] == id;
      var before, after := selected[..i], selected[i + 1..];
      DistinctSplit(selected, i);
      WithoutOnly(before, after, id);
      TotalDrop(before, after, id);
    } else {
      TotalAppend(selected, [id]);
    }
  }

  /** The form's own groups: 450 VIP, 1200 newsletter and 890 recent
      customers; an id outside them counts for nothing. */
  lemma KnownGroupSizes()
    ensures GroupSize(VipId) == 450 && GroupSize(NewsletterId) == 1200 && GroupSize(RecentId) == 890
    ensures TotalRecipients([VipId, RecentId]) == 1340
    ensures TotalRecipients([VipId, "4"]) == 450
  {
    var g1, g2 := Groups[1..], Groups[2..];
    assert g1[1..] == g2 && g2[1..] == [];
    assert FindGroup(Groups, RecentId) == FindGroup(g1, RecentId) == FindGroup(g2, RecentId);
    assert FindGroup(Groups, "4") == FindGroup(g1, "4") == FindGroup(g2, "4") == None;
    var a, b := [VipId, RecentId], [VipId, "4"];
    assert a[1..] == [RecentId] && b[1..] == ["4"];
    assert TotalRecipients([RecentId]) == 890 && TotalRecipients(["4"]) == 0;
  }

  /** The submit button is enabled with a campaign name, a template and at
      least one group. */
  predicate CanSubmit(campaignName: string, templateId: string, selected: seq<string>) {
    campaignName != "" && templateId != "" && |selected| > 0
  }

  /** Choosing a group is what enables a named broadcast with a template,
      and deselecting the only group disables it again. */
  lemma FirstGroupEnablesSubmit(campaignName: string, templateId: string, id: string)
    requires campaignName != "" && templateId != ""
    ensures !CanSubmit(campaignName, templateId, [])
    ensures CanSubmit(campaignName, templateId, Toggle([], id))
    ensures !CanSubmit(campaignName, templateId, Toggle(Toggle([], id), id))
  {
    ToggleTwice([], id);
  }
}

=== FILE: campaign_routes.dfy ===
/** The campaign HTTP handlers' guards and bookkeeping: creation validates
    the template and contacts and schedules the campaign; updates are
    refused while sending or after completion; pause and resume only move
    between `sending` and `paused`; deletion cancels a pending job and
    removes the campaign with its messages. */
module CampaignRoutes {
  import opened Wrappers
  import opened Text
  import opened TemplateText
  import opened Domain
  import opened Scheduler
  import opened Paging

  /** A rejected request: HTTP status and error text. */
  datatype HttpError = HttpError(code: nat, message: string)

  /** The fields a create request carries; a zero rate stands for an
      absent one. */
  datatype CreateRequest = CreateRequest(
    name: string,
    templateId: TemplateId,
    contactIds: seq<ContactId>,
    variables: Bindings,
    scheduledAt: Time,
    rateLimitPerMinute: nat)

  function Ids(cs: seq<Contact>): (r: seq<ContactId>)
    ensures |r| == |cs| && forall i :: 0 <= i < |cs| ==> r[i] == cs[i].id
  {
    seq(|cs|, i requires 0 <= i < |cs| => cs[i].id)
  }

  const TemplateMissing: string := "Template not found"
  const NoValidContacts: string := "No valid contacts found"
  const CannotUpdate: string := "Cannot update campaign that is sending or completed"
  /** The validation error a save reports when `name` trims to nothing. */
  const NameRequired: string := "Campaign validation failed: name: Path `name` is required."
  const PauseRefused: string := "Can only pause sending campaigns"
  const ResumeRefused: string := "Can only resume paused campaigns"

  /** A name the schema refuses: `name` is required and trimmed, so one
      made only of whitespace is stored as nothing. */
  predicate BlankName(name: string) {
    Trim(name) == ""
  }

  /** `POST /campaigns` with `id` the new document's id. The template and
      contacts are checked first; a blank name then makes the first save
      throw, which the handler answers with a server error. */
  function CreateCampaign(w: World, contacts: seq<Contact>, templates: map<TemplateId, Template>,
                          req: CreateRequest, id: CampaignId, now: Time): (r: Result<World, HttpError>)
    requires id !in w.campaigns
    ensures req.templateId !in templates ==> r == Failure(HttpError(400, TemplateMissing))
    ensures req.templateId in templates && |Eligible(contacts, req.contactIds)| == 0 ==>
      r == Failure(HttpError(400, NoValidContacts))
    ensures req.templateId in templates && |Eligible(contacts, req.contactIds)| > 0 && BlankName(req.name) ==>
      r == Failure(HttpError(500, NameRequired))
    ensures r.Success? <==> req.templateId in templates && |Eligible(contacts, req.contactIds)| > 0 && !BlankName(req.name)
    ensures r.Success? ==> id in r.value.campaigns
    ensures r.Success? ==>
      var eligible := Eligible(contacts, req.contactIds);
      var c := r.value.campaigns[id];
      && c.name == Trim(req.name) && c.name != ""
      && c.status == Scheduled && c.provider == AutoProvider
      && c.progress == Progress(|eligible|, 0, 0, 0, 0)
      && c.contacts == Ids(eligible)
      && c.rateLimitPerMinute == (if req.rateLimitPerMinute == 0 then 60 else req.rateLimitPerMinute)
      && c.scheduledAt == (if req.scheduledAt > now then req.scheduledAt else now)
      && c.jobId == Some(w.nextJobId)
      && r.value.queue == w.queue[w.nextJobId := Job(id, EnqueueDelay(req.scheduledAt, now), 3, 2000)]
      && (forall x :: x in w.campaigns ==> x in r.value.campaigns && r.value.campaigns[x] == w.campaigns[x])
    ensures r.Success? && Valid(w) ==> Valid(r.value)
  {
    if req.templateId !in templates then Failure(HttpError(400, TemplateMissing))
    else
      var eligible := Eligible(contacts, req.contactIds);
      if |eligible| == 0 then Failure(HttpError(400, NoValidContacts))
      else if BlankName(req.name) then Failure(HttpError(500, NameRequired))
      else
        var created := Created(req, id, eligible, now);
        var w1 := w.(campaigns := w.campaigns[id := created]);
        InsertKeepsValid(w, created);
        Success(ScheduleCampaign(w1, id, now).0)
  }

  /** The document the handler saves before scheduling it: the name
      trimmed, the default rate when none is given, the eligible contacts'
      ids and count, and a time in the past moved to now. */
  function Created(req: CreateRequest, id: CampaignId, eligible: seq<Contact>, now: Time): (c: Campaign)
    ensures c.id == id && c.name == Trim(req.name) && c.jobId == None && c.status == Scheduled && c.provider == AutoProvider
    ensures c.progress == Progress(|eligible|, 0, 0, 0, 0) && c.contacts == Ids(eligible)
    ensures c.rateLimitPerMinute == (if req.rateLimitPerMinute == 0 then 60 else req.rateLimitPerMinute)
    ensures c.scheduledAt == (if req.scheduledAt > now then req.scheduledAt else now)
  {
    var rate := if req.rateLimitPerMinute == 0 then DefaultRateLimit else req.rateLimitPerMinute;
    var base := NewCampaign(id, Trim(req.name), req.templateId, Ids(eligible), req.variables, req.scheduledAt);
    var at := if req.scheduledAt > now then req.scheduledAt else now;
    base.(rateLimitPerMinute := rate, progress := ZeroProgress.(total := |eligible|), scheduledAt := at)
  }

  /** Filing a new campaign without a job keeps the store invariants. */
  lemma InsertKeepsValid(w: World, c: Campaign)
    requires c.id !in w.campaigns && c.jobId.None?
    ensures Valid(w) ==> Valid(w.(campaigns := w.campaigns[c.id := c]))
  {
    var w1 := w.(campaigns := w.campaigns[c.id := c]);
    if Valid(w) {
      forall a, b | a in w1.campaigns && b in w1.campaigns && a != b && w1.campaigns[a].jobId.Some?
        ensures w1.campaigns[a].jobId != w1.campaigns[b].jobId
      {
        if b != c.id {
          assert w1.campaigns[a] == w.campaigns[a] && w1.campaigns[b] == w.campaigns[b];
        }
      }
    }
  }

  /** The campaign fields a request body may carry, each absent or given a
      value of its schema type. */
  datatype Update = Update(
    name: Option<string>,
    templateId: Option<TemplateId>,
    contacts: Option<seq<ContactId>>,
    variables: Option<Bindings>,
    scheduledAt: Option<Time>,
    status: Option<CampaignStatus>,
    progress: Option<Progress>,
    rateLimitPerMinute: Option<nat>,
    provider: Option<ProviderChoice>)

  /** `Object.assign(campaign, updates)`: every field present in `u`
      overwrites the campaign's, the name trimmed as the schema does on
      assignment. */
  function Assign(c: Campaign, u: Update): (r: Campaign)
    ensures r.id == c.id && r.jobId == c.jobId
    ensures u == Update(None, None, None, None, None, None, None, None, None) ==> r == c
    ensures u.status.Some? ==> r.status == u.status.value
    ensures u.name.Some? ==> r.name == Trim(u.name.value)
  {
    c.(name := if u.name.Some? then Trim(u.name.value) else c.name,
       templateId := u.templateId.GetOr(c.templateId),
       contacts := u.contacts.GetOr(c.contacts),
       variables := u.variables.GetOr(c.variables),
       scheduledAt := u.scheduledAt.GetOr(c.scheduledAt),
       status := u.status.GetOr(c.status),
       progress := u.progress.GetOr(c.progress),
       rateLimitPerMinute := u.rateLimitPerMinute.GetOr(c.rateLimitPerMinute),
       provider := u.provider.GetOr(c.provider))
  }

  /** The store a handler leaves behind, and the error it answered with
      when it failed; a handler can fail after earlier writes were stored. */
  datatype Handled = Handled(world: World, error: Option<HttpError>)

  /** A change of time, compared with the stored one. */
  predicate Moves(c: Campaign, u: Update) {
    u.scheduledAt.Some? && u.scheduledAt.value != c.scheduledAt
  }

  /** The status an update that moves campaign `c` leaves: the requested
      one when it differs from the status the handler loaded, otherwise what
      the reschedule stored. */
  function MovedStatus(c: Campaign, u: Update): CampaignStatus {
    if u.status.Some? && u.status.value != c.status then u.status.value
    else if c.status == Scheduled && c.jobId.Some? then Cancelled
    else Scheduled
  }

  /** Saving the handler's edits over a campaign the reschedule just
      stored keeps every edit, and keeps the reschedule's status and job
      unless the update named a different status. */
  lemma SaveOverReschedule(stored: Campaign, c: Campaign, u: Update)
    requires Moves(c, u)
    requires stored == c.(scheduledAt := u.scheduledAt.value, status := stored.status, jobId := stored.jobId)
    requires stored.status == (if c.status == Scheduled && c.jobId.Some? then Cancelled else Scheduled)
    ensures SaveChanged(stored, c, Assign(c, u)) == Assign(c, u).(status := MovedStatus(c, u), jobId := stored.jobId)
  {
  }

  /** `PUT /campaigns/:id`. The handler loads the campaign, reschedules it
      first when the time changes, then assigns the body to the copy it
      loaded and saves that copy, which writes only the fields the body
      changed: the reschedule's job id survives, and so does its status
      unless the body changed the status. A blank name makes that save
      fail after the reschedule was stored. */
  function UpdateCampaign(w: World, id: CampaignId, u: Update, now: Time): (r: Handled)
    ensures id !in w.campaigns ==> r == Handled(w, Some(HttpError(404, CampaignNotFoundMessage)))
    ensures id in w.campaigns && w.campaigns[id].status in {Sending, Completed} ==>
      r == Handled(w, Some(HttpError(400, CannotUpdate)))
    ensures r.error.None? <==>
      id in w.campaigns && w.campaigns[id].status !in {Sending, Completed} && !(u.name.Some? && BlankName(u.name.value))
    ensures id in w.campaigns && w.campaigns[id].status !in {Sending, Completed} && u.name.Some? && BlankName(u.name.value) ==>
      && r.error == Some(HttpError(500, NameRequired))
      && r.world == (if Moves(w.campaigns[id], u) then RescheduleCampaign(w, id, u.scheduledAt.value, now).value else w)
    ensures id in w.campaigns && r.error.None? && !Moves(w.campaigns[id], u) ==>
      r.world == w.(campaigns := w.campaigns[id := Assign(w.campaigns[id], u)])
    ensures id in w.campaigns && r.error.None? && Moves(w.campaigns[id], u) ==>
      var c := w.campaigns[id];
      && r.world.campaigns.Keys == w.campaigns.Keys
      && (Valid(w) ==> r.world.campaigns[id] == Assign(c, u).(status := MovedStatus(c, u), jobId := Some(w.nextJobId)))
      && r.world.queue == RequeuedQueue(w, id, u.scheduledAt.value, now)
      && r.world.nextJobId == w.nextJobId + 1
      && (forall k :: k in w.campaigns && k != id ==> r.world.campaigns[k] == w.campaigns[k])
      && r.world.messages == w.messages && r.world.events == w.events
    ensures Valid(w) ==> Valid(r.world)
  {
    if id !in w.campaigns then Handled(w, Some(HttpError(404, CampaignNotFoundMessage)))
    else
      var loaded := w.campaigns[id];
      if loaded.status in {Sending, Completed} then
        Handled(w, Some(HttpError(400, CannotUpdate)))
      else
        var w1 := if Moves(loaded, u) then RescheduleCampaign(w, id, u.scheduledAt.value, now).value else w;
        if u.name.Some? && BlankName(u.name.value) then Handled(w1, Some(HttpError(500, NameRequired)))
        else
          var saved := SaveChanged(w1.campaigns[id], loaded, Assign(loaded, u));
          assert Moves(loaded, u) ==> saved == Assign(loaded, u).(status := MovedStatus(loaded, u), jobId := w1.campaigns[id].jobId) by {
            if Moves(loaded, u) {
              SaveOverReschedule(w1.campaigns[id], loaded, u);
            }
          }
          var w2 := w1.(campaigns := w1.campaigns[id := saved]);
          assert Valid(w) ==> Valid(w2) by {
            if Valid(w) {
              assert saved.id == id && saved.jobId == w1.campaigns[id].jobId;
              ReplaceKeepsValid(w1, saved, w2);
            }
          }
          Handled(w2, None)
  }

  /** Moving the time of a campaign that is scheduled with a job, without
      asking for a status, leaves it cancelled: the handler's save does not
      write the status back, so the fresh job skips the campaign. */
  lemma UpdateMovingScheduledCampaignIsSkipped(w: World, svc: Services, id: CampaignId, u: Update, now: Time)
    requires Valid(w) && id in w.campaigns && w.campaigns[id].status == Scheduled && w.campaigns[id].jobId.Some?
    requires Moves(w.campaigns[id], u) && u.status.None? && u.name.None?
    ensures var r := UpdateCampaign(w, id, u, now);
      && r.error.None?
      && r.world.campaigns[id].status == Cancelled
      && r.world.campaigns[id].jobId == Some(w.nextJobId) && w.nextJobId in r.world.queue
      && ProcessJob(r.world, svc, id) == (r.world, JobSkipped)
  {
  }

  /** `POST /campaigns/:id/pause`. */
  function PauseCampaign(w: World, id: CampaignId): (r: Result<World, HttpError>)
    ensures id !in w.campaigns ==> r == Failure(HttpError(404, CampaignNotFoundMessage))
    ensures r.Success? <==> id in w.campaigns && w.campaigns[id].status == Sending
    ensures id in w.campaigns && w.campaigns[id].status != Sending ==>
      r == Failure(HttpError(400, PauseRefused))
    ensures r.Success? ==> r.value == w.(campaigns := w.campaigns[id := w.campaigns[id].(status := Paused)])
  {
    if id !in w.campaigns then Failure(HttpError(404, CampaignNotFoundMessage))
    else if w.campaigns[id].status != Sending then Failure(HttpError(400, PauseRefused))
    else Success(w.(campaigns := w.campaigns[id := w.campaigns[id].(status := Paused)]))
  }

  /** `POST /campaigns/:id/resume`. */
  function ResumeCampaign(w: World, id: CampaignId): (r: Result<World, HttpError>)
    ensures id !in w.campaigns ==> r == Failure(HttpError(404, CampaignNotFoundMessage))
    ensures r.Success? <==> id in w.campaigns && w.campaigns[id].status == Paused
    ensures id in w.campaigns && w.campaigns[id].status != Paused ==>
      r == Failure(HttpError(400, ResumeRefused))
    ensures r.Success? ==> r.value == w.(campaigns := w.campaigns[id := w.campaigns[id].(status := Sending)])
  {
    if id !in w.campaigns then Failure(HttpError(404, CampaignNotFoundMessage))
    else if w.campaigns[id].status != Paused then Failure(HttpError(400, ResumeRefused))
    else Success(w.(campaigns := w.campaigns[id := w.campaigns[id].(status := Sending)]))
  }

  /** Pausing and then resuming a sending campaign restores the state
      exactly, and a resumed campaign is not picked up again by its job:
      resuming only relabels it. */
  lemma PauseResumeRoundTrip(w: World, svc: Services, id: CampaignId)
    requires Valid(w) && id in w.campaigns && w.campaigns[id].status == Sending
    ensures PauseCampaign(w, id).Success?
    ensures ResumeCampaign(PauseCampaign(w, id).value, id) == Success(w)
    ensures ProcessJob(w, svc, id) == (w, JobSkipped)
  {
    var p := PauseCampaign(w, id).value;
    assert p.campaigns[id := w.campaigns[id]] == w.campaigns;
  }

  /** The messages that do not belong to campaign `id`, in order. */
  function OtherMessages(ms: seq<Message>, id: CampaignId): (r: seq<Message>)
    ensures forall m :: m in r <==> m in ms && m.campaignId != id
    ensures |r| <= |ms|
  {
    if |ms| == 0 then []
    else
      var rest := OtherMessages(ms[1..], id);
      assert forall m :: m in ms <==> m == ms[0] || m in ms[1..];
      if ms[0].campaignId == id then rest else [ms[0]] + rest
  }

  /** `DELETE /campaigns/:id`: cancel the job of a scheduled campaign, then
      remove its messages and the campaign itself. */
  function DeleteCampaign(w: World, id: CampaignId): (r: Result<World, HttpError>)
    ensures r.Failure? <==> id !in w.campaigns
    ensures r.Failure? ==> r.error == HttpError(404, CampaignNotFoundMessage)
    ensures r.Success? ==>
      var c := w.campaigns[id];
      && r.value.campaigns == w.campaigns - {id}
      && r.value.messages == OtherMessages(w.messages, id)
      && (c.status == Scheduled && c.jobId.Some? ==> r.value.queue == w.queue - {c.jobId.value})
      && (!(c.status == Scheduled && c.jobId.Some?) ==> r.value.queue == w.queue)
    ensures r.Success? && Valid(w) ==> Valid(r.value)
  {
    if id !in w.campaigns then Failure(HttpError(404, CampaignNotFoundMessage))
    else
      var c := w.campaigns[id];
      var w1 := if c.status == Scheduled && c.jobId.Some? then CancelCampaign(w, id).value else w;
      Success(w1.(messages := OtherMessages(w1.messages, id), campaigns := w1.campaigns - {id}))
  }

  /** A deleted campaign leaves no message behind and every other message
      survives, and a job left in the queue for it finds nothing to send. */
  lemma DeleteLeavesNothing(w: World, svc: Services, id: CampaignId)
    requires Valid(w) && DeleteCampaign(w, id).Success?
    ensures var w' := DeleteCampaign(w, id).value;
      && (forall m :: m in w'.messages ==> m.campaignId != id)
      && (forall m :: m in w.messages && m.campaignId != id ==> m in w'.messages)
      && ProcessJob(w', svc, id) == (w', JobFailed(CampaignNotFound))
  {
  }

  /** `POST /campaigns/:id/cancel`: the scheduler's cancellation, its
      failure reported as a server error. */
  function CancelRoute(w: World, id: CampaignId): (r: Result<World, HttpError>)
    ensures r.Failure? <==> CancelCampaign(w, id).Failure?
    ensures r.Failure? ==> r.error == HttpError(500, CampaignOrJobNotFound)
    ensures r.Success? ==> id in r.value.campaigns && r.value.campaigns[id].status == Cancelled && r.value.campaigns[id].jobId == None
  {
    match CancelCampaign(w, id)
    case Failure(e) => Failure(HttpError(500, e))
    case Success(w') => Success(w')
  }

  /** The messages of campaign `id` (with status `status` when given), newest
      first. */
  function CampaignMessages(ms: seq<Message>, id: CampaignId, status: Option<MessageStatus>): (r: seq<Message>)
    ensures forall m :: m in r <==> m in ms && m.campaignId == id && (status.None? || m.status == status.value)
    ensures |r| <= |ms|
  {
    if |ms| == 0 then []
    else
      var rest := CampaignMessages(ms[..|ms| - 1], id, status);
      var m := ms[|ms| - 1];
      assert forall x :: x in ms <==> x == m || x in ms[..|ms| - 1];
      if m.campaignId == id && (status.None? || m.status == status.value) then [m] + rest else rest
  }

  /** A message stored last is listed ahead of every older match. */
  lemma CampaignMessagesNewestFirst(ms: seq<Message>, m: Message, id: CampaignId, status: Option<MessageStatus>)
    ensures CampaignMessages(ms + [m], id, status) ==
      (if m.campaignId == id && (status.None? || m.status == status.value) then [m] else []) + CampaignMessages(ms, id, status)
  {
    assert (ms + [m])[..|ms|] == ms;
  }

  /** `GET /campaigns/:id/messages`. */
  function ListMessages(w: World, id: CampaignId, status: Option<MessageStatus>, page: int, limit: nat)
    : (r: Result<Page<Message>, string>)
    ensures r == Paginate(CampaignMessages(w.messages, id, status), page, limit)
    ensures r.Success? ==> forall m :: m in r.value.items ==> m.campaignId == id && m in w.messages
  {
    var all := CampaignMessages(w.messages, id, status);
    var r := Paginate(all, page, limit);
    if r.Success? then
      var skip := (page - 1) * limit;
      assert skip < |all| ==> forall m :: m in r.value.items ==> m in all[skip..];
      r
    else r
  }
}

=== FILE: contact_csv.dfy ===
/** The contact list's CSV export and import on the client. Export quotes
    every field and joins tags with `;`. Import is not quote-aware: it
    splits lines on `\n` and fields on `,`, strips every double quote, trims,
    and reads the columns by their lower-cased header. */
module ContactCsv {
  import opened Wrappers
  import opened Text

  /** A contact as the listing hands it to the export. */
  datatype Row = Row(name: string, phone: string, email: Option<string>, status: string, tags: seq<string>)

  /** An imported contact: the properties its columns set, `None` for a
      property no column set. */
  datatype Parsed = Parsed(
    name: Option<string>,
    phone: Option<string>,
    email: Option<string>,
    status: Option<string>,
    tags: Option<seq<string>>)

  const NoFields: Parsed := Parsed(None, None, None, None, None)

  /** The export's column titles, and its header line joining them. */
  const HeaderFields: seq<string> := ["Name", "Phone", "Email", "Status", "Tags"]
  const Header: string := Join(HeaderFields, ',')

  const Statuses: set<string> := {"active", "inactive", "blocked"}

  predicate ValidStatus(s: string) {
    s in Statuses
  }

  function Quote(s: string): string {
    "\"" + s + "\""
  }

  /** `contact.email || ''`. */
  function EmailText(e: Option<string>): string {
    if e.Some? then e.value else ""
  }

  /** The fields of a contact's line, in column order, before quoting. */
  function PlainFields(c: Row): seq<string> {
    [c.name, c.phone, EmailText(c.email), c.status, Join(c.tags, ';')]
  }

  function QuoteAll(xs: seq<string>): (r: seq<string>)
    ensures |r| == |xs| && forall i :: 0 <= i < |xs| ==> r[i] == Quote(xs[i])
  {
    seq(|xs|, i requires 0 <= i < |xs| => Quote(xs[i]))
  }

  function ExportFields(c: Row): seq<string> {
    QuoteAll(PlainFields(c))
  }

  function ExportLine(c: Row): string {
    Join(ExportFields(c), ',')
  }

  function ExportLines(cs: seq<Row>): (r: seq<string>)
    ensures |r| == |cs|
    ensures forall i :: 0 <= i < |cs| ==> r[i] == ExportLine(cs[i])
  {
    if |cs| == 0 then [] else [ExportLine(cs[0])] + ExportLines(cs[1..])
  }

  /** The CSV text `exportToCSV` downloads: the header line, then one line
      per contact. */
  function Export(cs: seq<Row>): string {
    ExportUnder(Header, cs)
  }

  /** The lines `h`, then one per contact, joined with newlines. */
  function ExportUnder(h: string, cs: seq<Row>): string {
    Join([h] + ExportLines(cs), '\n')
  }

  /** The template CSV the import dialog offers: the header line, then two
      sample contacts, each written as its five double-quoted fields
      separated by commas. */
  const TemplateCsv: string := Header + "\n" + JohnLine + "\n" + JaneLine

  const JohnLine: string :=
    Quote("John Doe") + "," + Quote("+1234567890") + "," + Quote("john@example.com") + "," + Quote("active") + "," + Quote("customer;vip")
  const JaneLine: string :=
    Quote("Jane Smith") + "," + Quote("+1234567891") + "," + Quote("jane@example.com") + "," + Quote("active") + "," + Quote("lead")

  /** A field with its double quotes removed, then trimmed. */
  function CleanField(s: string): (r: string)
    ensures '"' !in r && IsTrimmed(r)
  {
    Trim(RemoveChar(s, '"'))
  }

  function CleanFields(xs: seq<string>): (r: seq<string>)
    ensures |r| == |xs| && forall i :: 0 <= i < |xs| ==> r[i] == CleanField(xs[i])
  {
    seq(|xs|, i requires 0 <= i < |xs| => CleanField(xs[i]))
  }

  function HeaderNames(xs: seq<string>): (r: seq<string>)
    ensures |r| == |xs| && forall i :: 0 <= i < |xs| ==> r[i] == ToLower(CleanField(xs[i]))
  {
    seq(|xs|, i requires 0 <= i < |xs| => ToLower(CleanField(xs[i])))
  }

  /** The lines that are not blank, in order. */
  function NonBlank(lines: seq<string>): (r: seq<string>)
    ensures forall i :: 0 <= i < |r| ==> Trim(r[i]) != ""
    ensures |r| <= |lines|
  {
    if |lines| == 0 then []
    else if Trim(lines[0]) != "" then [lines[0]] + NonBlank(lines[1..])
    else NonBlank(lines[1..])
  }

  /** The trimmed tags, empty ones dropped. */
  function TagList(value: string): (r: seq<string>)
    ensures forall i :: 0 <= i < |r| ==> r[i] != "" && IsTrimmed(r[i]) && ';' !in r[i]
  {
    if value == "" then [] else KeepNonEmpty(TrimEach(Split(value, ';')))
  }

  function KeepNonEmpty(xs: seq<string>): (r: seq<string>)
    ensures forall i :: 0 <= i < |r| ==> r[i] != "" && r[i] in xs
    ensures (forall i :: 0 <= i < |xs| ==> xs[i] != "") ==> r == xs
  {
    if |xs| == 0 then []
    else if xs[0] != "" then [xs[0]] + KeepNonEmpty(xs[1..])
    else KeepNonEmpty(xs[1..])
  }

  /** What one column does to the contact being built. */
  function SetColumn(p: Parsed, header: string, value: string): (r: Parsed)
    ensures header !in {"name", "phone", "email", "status", "tags"} ==> r == p
    ensures header == "status" ==> r.status.Some? && ValidStatus(r.status.value)
    ensures header == "status" && ValidStatus(value) ==> r.status == Some(value)
    ensures header == "status" && !ValidStatus(value) ==> r.status == Some("active")
    ensures header == "name" ==> r.name == Some(value)
    ensures header == "phone" ==> r.phone == Some(value)
    ensures header == "tags" ==> r.tags == Some(TagList(value))
    ensures header == "email" ==> r.email == (if value == "" then p.email else Some(value))
    ensures header != "name" ==> r.name == p.name
    ensures header != "phone" ==> r.phone == p.phone
    ensures header != "email" ==> r.email == p.email
    ensures header != "status" ==> r.status == p.status
    ensures header != "tags" ==> r.tags == p.tags
  {
    if header == "name" then p.(name := Some(value))
    else if header == "phone" then p.(phone := Some(value))
    else if header == "email" then (if value != "" then p.(email := Some(value)) else p)
    else if header == "status" then p.(status := Some(if ValidStatus(value) then value else "active"))
    else if header == "tags" then p.(tags := Some(TagList(value)))
    else p
  }

  /** The columns from `i` on, in header order; a missing value reads as
      empty. */
  function ApplyColumns(headers: seq<string>, values: seq<string>, i: nat, p: Parsed): Parsed
    requires i <= |headers|
    decreases |headers| - i
  {
    if i == |headers| then p
    else ApplyColumns(headers, values, i + 1, SetColumn(p, headers[i], if i < |values| then values[i] else ""))
  }

  /** An imported contact that has both a name and a phone. */
  predicate Complete(p: Parsed) {
    p.name.Some? && p.name.value != "" && p.phone.Some? && p.phone.value != ""
  }

  /** A data line: a contact when it has at least two fields and ends with
      both a name and a phone. */
  function ParseLine(headers: seq<string>, line: string): (r: Option<Parsed>)
    ensures r.Some? ==> Complete(r.value)
    ensures |Split(line, ',')| < 2 ==> r.None?
  {
    var values := CleanFields(Split(line, ','));
    if |values| < 2 then None
    else
      var p := ApplyColumns(headers, values, 0, NoFields);
      if Complete(p) then Some(p) else None
  }

  /** The values of the `Some` entries, in order. */
  function Somes<T>(xs: seq<Option<T>>): (r: seq<T>)
    ensures |r| <= |xs|
    ensures forall i :: 0 <= i < |r| ==> Some(r[i]) in xs
  {
    if |xs| == 0 then []
    else
      var rest := Somes(xs[1..]);
      assert forall i :: 0 <= i < |rest| ==> Some(rest[i]) in xs by {
        assert xs == [xs[0]] + xs[1..];
      }
      match xs[0]
      case Some(y) => [y] + rest
      case None => rest
  }

  /** The data lines that parse, in order. */
  function ParseLines(headers: seq<string>, lines: seq<string>): (r: seq<Parsed>)
    ensures |r| <= |lines|
    ensures forall i :: 0 <= i < |r| ==> Complete(r[i])
  {
    var each := seq(|lines|, i requires 0 <= i < |lines| => ParseLine(headers, lines[i]));
    var r := Somes(each);
    assert forall i :: 0 <= i < |r| ==> Some(r[i]) in each;
    r
  }

  /** `parseCSV`. */
  function ParseCsv(text: string): (r: seq<Parsed>)
    ensures |NonBlank(Split(text, '\n'))| < 2 ==> r == []
    ensures |r| <= |NonBlank(Split(text, '\n'))|
    ensures forall i :: 0 <= i < |r| ==> Complete(r[i])
  {
    var lines := NonBlank(Split(text, '\n'));
    if |lines| < 2 then []
    else ParseLines(HeaderNames(Split(lines[0], ',')), lines[1..])
  }

  /** Text the export writes and the import reads back unchanged. */
  predicate PlainText(s: string) {
    ',' !in s && '"' !in s && '\n' !in s && IsTrimmed(s)
  }

  /** A contact the CSV round trip preserves. */
  predicate Exportable(c: Row) {
    && PlainText(c.name) && c.name != ""
    && PlainText(c.phone) && c.phone != ""
    && (c.email.Some? ==> PlainText(c.email.value))
    && ValidStatus(c.status)
    && forall k :: 0 <= k < |c.tags| ==> TagText(c.tags[k])
  }

  /** What the import makes of an exported contact. */
  function Imported(c: Row): Parsed {
    var e := EmailText(c.email);
    Parsed(Some(c.name), Some(c.phone), if e == "" then None else Some(e), Some(c.status), Some(c.tags))
  }

  function ImportedAll(cs: seq<Row>): (r: seq<Parsed>)
    ensures |r| == |cs| && forall i :: 0 <= i < |cs| ==> r[i] == Imported(cs[i])
  {
    seq(|cs|, i requires 0 <= i < |cs| => Imported(cs[i]))
  }

  const Columns: seq<string> := ["name", "phone", "email", "status", "tags"]

  lemma QuoteClean(s: string)
    requires '"' !in s && IsTrimmed(s)
    ensures CleanField(Quote(s)) == s
  {
    RemoveCharAppend("\"" + s, "\"", '"');
    RemoveCharAppend("\"", s, '"');
  }

  lemma JoinNoChar(xs: seq<string>, d: char, c: char)
    requires c != d && forall i :: 0 <= i < |xs| ==> c !in xs[i]
    ensures c !in Join(xs, d)
  {
    if |xs| > 1 {
      JoinNoChar(xs[1..], d, c);
    }
  }

  lemma JoinNonEmpty(xs: seq<string>, d: char)
    requires |xs| > 0 && xs[0] != ""
    ensures Join(xs, d) != ""
  {
  }

  /** A tag the CSV round trip preserves. */
  predicate TagText(t: string) {
    PlainText(t) && t != "" && ';' !in t
  }

  lemma TagsPlain(tags: seq<string>)
    requires forall k :: 0 <= k < |tags| ==> TagText(tags[k])
    ensures PlainText(Join(tags, ';'))
  {
    JoinNoChar(tags, ';', '"');
    JoinNoChar(tags, ';', ',');
    JoinNoChar(tags, ';', '\n');
    if |tags| > 0 {
      JoinEnds(tags, ';');
    }
  }

  /** Joining tags with `;` and reading them back gives the same tags. */
  lemma TagsRoundTrip(tags: seq<string>)
    requires forall k :: 0 <= k < |tags| ==> TagText(tags[k])
    ensures TagList(Join(tags, ';')) == tags
  {
    if |tags| > 0 {
      JoinEnds(tags, ';');
      SplitJoin(tags, ';');
      assert TrimEach(tags) == tags;
    }
  }

  /** A join starts with its first piece's first character and ends with
      its last piece's last character. */
  lemma JoinEnds(xs: seq<string>, d: char)
    requires |xs| > 0 && forall i :: 0 <= i < |xs| ==> xs[i] != "" && IsTrimmed(xs[i])
    ensures IsTrimmed(Join(xs, d))
    ensures Join(xs, d) != ""
  {
    if |xs| > 1 {
      JoinEnds(xs[1..], d);
      var j := Join(xs, d);
      var rest := Join(xs[1..], d);
      assert j == xs[0] + [d] + rest;
      assert j[0] == xs[0][0];
      assert j[|j| - 1] == rest[|rest| - 1];
    }
  }

  lemma StatusPlain(s: string)
    requires ValidStatus(s)
    ensures PlainText(s)
  {
  }

  /** Quoting adds no separator, and cleaning removes the quotes again. */
  lemma QuotedFields(xs: seq<string>)
    requires forall k :: 0 <= k < |xs| ==> ',' !in xs[k] && '"' !in xs[k] && IsTrimmed(xs[k])
    ensures forall k :: 0 <= k < |xs| ==> ',' !in QuoteAll(xs)[k]
    ensures CleanFields(QuoteAll(xs)) == xs
  {
    forall k | 0 <= k < |xs|
      ensures CleanField(QuoteAll(xs)[k]) == xs[k]
    {
      QuoteClean(xs[k]);
    }
  }

  lemma PlainFieldsArePlain(c: Row)
    requires Exportable(c)
    ensures forall k :: 0 <= k < |PlainFields(c)| ==> PlainText(PlainFields(c)[k])
  {
    TagsPlain(c.tags);
    StatusPlain(c.status);
    var plain := PlainFields(c);
    assert PlainText(plain[0]) && PlainText(plain[1]) && PlainText(plain[2]);
    assert PlainText(plain[3]) && PlainText(plain[4]);
  }

  lemma LineValues(c: Row)
    requires Exportable(c)
    ensures CleanFields(Split(ExportLine(c), ',')) == PlainFields(c)
  {
    PlainFieldsArePlain(c);
    QuotedFields(PlainFields(c));
    SplitJoin(ExportFields(c), ',');
  }

  lemma ReadColumns(h: seq<string>, c: Row, values: seq<string>)
    requires h == Columns && Exportable(c) && values == PlainFields(c)
    ensures ApplyColumns(h, values, 0, NoFields) == Imported(c)
  {
    TagsRoundTrip(c.tags);
    var e := EmailText(c.email);
    var p0 := SetColumn(NoFields, "name", c.name);
    var p1 := SetColumn(p0, "phone", c.phone);
    var p2 := SetColumn(p1, "email", e);
    var p3 := SetColumn(p2, "status", c.status);
    var p4 := SetColumn(p3, "tags", Join(c.tags, ';'));
    assert p4 == Imported(c);
    assert ApplyColumns(h, values, 5, p4) == p4;
  }

  lemma LineRoundTrip(h: seq<string>, c: Row)
    requires h == Columns && Exportable(c)
    ensures ParseLine(h, ExportLine(c)) == Some(Imported(c))
  {
    LineValues(c);
    ReadColumns(h, c, PlainFields(c));
  }

  /** When every entry is present, `Somes` keeps them all. */
  lemma {:induction false} SomesAll<T>(xs: seq<Option<T>>, ys: seq<T>)
    requires |xs| == |ys|
    requires forall i :: 0 <= i < |xs| ==> xs[i] == Some(ys[i])
    ensures Somes(xs) == ys
  {
    if |xs| > 0 {
      SomesAll(xs[1..], ys[1..]);
      assert ys == [ys[0]] + ys[1..];
    }
  }

  /** When every line parses to a contact, the lines parse to exactly
      those contacts. */
  lemma ParseLinesAll(headers: seq<string>, lines: seq<string>, ps: seq<Parsed>)
    requires |lines| == |ps|
    requires forall i :: 0 <= i < |lines| ==> ParseLine(headers, lines[i]) == Some(ps[i])
    ensures ParseLines(headers, lines) == ps
  {
    var each := seq(|lines|, i requires 0 <= i < |lines| => ParseLine(headers, lines[i]));
    SomesAll(each, ps);
  }

  lemma LinesRoundTrip(h: seq<string>, cs: seq<Row>)
    requires forall i :: 0 <= i < |cs| ==> ParseLine(h, ExportLines(cs)[i]) == Some(ImportedAll(cs)[i])
    ensures ParseLines(h, ExportLines(cs)) == ImportedAll(cs)
  {
    ParseLinesAll(h, ExportLines(cs), ImportedAll(cs));
  }

  lemma EachLineRoundTrip(h: seq<string>, cs: seq<Row>)
    requires h == Columns && forall i :: 0 <= i < |cs| ==> Exportable(cs[i])
    ensures forall i :: 0 <= i < |cs| ==> ParseLine(h, ExportLines(cs)[i]) == Some(ImportedAll(cs)[i])
  {
    forall i | 0 <= i < |cs|
      ensures ParseLine(h, ExportLines(cs)[i]) == Some(ImportedAll(cs)[i])
    {
      LineRoundTripAt(h, cs, i);
    }
  }

  lemma LineRoundTripAt(h: seq<string>, cs: seq<Row>, i: int)
    requires h == Columns && 0 <= i < |cs| && forall j :: 0 <= j < |cs| ==> Exportable(cs[j])
    ensures ParseLine(h, ExportLines(cs)[i]) == Some(ImportedAll(cs)[i])
  {
    LineRoundTrip(h, cs[i]);
  }

  lemma NonBlankKeeps(lines: seq<string>)
    requires forall i :: 0 <= i < |lines| ==> Trim(lines[i]) != ""
    ensures NonBlank(lines) == lines
  {
    if |lines| > 0 {
      NonBlankKeeps(lines[1..]);
    }
  }

  lemma CleanPlain(s: string)
    requires '"' !in s && IsTrimmed(s)
    ensures CleanField(s) == s
  {
  }

  /** A header cell that is quote-free and trimmed only changes case. */
  lemma HeaderCell(s: string, cell: string, column: string)
    requires s == cell && '"' !in cell && IsTrimmed(cell) && ToLower(cell) == column
    ensures ToLower(CleanField(s)) == column
  {
  }

  lemma NameColumn(names: seq<string>)
    requires |names| == 5 && names[0] == "Name"
    ensures HeaderNames(names)[0] == "name"
  {
    HeaderCell(names[0], "Name", "name");
  }

  lemma PhoneColumn(names: seq<string>)
    requires |names| == 5 && names[1] == "Phone"
    ensures HeaderNames(names)[1] == "phone"
  {
    HeaderCell(names[1], "Phone", "phone");
  }

  lemma EmailColumn(names: seq<string>)
    requires |names| == 5 && names[2] == "Email"
    ensures HeaderNames(names)[2] == "email"
  {
    HeaderCell(names[2], "Email", "email");
  }

  lemma StatusColumn(names: seq<string>)
    requires |names| == 5 && names[3] == "Status"
    ensures HeaderNames(names)[3] == "status"
  {
    HeaderCell(names[3], "Status", "status");
  }

  lemma TagsColumn(names: seq<string>)
    requires |names| == 5 && names[4] == "Tags"
    ensures HeaderNames(names)[4] == "tags"
  {
    HeaderCell(names[4], "Tags", "tags");
  }

  lemma HeaderCells(names: seq<string>)
    requires |names| == 5 && names[0] == "Name" && names[1] == "Phone" && names[2] == "Email"
    requires names[3] == "Status" && names[4] == "Tags"
    ensures HeaderNames(names) == Columns
  {
    NameColumn(names);
    PhoneColumn(names);
    EmailColumn(names);
    StatusColumn(names);
    TagsColumn(names);
    FiveList(HeaderNames(names), "name", "phone", "email", "status", "tags");
  }

  lemma FiveList<T>(xs: seq<T>, a: T, b: T, c: T, d: T, e: T)
    requires |xs| == 5 && xs[0] == a && xs[1] == b && xs[2] == c && xs[3] == d && xs[4] == e
    ensures xs == [a, b, c, d, e]
  {
  }

  /** The export's header line reads back as the five known columns. */
  lemma HeaderColumns()
    ensures HeaderNames(Split(Header, ',')) == Columns
  {
    SplitJoin(HeaderFields, ',');
    HeaderCells(HeaderFields);
  }

  lemma ExportLineShape(c: Row)
    requires Exportable(c)
    ensures '\n' !in ExportLine(c) && Trim(ExportLine(c)) != ""
  {
    PlainFieldsArePlain(c);
    var fields := ExportFields(c);
    assert forall k :: 0 <= k < |fields| ==> '\n' !in fields[k];
    JoinNoChar(fields, ',', '\n');
    var line := ExportLine(c);
    JoinPrefix(fields, ',');
    assert line[0] == fields[0][0] == '"';
    TrimEmptyIffAllSpace(line);
  }

  lemma HeaderLine()
    ensures '\n' !in Header && Trim(Header) != ""
  {
    var names := HeaderFields;
    JoinNoChar(names, ',', '\n');
    JoinPrefix(names, ',');
    assert Header[0] == names[0][0] == 'N';
    NotBlank(Header);
  }

  lemma NotBlank(s: string)
    requires |s| > 0 && !IsSpace(s[0])
    ensures Trim(s) != ""
  {
    TrimEmptyIffAllSpace(s);
  }

  /** The exported text splits back into its lines, none of them blank. */
  lemma ExportLinesShape(cs: seq<Row>)
    requires forall i :: 0 <= i < |cs| ==> Exportable(cs[i])
    ensures forall i :: 0 <= i < |cs| ==> '\n' !in ExportLines(cs)[i] && Trim(ExportLines(cs)[i]) != ""
  {
    forall i | 0 <= i < |cs|
      ensures '\n' !in ExportLines(cs)[i] && Trim(ExportLines(cs)[i]) != ""
    {
      ExportLineShape(cs[i]);
    }
  }

  /** Text whose contact lines are newline-free and non-blank splits back
      into its header line and those lines. */
  lemma ExportedLines(h: string, cs: seq<Row>)
    requires '\n' !in h && Trim(h) != ""
    requires forall i :: 0 <= i < |cs| ==> '\n' !in ExportLines(cs)[i] && Trim(ExportLines(cs)[i]) != ""
    ensures NonBlank(Split(ExportUnder(h, cs), '\n')) == [h] + ExportLines(cs)
  {
    ConsLines(h, ExportLines(cs));
  }

  lemma ConsLines(h: string, rest: seq<string>)
    requires '\n' !in h && Trim(h) != ""
    requires forall i :: 0 <= i < |rest| ==> '\n' !in rest[i] && Trim(rest[i]) != ""
    ensures NonBlank(Split(Join([h] + rest, '\n'), '\n')) == [h] + rest
  {
    var lines := [h] + rest;
    forall i | 0 <= i < |lines|
      ensures '\n' !in lines[i] && Trim(lines[i]) != ""
    {
      if i > 0 {
        assert lines[i] == rest[i - 1];
      }
    }
    SplitLines(lines);
  }

  /** Newline-free, non-blank lines joined with newlines split and filter
      back to themselves. */
  lemma SplitLines(lines: seq<string>)
    requires |lines| >= 1
    requires forall i :: 0 <= i < |lines| ==> '\n' !in lines[i] && Trim(lines[i]) != ""
    ensures NonBlank(Split(Join(lines, '\n'), '\n')) == lines
  {
    assert Split(Join(lines, '\n'), '\n') == lines by {
      SplitJoin(lines, '\n');
    }
    NonBlankKeeps(lines);
  }

  /** Importing an export gives back every contact: name, phone, status and
      tags as they were, and the email when it was not empty. */
  lemma ExportThenParse(cs: seq<Row>)
    requires forall i :: 0 <= i < |cs| ==> Exportable(cs[i])
    ensures ParseCsv(Export(cs)) == ImportedAll(cs)
  {
    HeaderLine();
    HeaderColumns();
    ExportUnderThenParse(Header, cs);
  }

  /** The round trip under any header line that reads as the five columns. */
  lemma ExportUnderThenParse(h: string, cs: seq<Row>)
    requires '\n' !in h && Trim(h) != "" && HeaderNames(Split(h, ',')) == Columns
    requires forall i :: 0 <= i < |cs| ==> Exportable(cs[i])
    ensures ParseCsv(ExportUnder(h, cs)) == ImportedAll(cs)
  {
    ExportLinesShape(cs);
    ExportedLines(h, cs);
    var lines := [h] + ExportLines(cs);
    if |cs| > 0 {
      assert lines[0] == h && lines[1..] == ExportLines(cs);
      EachLineRoundTrip(Columns, cs);
      LinesRoundTrip(Columns, cs);
    }
  }

  /** The two sample contacts of the template. */
  const SampleJohn: Row := Row("John Doe", "+1234567890", Some("john@example.com"), "active", ["customer", "vip"])
  const SampleJane: Row := Row("Jane Smith", "+1234567891", Some("jane@example.com"), "active", ["lead"])

  /** A contact's line is its five quoted fields separated by commas. */
  lemma LineFields(c: Row)
    ensures ExportLine(c) == Quote(c.name) + "," + Quote(c.phone) + "," + Quote(EmailText(c.email))
                             + "," + Quote(c.status) + "," + Quote(Join(c.tags, ';'))
  {
    var f := ExportFields(c);
    assert f == [Quote(c.name), Quote(c.phone), Quote(EmailText(c.email)), Quote(c.status), Quote(Join(c.tags, ';'))];
    JoinFive(f[0], f[1], f[2], f[3], f[4], ',');
  }

  lemma JoinFive(a: string, b: string, c: string, e: string, g: string, d: char)
    ensures Join([a, b, c, e, g], d) == a + [d] + b + [d] + c + [d] + e + [d] + g
  {
    assert [a, b, c, e, g][1..] == [b, c, e, g];
    assert [b, c, e, g][1..] == [c, e, g];
    JoinThree(c, e, g, d);
    assert Join([b, c, e, g], d) == b + [d] + (c + [d] + e + [d] + g);
  }

  lemma JohnExport()
    ensures ExportLine(SampleJohn) == JohnLine
  {
    var c := SampleJohn;
    LineFields(c);
    assert c.name == "John Doe" && c.phone == "+1234567890" && EmailText(c.email) == "john@example.com";
    assert c.status == "active" && Join(c.tags, ';') == "customer;vip";
  }

  lemma JaneExport()
    ensures ExportLine(SampleJane) == JaneLine
  {
    var c := SampleJane;
    LineFields(c);
    assert c.name == "Jane Smith" && c.phone == "+1234567891" && EmailText(c.email) == "jane@example.com";
    assert c.status == "active" && Join(c.tags, ';') == "lead";
  }

  lemma JoinThree(a: string, b: string, c: string, d: char)
    ensures Join([a, b, c], d) == a + [d] + b + [d] + c
  {
    assert [a, b, c][1..] == [b, c];
    assert [b, c][1..] == [c];
    assert Join([b, c], d) == b + [d] + c;
  }

  /** The export of two contacts: the header line and their two lines. */
  lemma ExportTwo(h: string, a: Row, b: Row)
    ensures ExportUnder(h, [a, b]) == h + "\n" + ExportLine(a) + "\n" + ExportLine(b)
  {
    assert [h] + ExportLines([a, b]) == [h, ExportLine(a), ExportLine(b)];
    JoinThree(h, ExportLine(a), ExportLine(b), '\n');
  }

  /** The template is what exporting its two sample contacts writes. */
  lemma TemplateIsExport()
    ensures TemplateCsv == Export([SampleJohn, SampleJane])
  {
    ExportTwo(Header, SampleJohn, SampleJane);
    JohnExport();
    JaneExport();
  }

  /** A contact of plain fields, a known status and plain tags exports
      cleanly. */
  lemma RowExportable(c: Row, t: string, u: string)
    requires PlainText(c.name) && c.name != "" && PlainText(c.phone) && c.phone != ""
    requires c.email.Some? && PlainText(c.email.value) && ValidStatus(c.status)
    requires c.tags == [t] + (if u == "" then [] else [u])
    requires TagText(t) && (u != "" ==> TagText(u))
    ensures Exportable(c)
  {
  }

  lemma JohnNamePlain()
    ensures PlainText("John Doe")
  {
  }

  lemma JohnPhonePlain()
    ensures PlainText("+1234567890")
  {
  }

  lemma JohnEmailPlain()
    ensures PlainText("john@example.com")
  {
  }

  lemma JohnCustomerTagPlain()
    ensures TagText("customer")
  {
  }

  lemma JohnVipTagPlain()
    ensures TagText("vip")
  {
  }

  lemma JohnExportable()
    ensures Exportable(SampleJohn)
  {
    JohnNamePlain();
    JohnPhonePlain();
    JohnEmailPlain();
    JohnCustomerTagPlain();
    JohnVipTagPlain();
    RowExportable(SampleJohn, "customer", "vip");
  }

  lemma JaneNamePlain()
    ensures PlainText("Jane Smith")
  {
  }

  lemma JanePhonePlain()
    ensures PlainText("+1234567891")
  {
  }

  lemma JaneEmailPlain()
    ensures PlainText("jane@example.com")
  {
  }

  lemma JaneLeadTagPlain()
    ensures TagText("lead")
  {
  }

  lemma JaneExportable()
    ensures Exportable(SampleJane)
  {
    JaneNamePlain();
    JanePhonePlain();
    JaneEmailPlain();
    JaneLeadTagPlain();
    RowExportable(SampleJane, "lead", "");
  }

  lemma SamplesImported()
    ensures ImportedAll([SampleJohn, SampleJane]) == [
      Parsed(Some("John Doe"), Some("+1234567890"), Some("john@example.com"), Some("active"), Some(["customer", "vip"])),
      Parsed(Some("Jane Smith"), Some("+1234567891"), Some("jane@example.com"), Some("active"), Some(["lead"]))]
  {
  }

  /** Text that is the export of exportable contacts imports as them. */
  lemma ImportsAs(text: string, cs: seq<Row>)
    requires text == Export(cs)
    requires forall i :: 0 <= i < |cs| ==> Exportable(cs[i])
    ensures ParseCsv(text) == ImportedAll(cs)
  {
    ExportThenParse(cs);
  }

  /** The template the dialog offers imports as its two sample contacts. */
  lemma TemplateImportsTwoContacts()
    ensures ParseCsv(TemplateCsv) == [
      Parsed(Some("John Doe"), Some("+1234567890"), Some("john@example.com"), Some("active"), Some(["customer", "vip"])),
      Parsed(Some("Jane Smith"), Some("+1234567891"), Some("jane@example.com"), Some("active"), Some(["lead"]))]
  {
    TemplateIsExport();
    JohnExportable();
    JaneExportable();
    ImportsAs(TemplateCsv, [SampleJohn, SampleJane]);
    SamplesImported();
  }
}

=== FILE: contact_form.dfy ===
/** The contact form's client-side helpers: phone normalisation and
    validation, the submit guard, and the tag editor. */
module ContactForm {
  import opened Wrappers
  import opened Text
  import opened Lists
  import opened Domain

  predicate AllDigits(s: string) {
    forall i :: 0 <= i < |s| ==> IsDigit(s[i])
  }

  /** `validatePhone`: at least ten digits, wherever they are. */
  predicate ValidPhone(phone: string) {
    |Digits(phone)| >= 10
  }

  /** `formatPhoneNumber`: with at least ten digits, a plus sign followed by
      the digits, where a ten-digit number not starting with 1 is taken to be
      North American and gets the country code 1; anything shorter is left as
      typed. */
  function FormatPhone(phone: string): (r: string)
    ensures !ValidPhone(phone) ==> r == phone
    ensures ValidPhone(phone) ==>
      && |r| >= 11 && r[0] == '+' && AllDigits(r[1..]) && |Digits(phone)| < |r|
      && r[|r| - |Digits(phone)|..] == Digits(phone)
  {
    var digits := Digits(phone);
    if |digits| >= 10 then
      if digits[0] != '1' && |digits| == 10 then "+1" + digits else "+" + digits
    else phone
  }

  /** The digits a formatted number carries: those typed, after a 1 only when
      ten digits not starting with 1 were typed. */
  lemma FormatPhoneDigits(phone: string)
    requires ValidPhone(phone)
    ensures var d := Digits(phone);
      Digits(FormatPhone(phone)) == if |d| == 10 && d[0] != '1' then "1" + d else d
  {
    var d := Digits(phone);
    var r := FormatPhone(phone);
    assert r == "+" + r[1..];
    DigitsAppend("+", r[1..]);
    DigitsOfDigits(r[1..]);
    assert Digits("+") == "";
    if |d| == 10 && d[0] != '1' {
      assert r[1..] == "1" + d;
    } else {
      assert r[1..] == d;
    }
  }

  /** Formatting an already formatted number changes nothing. */
  lemma FormatPhoneIdempotent(phone: string)
    ensures FormatPhone(FormatPhone(phone)) == FormatPhone(phone)
  {
    if ValidPhone(phone) {
      var r := FormatPhone(phone);
      FormatPhoneDigits(phone);
      var e := Digits(r);
      assert e == r[1..];
      assert |e| == 10 ==> e[0] == '1';
      assert r == "+" + e;
    }
  }

  /** A valid number stays valid once formatted. */
  lemma FormatPhoneKeepsValid(phone: string)
    ensures ValidPhone(FormatPhone(phone)) <==> ValidPhone(phone)
  {
    if ValidPhone(phone) {
      FormatPhoneDigits(phone);
    }
  }

  /** What the form edits. */
  datatype ContactDraft = ContactDraft(name: string, phone: string, email: string, status: ContactStatus, tags: seq<string>)

  /** What the form hands to its `onSubmit`: the email is absent when empty. */
  datatype ContactSubmission = ContactSubmission(name: string, phone: string, email: Option<string>, status: ContactStatus, tags: seq<string>)

  /** `handleSubmit`: nothing for an invalid phone, otherwise the form with
      the phone formatted and an empty email dropped. */
  function Submit(form: ContactDraft): (r: Option<ContactSubmission>)
    ensures r.None? <==> !ValidPhone(form.phone)
    ensures r.Some? ==>
      && r.value.phone == FormatPhone(form.phone)
      && r.value.email == (if form.email == "" then None else Some(form.email))
      && r.value.name == form.name && r.value.status == form.status && r.value.tags == form.tags
  {
    if !ValidPhone(form.phone) then None
    else Some(ContactSubmission(form.name, FormatPhone(form.phone), if form.email == "" then None else Some(form.email), form.status, form.tags))
  }

  /** A submitted phone is valid and already in its formatted shape, so
      submitting it again would send the same number. */
  lemma SubmittedPhoneIsFormatted(form: ContactDraft)
    requires Submit(form).Some?
    ensures var p := Submit(form).value.phone;
      ValidPhone(p) && FormatPhone(p) == p && p[0] == '+'
  {
    FormatPhoneKeepsValid(form.phone);
    FormatPhoneIdempotent(form.phone);
  }

  /** `addTag`: the trimmed draft is appended when it is non-empty and new,
      and the draft is then cleared; otherwise nothing changes. */
  function AddTag(tags: seq<string>, draft: string): (r: (seq<string>, string))
    ensures r.0 == tags || r.0 == tags + [Trim(draft)]
    ensures r.0 != tags <==> Trim(draft) != "" && Trim(draft) !in tags
    ensures r.1 == (if r.0 == tags then draft else "")
  {
    var t := Trim(draft);
    if t != "" && t !in tags then (tags + [t], "") else (tags, draft)
  }

  /** `removeTag`: every tag equal to the argument dropped. */
  function RemoveTag(tags: seq<string>, tag: string): (r: seq<string>)
    ensures tag !in r
    ensures forall t :: t in r <==> t in tags && t != tag
  {
    Without(tags, tag)
  }

  /** The tag editor never creates a duplicate tag. */
  lemma TagsStayDistinct(tags: seq<string>, draft: string, tag: string)
    requires Distinct(tags)
    ensures Distinct(AddTag(tags, draft).0)
    ensures Distinct(RemoveTag(tags, tag))
  {
    var t := Trim(draft);
    if t != "" && t !in tags {
      AppendDistinct(tags, t);
    }
    WithoutDistinct(tags, tag);
  }

  /** Removing a tag that was just added restores the list. */
  lemma RemoveUndoesAdd(tags: seq<string>, draft: string)
    requires AddTag(tags, draft).0 != tags
    ensures RemoveTag(AddTag(tags, draft).0, Trim(draft)) == tags
  {
    WithoutAppended(tags, Trim(draft));
  }
}

=== FILE: contact_routes.dfy ===
/** The contact listing filter and bulk import. Import looks each row's
    trimmed phone up, skips rows whose phone is already stored (including
    phones stored by earlier rows of the same batch), and otherwise saves
    the row through the schema: strings trimmed, email lower-cased, name
    and phone required, status from a fixed set, phone unique. */
module ContactRoutes {
  import opened Wrappers
  import opened Text
  import opened Lists
  import opened TemplateText
  import opened Domain
  import opened Paging

  /** An import row as posted. */
  datatype ContactData = ContactData(
    name: string,
    phone: string,
    email: Option<string>,
    tags: seq<string>,
    status: Option<string>,
    metadata: Bindings)

  /** Contacts in creation order and the id the next one receives. */
  datatype ContactStore = ContactStore(contacts: seq<Contact>, nextId: ContactId)

  predicate PhonesUnique(cs: seq<Contact>) {
    forall i, j :: 0 <= i < j < |cs| ==> cs[i].phone != cs[j].phone
  }

  predicate HasPhone(cs: seq<Contact>, phone: string) {
    exists i :: 0 <= i < |cs| && cs[i].phone == phone
  }

  function StatusNamed(s: string): Option<ContactStatus> {
    if s == "active" then Some(Active)
    else if s == "inactive" then Some(Inactive)
    else if s == "blocked" then Some(Blocked)
    else None
  }

  /** Why the schema refuses a row: a required field empty after trimming,
      or a status outside the enumeration. */
  datatype ImportError = ValidationFailed

  /** The schema's validators: name and phone required after trimming,
      status (when given) one of the enumeration. */
  predicate Acceptable(row: ContactData) {
    Trim(row.name) != "" && Trim(row.phone) != "" && (row.status.None? || StatusNamed(row.status.value).Some?)
  }

  /** The document the schema builds from a row, or why it refuses it. */
  function Validate(row: ContactData, id: ContactId): (r: Result<Contact, ImportError>)
    ensures r.Success? <==> Acceptable(row)
    ensures r.Success? ==> r.value.id == id && r.value.phone == Trim(row.phone)
  {
    if Acceptable(row) then Success(Cast(row, id)) else Failure(ValidationFailed)
  }

  /** The document with the schema's setters applied to every field. */
  function Cast(row: ContactData, id: ContactId): Contact
    requires Acceptable(row)
  {
    var status := if row.status.None? then Active else StatusNamed(row.status.value).value;
    var email := if row.email.Some? then Some(ToLower(Trim(row.email.value))) else None;
    Contact(id, Trim(row.name), Trim(row.phone), email, TrimEach(row.tags), status, row.metadata, false)
  }

  /** The stored document: every string trimmed, the email lower-cased,
      the status defaulting to active, and not opted out. */
  lemma ValidateFields(row: ContactData, id: ContactId)
    requires Acceptable(row)
    ensures var c := Validate(row, id).value;
      && c.name == Trim(row.name) && c.name != ""
      && c.email == (if row.email.Some? then Some(ToLower(Trim(row.email.value))) else None)
      && c.tags == TrimEach(row.tags) && !c.optedOut && c.metadata == row.metadata
      && c.status == (if row.status.None? then Active else StatusNamed(row.status.value).value)
  {
  }

  datatype RowOutcome = Imported | Skipped | Errored(error: ImportError)

  /** One iteration of the import loop. The lookup casts the phone through
      the schema's trim setter, so it finds a stored contact exactly when
      the save would collide with it on the unique phone index. */
  function ImportRow(st: ContactStore, row: ContactData): (r: (ContactStore, RowOutcome))
    ensures r.1 == Skipped <==> HasPhone(st.contacts, Trim(row.phone))
    ensures r.1 == Imported <==>
      !HasPhone(st.contacts, Trim(row.phone)) && Validate(row, st.nextId).Success?
    ensures r.1 == Imported ==>
      r.0 == ContactStore(st.contacts + [Validate(row, st.nextId).value], st.nextId + 1)
    ensures r.1 != Imported ==> r.0 == st
  {
    if HasPhone(st.contacts, Trim(row.phone)) then (st, Skipped)
    else
      match Validate(row, st.nextId)
      case Failure(e) => (st, Errored(e))
      case Success(c) => (ContactStore(st.contacts + [c], st.nextId + 1), Imported)
  }

  /** A row's import never stores a second contact with a stored phone. */
  lemma ImportRowKeepsUnique(st: ContactStore, row: ContactData)
    requires PhonesUnique(st.contacts)
    ensures PhonesUnique(ImportRow(st, row).0.contacts)
  {
    var (st1, o) := ImportRow(st, row);
    if o == Imported {
      AppendKeepsUnique(st.contacts, Validate(row, st.nextId).value);
    }
  }

  lemma AppendKeepsUnique(cs: seq<Contact>, c: Contact)
    requires !HasPhone(cs, c.phone)
    ensures PhonesUnique(cs) ==> PhonesUnique(cs + [c])
  {
    if PhonesUnique(cs) {
      forall i, j | 0 <= i < j < |cs + [c]|
        ensures (cs + [c])[i].phone != (cs + [c])[j].phone
      {
        if j == |cs| {
          assert (cs + [c])[i] == cs[i];
        }
      }
    }
  }

  /** The counters and error list the route answers with. */
  datatype ImportResults = ImportResults(imported: nat, skipped: nat, errors: seq<(ContactData, ImportError)>)

  function ImportRows(st: ContactStore, rows: seq<ContactData>): (r: (ContactStore, ImportResults))
    ensures r.1.imported + r.1.skipped + |r.1.errors| == |rows|
    decreases |rows|
  {
    if |rows| == 0 then (st, ImportResults(0, 0, []))
    else
      var step := ImportRow(st, rows[0]);
      var rest := ImportRows(step.0, rows[1..]);
      (rest.0, Tally(rest.1, rows[0], step.1))
  }

  /** An import only appends: one document per imported row, after the
      documents already stored. */
  lemma {:induction false} ImportRowsGrows(st: ContactStore, rows: seq<ContactData>)
    ensures var r := ImportRows(st, rows);
      && |r.0.contacts| == |st.contacts| + r.1.imported
      && r.0.contacts[..|st.contacts|] == st.contacts
    decreases |rows|
  {
    if |rows| > 0 {
      var step := ImportRow(st, rows[0]);
      var rest := ImportRows(step.0, rows[1..]);
      ImportRowsGrows(step.0, rows[1..]);
      RowGrows(st, rows[0]);
      PrefixOfPrefix(st.contacts, step.0.contacts, rest.0.contacts);
    }
  }

  /** One row adds at most its own document at the end of the store. */
  lemma RowGrows(st: ContactStore, row: ContactData)
    ensures var r := ImportRow(st, row);
      && |r.0.contacts| == |st.contacts| + (if r.1 == Imported then 1 else 0)
      && r.0.contacts[..|st.contacts|] == st.contacts
  {
  }

  lemma PrefixOfPrefix<T>(a: seq<T>, b: seq<T>, c: seq<T>)
    requires |a| <= |b| <= |c| && b[..|a|] == a && c[..|b|] == b
    ensures c[..|a|] == a
  {
    assert c[..|a|] == c[..|b|][..|a|];
  }

  /** A whole import keeps phones unique. */
  lemma {:induction false} ImportRowsKeepsUnique(st: ContactStore, rows: seq<ContactData>)
    ensures PhonesUnique(st.contacts) ==> PhonesUnique(ImportRows(st, rows).0.contacts)
    decreases |rows|
  {
    if |rows| > 0 && PhonesUnique(st.contacts) {
      ImportRowKeepsUnique(st, rows[0]);
      ImportRowsKeepsUnique(ImportRow(st, rows[0]).0, rows[1..]);
    }
  }

  /** Counts one row's outcome into the results. */
  function Tally(res: ImportResults, row: ContactData, outcome: RowOutcome): (r: ImportResults)
    ensures r.imported + r.skipped + |r.errors| == res.imported + res.skipped + |res.errors| + 1
    ensures r.imported == res.imported + (if outcome == Imported then 1 else 0)
  {
    match outcome
    case Imported => res.(imported := res.imported + 1)
    case Skipped => res.(skipped := res.skipped + 1)
    case Errored(e) => res.(errors := [(row, e)] + res.errors)
  }

  /** `POST /contacts/bulk-import`; `None` stands for a body whose
      `contacts` is not an array. */
  function BulkImport(st: ContactStore, rows: Option<seq<ContactData>>): (r: Result<(ContactStore, ImportResults), (nat, string)>)
    ensures r.Failure? <==> rows.None? || |rows.value| == 0
    ensures r.Failure? ==> r.error == (400, "Invalid contacts data")
    ensures r.Success? ==>
      && r.value.1.imported + r.value.1.skipped + |r.value.1.errors| == |rows.value|
      && |r.value.0.contacts| == |st.contacts| + r.value.1.imported
      && (PhonesUnique(st.contacts) ==> PhonesUnique(r.value.0.contacts))
  {
    if rows.None? || |rows.value| == 0 then Failure((400, "Invalid contacts data"))
    else
      ImportRowsKeepsUnique(st, rows.value);
      ImportRowsGrows(st, rows.value);
      Success(ImportRows(st, rows.value))
  }

  /** A row the store already answers: its phone is stored, or the
      schema refuses it whatever the store holds. */
  predicate Absorbed(st: ContactStore, row: ContactData) {
    HasPhone(st.contacts, Trim(row.phone)) || !Acceptable(row)
  }

  lemma HasPhoneGrows(cs: seq<Contact>, ds: seq<Contact>, phone: string)
    requires |cs| <= |ds| && ds[..|cs|] == cs && HasPhone(cs, phone)
    ensures HasPhone(ds, phone)
  {
    var i :| 0 <= i < |cs| && cs[i].phone == phone;
    assert ds[..|cs|][i] == ds[i];
  }

  /** After an import, the store absorbs every row of the batch. */
  lemma ImportAbsorbsBatch(st: ContactStore, rows: seq<ContactData>)
    ensures forall k :: 0 <= k < |rows| ==> Absorbed(ImportRows(st, rows).0, rows[k])
  {
    forall k | 0 <= k < |rows|
      ensures Absorbed(ImportRows(st, rows).0, rows[k])
    {
      ImportAbsorbsRow(st, rows, k);
    }
  }

  /** After an import, the store absorbs the batch's row `k`: the rows
      before it only add contacts, the row itself is stored, skipped or
      refused, and the rows after it only add contacts. */
  lemma ImportAbsorbsRow(st: ContactStore, rows: seq<ContactData>, k: nat)
    requires k < |rows|
    ensures Absorbed(ImportRows(st, rows).0, rows[k])
  {
    var before, from := rows[..k], rows[k..];
    assert before + from == rows;
    assert from[0] == rows[k];
    ImportRowsSplit(st, before, from);
    FirstRowAbsorbed(ImportRows(st, before).0, from);
  }

  /** Importing two batches one after the other leaves the store that
      importing them as one batch leaves. */
  lemma {:induction false} ImportRowsSplit(st: ContactStore, a: seq<ContactData>, b: seq<ContactData>)
    ensures ImportRows(st, a + b).0 == ImportRows(ImportRows(st, a).0, b).0
    decreases |a|
  {
    if |a| > 0 {
      assert (a + b)[0] == a[0];
      assert (a + b)[1..] == a[1..] + b;
      ImportRowsFirst(st, a + b);
      ImportRowsFirst(st, a);
      ImportRowsSplit(ImportRow(st, a[0]).0, a[1..], b);
    } else {
      assert a + b == b;
    }
  }

  /** The batch's first row stays absorbed by the end of the import. */
  lemma FirstRowAbsorbed(st: ContactStore, rows: seq<ContactData>)
    requires |rows| > 0
    ensures Absorbed(ImportRows(st, rows).0, rows[0])
  {
    var st1 := ImportRow(st, rows[0]).0;
    ImportRowsFirst(st, rows);
    RowAbsorbed(st, rows[0]);
    ImportRowsGrows(st1, rows[1..]);
    AbsorbedGrows(st1, ImportRows(st1, rows[1..]).0, rows[0]);
  }

  /** The import of a batch continues from the store its first row leaves. */
  lemma ImportRowsFirst(st: ContactStore, rows: seq<ContactData>)
    requires |rows| > 0
    ensures ImportRows(st, rows).0 == ImportRows(ImportRow(st, rows[0]).0, rows[1..]).0
  {
  }

  /** Right after its own import, the store absorbs a row. */
  lemma RowAbsorbed(st: ContactStore, row: ContactData)
    ensures Absorbed(ImportRow(st, row).0, row)
  {
    var r := ImportRow(st, row);
    if r.1 == Imported {
      assert r.0.contacts[|st.contacts|].phone == Trim(row.phone);
    } else if r.1 == Skipped {
      assert r.0 == st;
    }
  }

  /** A store that grows at its end keeps absorbing what it absorbed. */
  lemma AbsorbedGrows(a: ContactStore, b: ContactStore, row: ContactData)
    requires |a.contacts| <= |b.contacts| && b.contacts[..|a.contacts|] == a.contacts
    requires Absorbed(a, row)
    ensures Absorbed(b, row)
  {
    if HasPhone(a.contacts, Trim(row.phone)) {
      HasPhoneGrows(a.contacts, b.contacts, Trim(row.phone));
    }
  }

  /** A batch the store already absorbs imports nothing and leaves the
      store as it was. */
  lemma {:induction false} AbsorbedBatchImportsNothing(st: ContactStore, rows: seq<ContactData>)
    requires forall k :: 0 <= k < |rows| ==> Absorbed(st, rows[k])
    ensures ImportRows(st, rows).1.imported == 0 && ImportRows(st, rows).0 == st
    decreases |rows|
  {
    if |rows| > 0 {
      assert Absorbed(st, rows[0]);
      forall k | 0 <= k < |rows[1..]|
        ensures Absorbed(st, rows[1..][k])
      {
        assert rows[1..][k] == rows[k + 1];
      }
      AbsorbedBatchImportsNothing(st, rows[1..]);
    }
  }

  /** Importing the same batch a second time imports nothing and leaves
      the store unchanged. */
  lemma ReimportImportsNothing(st: ContactStore, rows: seq<ContactData>)
    ensures var fin := ImportRows(st, rows).0;
      ImportRows(fin, rows).1.imported == 0 && ImportRows(fin, rows).0 == fin
  {
    ImportAbsorbsBatch(st, rows);
    AbsorbedBatchImportsNothing(ImportRows(st, rows).0, rows);
  }

  /** Two rows whose phones differ at most by surrounding spaces, first
      seen in the same batch: the first is imported and the second skipped,
      because the lookup sees the first row's save. */
  lemma RepeatedPhoneInBatchSkipped(st: ContactStore, a: ContactData, b: ContactData)
    requires Trim(a.phone) == Trim(b.phone)
    requires Validate(a, st.nextId).Success? && !HasPhone(st.contacts, Trim(a.phone))
    ensures var r := ImportRows(st, [a, b]).1;
      r.imported == 1 && r.skipped == 1 && r.errors == []
  {
    var st1 := ImportRow(st, a).0;
    FirstRowStored(st, a);
    StoredRowSkipped(st1, b);
    TwoRows(st, a, b);
  }

  /** A new, valid row is imported and its trimmed phone is then stored. */
  lemma FirstRowStored(st: ContactStore, a: ContactData)
    requires Validate(a, st.nextId).Success? && !HasPhone(st.contacts, Trim(a.phone))
    ensures ImportRow(st, a).1 == Imported
    ensures HasPhone(ImportRow(st, a).0.contacts, Trim(a.phone))
  {
    var cs := ImportRow(st, a).0.contacts;
    assert cs[|st.contacts|] == Validate(a, st.nextId).value;
  }

  /** A batch of one row whose phone is stored counts one skip. */
  lemma StoredRowSkipped(st: ContactStore, b: ContactData)
    requires HasPhone(st.contacts, Trim(b.phone))
    ensures ImportRows(st, [b]).1 == ImportResults(0, 1, [])
  {
    assert ImportRow(st, b).1 == Skipped;
    assert [b][1..] == [];
  }

  lemma TwoRows(st: ContactStore, a: ContactData, b: ContactData)
    ensures ImportRows(st, [a, b]).1 == Tally(ImportRows(ImportRow(st, a).0, [b]).1, a, ImportRow(st, a).1)
  {
    assert [a, b][1..] == [b];
  }

  /** The listing query: an empty string stands for an absent parameter. */
  datatype ListQuery = ListQuery(search: string, status: string, tags: string)

  function StatusName(s: ContactStatus): string {
    match s
    case Active => "active"
    case Inactive => "inactive"
    case Blocked => "blocked"
  }

  /** Case-insensitive substring match on name, phone or email. */
  predicate MatchesSearch(c: Contact, q: string) {
    var needle := ToLower(q);
    Contains(ToLower(c.name), needle) || Contains(ToLower(c.phone), needle)
    || (c.email.Some? && Contains(ToLower(c.email.value), needle))
  }

  /** The contact carries at least one of the comma-separated tags. */
  predicate MatchesTags(c: Contact, tags: string) {
    exists t :: t in Split(tags, ',') && t in c.tags
  }

  predicate MatchesQuery(c: Contact, q: ListQuery) {
    && (q.search == "" || MatchesSearch(c, q.search))
    && (q.status == "" || StatusName(c.status) == q.status)
    && (q.tags == "" || MatchesTags(c, q.tags))
  }

  /** The matching contacts, newest first. */
  function Matching(cs: seq<Contact>, q: ListQuery): (r: seq<Contact>)
    ensures forall c :: c in r <==> c in cs && MatchesQuery(c, q)
    ensures |r| <= |cs|
  {
    if |cs| == 0 then []
    else
      var rest := Matching(cs[..|cs| - 1], q);
      var c := cs[|cs| - 1];
      assert forall x :: x in cs <==> x == c || x in cs[..|cs| - 1];
      if MatchesQuery(c, q) then [c] + rest else rest
  }

  /** `GET /contacts`. */
  function ListContacts(st: ContactStore, q: ListQuery, page: int, limit: nat): (r: Result<Page<Contact>, string>)
    ensures r == Paginate(Matching(st.contacts, q), page, limit)
    ensures r.Success? ==> r.value.total == |Matching(st.contacts, q)|
    ensures r.Success? ==> forall c :: c in r.value.items ==> c in st.contacts && MatchesQuery(c, q)
  {
    var all := Matching(st.contacts, q);
    var r := Paginate(all, page, limit);
    if r.Success? then
      var skip := (page - 1) * limit;
      assert skip < |all| ==> forall c :: c in r.value.items ==> c in all[skip..];
      r
    else r
  }

  /** An empty query lists every contact, newest first. */
  lemma {:induction false} EmptyQueryMatchesAll(cs: seq<Contact>)
    ensures Matching(cs, ListQuery("", "", "")) == Reverse(cs)
  {
    if |cs| > 0 {
      EmptyQueryMatchesAll(cs[..|cs| - 1]);
    }
  }

  /** A contact added last is listed ahead of every older match. */
  lemma MatchingNewestFirst(cs: seq<Contact>, c: Contact, q: ListQuery)
    ensures Matching(cs + [c], q) == (if MatchesQuery(c, q) then [c] else []) + Matching(cs, q)
  {
    assert (cs + [c])[..|cs|] == cs;
  }
}

=== FILE: delivery.dfy ===
/** One delivery pass over a campaign (`sendCampaignMessages` and its Twilio
    twin): look up the template and the eligible contacts, then for each
    contact render, record the message, send it and bump a counter, pausing
    between sends to respect the campaign's rate; finally mark the campaign
    completed. A contact whose body renders empty takes the loop's error
    path: the message schema refuses an empty content, so nothing is stored
    or sent, no event is emitted, no pause is taken and the contact counts as
    failed. The two providers differ only in their default rate and in where
    the provider's id is stored. */
module Delivery {
  import opened Wrappers
  import opened Domain
  import opened TemplateText
  import opened Templating
  import opened Providers

  datatype Channel = WhatsAppChannel | TwilioChannel

  /** The rate used when the campaign's own is 0 (falsy). */
  function DefaultRate(ch: Channel): nat {
    match ch
    case WhatsAppChannel => 60
    case TwilioChannel => 10
  }

  /** `campaign.rateLimitPerMinute || default`. */
  function EffectiveRate(ch: Channel, c: Campaign): (r: nat)
    ensures r > 0
    ensures c.rateLimitPerMinute > 0 ==> r == c.rateLimitPerMinute
    ensures c.rateLimitPerMinute == 0 ==> r == DefaultRate(ch)
  {
    if c.rateLimitPerMinute == 0 then DefaultRate(ch) else c.rateLimitPerMinute
  }

  /** Milliseconds waited between two consecutive sends: a minute spread
      evenly over the rate. */
  function PacingDelay(ch: Channel, c: Campaign): (r: real)
    ensures r > 0.0
    ensures r * EffectiveRate(ch, c) as real == 60000.0
  {
    60000.0 / EffectiveRate(ch, c) as real
  }

  /** A send function with the provider's formatting already applied:
      (contact phone, rendered body) to result. */
  type Sender = (string, string) -> SendResult

  /** The time at which the i-th send of the pass is recorded. */
  type Clock = nat -> Time

  /** The content the contact's message is created with: the body as the
      server renders it. `None` when rendering throws (a variable pattern
      that is not a valid regular expression) or gives the empty text, which
      the message's first save refuses; both take the loop's error path. */
  function MessageText(body: string, variables: Bindings, contact: Contact): (r: Option<string>)
    ensures r.Some? ==> r.value != "" && RenderAsWritten(body, variables, contact) == r
    ensures r.None? <==> RenderAsWritten(body, variables, contact) in {None, Some("")}
  {
    match RenderAsWritten(body, variables, contact)
    case None => None
    case Some(text) => if text == "" then None else Some(text)
  }

  /** What handling the i-th eligible contact stores: its message, sent or
      failed by the provider's answer; nothing when rendering throws or
      gives an empty body, as the message is then never saved. */
  function Deliver(ch: Channel, c: Campaign, t: Template, contact: Contact, i: nat,
                   send: Sender, clock: Clock): (r: Option<Message>)
    ensures r.None? <==> MessageText(t.body, c.variables, contact).None?
    ensures r.Some? ==>
      var m := r.value;
      && m.campaignId == c.id && m.contactId == contact.id && m.templateId == t.id
      && m.content == MessageText(t.body, c.variables, contact).value
      && (m.status == Sent || m.status == MessageFailed)
      && (m.status == Sent <==> send(contact.phone, m.content).SendOk?)
      && (m.status == Sent ==> m.sentAt == Some(clock(i)) && m.errorMessage == None)
      && (m.status == MessageFailed ==>
            m.sentAt == None && m.errorMessage == Some(send(contact.phone, m.content).error))
      && (m.whatsappMessageId.Some? <==> ch == WhatsAppChannel && m.status == Sent)
      && (m.whatsappMessageId.Some? ==> m.whatsappMessageId.value == send(contact.phone, m.content).messageId)
      && m.deliveredAt == None && m.readAt == None && m.retryCount == 0 && m.maxRetries == 3
  {
    match MessageText(t.body, c.variables, contact)
    case None => None
    case Some(content) =>
      var pending := NewMessage(c.id, contact.id, t.id, content);
      match send(contact.phone, content)
      case SendOk(id) =>
        Some(pending.(status := Sent, sentAt := Some(clock(i)),
                      whatsappMessageId := if ch == WhatsAppChannel then Some(id) else None))
      case SendError(e) => Some(pending.(status := MessageFailed, errorMessage := Some(e)))
  }

  /** When no variable or metadata key reads as a quantifier, the stored
      content and the empty-body test are those of the intended rendering. */
  lemma DeliverIntended(ch: Channel, c: Campaign, t: Template, contact: Contact, i: nat,
                        send: Sender, clock: Clock)
    requires PlainKeys(c.variables) && PlainKeys(contact.metadata)
    ensures Deliver(ch, c, t, contact, i, send, clock).None? <==> Render(t.body, c.variables, contact) == ""
    ensures Deliver(ch, c, t, contact, i, send, clock).Some? ==>
      Deliver(ch, c, t, contact, i, send, clock).value.content == Render(t.body, c.variables, contact)
  {
    assert RenderAsWritten(t.body, c.variables, contact) == Some(Render(t.body, c.variables, contact));
  }

  /** The campaign variable `2` on the body `{{2}}`: the server sends and
      stores the placeholder unfilled, where the intended rendering would
      send the variable's value. */
  lemma DeliverDigitKeySendsPlaceholder(ch: Channel, c: Campaign, t: Template, contact: Contact,
                                        i: nat, send: Sender, clock: Clock)
    requires t.body == "{{2}}" && c.variables == [("2", "x")]
    requires CleanInputs(c.variables, contact) && contact.metadata == []
    ensures Deliver(ch, c, t, contact, i, send, clock).Some?
    ensures Deliver(ch, c, t, contact, i, send, clock).value.content == "{{2}}"
    ensures Render(t.body, c.variables, contact) == "x"
  {
    DigitKeyNotFilled(contact);
  }

  /** The campaign variable `1,2` on the body `{{1,2}}`: the server's
      pattern is a run of one or two `{` then `}`, so the placeholder is sent
      and stored unfilled. */
  lemma DeliverCommaKeySendsPlaceholder(ch: Channel, c: Campaign, t: Template, contact: Contact,
                                        i: nat, send: Sender, clock: Clock)
    requires t.body == "{{1,2}}" && c.variables == [("1,2", "x")] && contact.metadata == []
    ensures Deliver(ch, c, t, contact, i, send, clock).Some?
    ensures Deliver(ch, c, t, contact, i, send, clock).value.content == "{{1,2}}"
  {
    CommaKeyNotFilled(contact);
  }

  /** A campaign variable whose key makes the server's pattern a syntax
      error (such as `2,1`) throws for every contact, before any message is
      created or sent. */
  lemma DeliverUnparsableKey(ch: Channel, c: Campaign, t: Template, contact: Contact, i: nat,
                             send: Sender, clock: Clock)
    requires HasUnparsableKey(c.variables)
    ensures Deliver(ch, c, t, contact, i, send, clock).None?
  {
  }

  /** A contact the pass counted as sent: its message was stored and sent. */
  predicate CountedSent(o: Option<Message>) {
    o.Some? && o.value.status == Sent
  }

  /** Number of contacts counted as sent. */
  function SentCount(os: seq<Option<Message>>): (n: nat)
    ensures n <= |os|
    ensures n == 0 <==> forall i :: 0 <= i < |os| ==> !CountedSent(os[i])
  {
    if |os| == 0 then 0
    else SentCount(os[..|os| - 1]) + (if CountedSent(os[|os| - 1]) then 1 else 0)
  }

  /** The campaign's counters once the contacts `done` of an `n`-contact
      pass are handled: each is counted as sent or as failed. */
  function ProgressAfter(base: Progress, n: nat, done: seq<Option<Message>>): (p: Progress)
    ensures p.total == n && p.delivered == base.delivered && p.read == base.read
    ensures p.sent + p.failed == base.sent + base.failed + |done|
    ensures p.sent >= base.sent && p.failed >= base.failed
  {
    var s := SentCount(done);
    base.(total := n, sent := base.sent + s, failed := base.failed + (|done| - s))
  }

  /** Handling one more contact bumps exactly one counter. */
  lemma ProgressAfterAppend(base: Progress, n: nat, os: seq<Option<Message>>, o: Option<Message>)
    ensures ProgressAfter(base, n, os + [o]) ==
      var p := ProgressAfter(base, n, os);
      if CountedSent(o) then p.(sent := p.sent + 1) else p.(failed := p.failed + 1)
  {
    assert (os + [o])[..|os|] == os;
  }

  /** Every eligible contact's outcome, in order. */
  function DeliverAll(ch: Channel, c: Campaign, t: Template, eligible: seq<Contact>,
                      send: Sender, clock: Clock): (os: seq<Option<Message>>)
    ensures |os| == |eligible|
    ensures forall i :: 0 <= i < |eligible| ==> os[i] == Deliver(ch, c, t, eligible[i], i, send, clock)
  {
    seq(|eligible|, i requires 0 <= i < |eligible| => Deliver(ch, c, t, eligible[i], i, send, clock))
  }

  lemma DeliverAllAppend(ch: Channel, c: Campaign, t: Template, eligible: seq<Contact>, i: nat,
                         send: Sender, clock: Clock)
    requires i < |eligible|
    ensures DeliverAll(ch, c, t, eligible[..i + 1], send, clock) ==
      DeliverAll(ch, c, t, eligible[..i], send, clock) + [Deliver(ch, c, t, eligible[i], i, send, clock)]
  {
    var longer := DeliverAll(ch, c, t, eligible[..i + 1], send, clock);
    var shorter := DeliverAll(ch, c, t, eligible[..i], send, clock);
    forall k | 0 <= k < i ensures longer[k] == shorter[k] {
      assert eligible[..i + 1][k] == eligible[..i][k];
    }
    assert eligible[..i + 1][i] == eligible[i];
    SnocOf(longer, shorter, Deliver(ch, c, t, eligible[i], i, send, clock));
  }

  /** A sequence that agrees with another on its indices and has one more
      element is that sequence extended by the element. */
  lemma SnocOf<T>(longer: seq<T>, shorter: seq<T>, x: T)
    requires |longer| == |shorter| + 1 && longer[|shorter|] == x
    requires forall k :: 0 <= k < |shorter| ==> longer[k] == shorter[k]
    ensures longer == shorter + [x]
  {
  }

  /** The messages stored, in the order of their contacts. */
  function Recorded(os: seq<Option<Message>>): (ms: seq<Message>)
    ensures |ms| <= |os|
    ensures forall m :: m in ms <==> Some(m) in os
  {
    if |os| == 0 then []
    else
      var init := os[..|os| - 1];
      assert forall x :: x in os <==> x in init || x == os[|os| - 1];
      Recorded(init) + (if os[|os| - 1].Some? then [os[|os| - 1].value] else [])
  }

  /** The progress events of the contacts handled so far: one per stored
      message, carrying the counters as they stood then and the 1-based
      position of its contact. */
  function ProgressEvents(id: CampaignId, base: Progress, n: nat, os: seq<Option<Message>>): (es: seq<Event>)
    ensures |es| <= |os|
    decreases |os|
  {
    if |os| == 0 then []
    else
      var rest := ProgressEvents(id, base, n, os[..|os| - 1]);
      if os[|os| - 1].Some? then rest + [ProgressUpdate(id, ProgressAfter(base, n, os), |os|, n)] else rest
  }

  /** One event's agreement with the contacts handled so far: a progress
      update of this campaign for a position already reached, whose sent and
      failed counts add up to the base plus that position and stay within
      the counters reached so far. */
  predicate EventWithin(e: Event, id: CampaignId, base: Progress, n: nat, os: seq<Option<Message>>) {
    && e.ProgressUpdate? && e.campaignId == id && e.totalContacts == n && 0 < e.currentContact <= |os|
    && e.progress.total == n
    && e.progress.sent + e.progress.failed == base.sent + base.failed + e.currentContact
    && e.progress.sent <= ProgressAfter(base, n, os).sent && e.progress.failed <= ProgressAfter(base, n, os).failed
  }

  /** Progress updates whose positions increase and whose counters never
      go down from one to the next. */
  predicate EventsOrdered(es: seq<Event>) {
    forall j, k :: 0 <= j < k < |es| ==>
      && es[j].ProgressUpdate? && es[k].ProgressUpdate?
      && es[j].currentContact < es[k].currentContact
      && es[j].progress.sent <= es[k].progress.sent && es[j].progress.failed <= es[k].progress.failed
  }

  /** An update placed after ordered ones, past all of their positions and
      counters, keeps them ordered. */
  lemma AppendOrdered(es: seq<Event>, e: Event)
    requires EventsOrdered(es) && e.ProgressUpdate?
    requires forall x :: x in es ==>
      && x.ProgressUpdate? && x.currentContact < e.currentContact
      && x.progress.sent <= e.progress.sent && x.progress.failed <= e.progress.failed
    ensures EventsOrdered(es + [e])
  {
    var es' := es + [e];
    forall j, k | 0 <= j < k < |es'|
      ensures && es'[j].ProgressUpdate? && es'[k].ProgressUpdate?
              && es'[j].currentContact < es'[k].currentContact
              && es'[j].progress.sent <= es'[k].progress.sent && es'[j].progress.failed <= es'[k].progress.failed
    {
      assert es'[j] == es[j] && es[j] in es;
      if k < |es| {
        assert es'[k] == es[k];
      }
    }
  }

  /** Every progress event agrees with the contacts handled, positions
      increase from one event to the next, and no counter ever goes down. */
  lemma {:induction false} ProgressEventsMonotone(id: CampaignId, base: Progress, n: nat, os: seq<Option<Message>>)
    ensures var es := ProgressEvents(id, base, n, os);
      && (forall e :: e in es ==> EventWithin(e, id, base, n, os))
      && EventsOrdered(es)
    decreases |os|
  {
    if |os| > 0 {
      var init := os[..|os| - 1];
      ProgressEventsMonotone(id, base, n, init);
      var rest := ProgressEvents(id, base, n, init);
      var before := ProgressAfter(base, n, init);
      var after := ProgressAfter(base, n, os);
      assert SentCount(os) == SentCount(init) + (if CountedSent(os[|os| - 1]) then 1 else 0);
      assert before.sent <= after.sent && before.failed <= after.failed;
      forall e | e in rest ensures EventWithin(e, id, base, n, os) {
        assert EventWithin(e, id, base, n, init);
      }
      if os[|os| - 1].Some? {
        var e := ProgressUpdate(id, after, |os|, n);
        var es := rest + [e];
        assert es == ProgressEvents(id, base, n, os);
        forall x | x in es ensures EventWithin(x, id, base, n, os) {
          if x != e {
            assert x in rest;
          }
        }
        forall x | x in rest
          ensures x.ProgressUpdate? && x.currentContact < e.currentContact
          ensures x.progress.sent <= e.progress.sent && x.progress.failed <= e.progress.failed
        {
          assert EventWithin(x, id, base, n, init);
        }
        AppendOrdered(rest, e);
        assert EventsOrdered(es);
      } else {
        assert rest == ProgressEvents(id, base, n, os);
      }
    }
  }

  /** What a pass produced: the campaign as saved last, the messages in
      send order, the dashboard events in emission order and the number of
      pauses taken between sends. */
  datatype Pass = Pass(campaign: Campaign, messages: seq<Message>, events: seq<Event>, pauses: nat)

  datatype Outcome = Dispatched(pass: Pass) | Aborted(campaign: Campaign, error: JobError)

  /** The pauses of the contacts handled so far in an `n`-contact pass: one
      after each stored message except the last contact's. */
  function Pauses(os: seq<Option<Message>>, n: nat): (k: nat)
    ensures k <= |os|
  {
    if |os| == 0 then 0
    else Pauses(os[..|os| - 1], n) + (if os[|os| - 1].Some? && |os| < n then 1 else 0)
  }

  /** Total time a pass spends waiting, in milliseconds. */
  function Waited(ch: Channel, c: Campaign, p: Pass): real {
    p.pauses as real * PacingDelay(ch, c)
  }

  /** What a completed pass over `eligible` looks like. */
  predicate CompletedPass(ch: Channel, c: Campaign, t: Template, eligible: seq<Contact>,
                          send: Sender, clock: Clock, p: Pass)
  {
    var n := |eligible|;
    var os := DeliverAll(ch, c, t, eligible, send, clock);
    && p.messages == Recorded(os)
    && p.campaign == c.(status := Completed, progress := ProgressAfter(c.progress, n, os))
    && p.events == ProgressEvents(c.id, c.progress, n, os) + [CampaignCompleted(c.id, p.campaign.progress)]
    && p.pauses == Pauses(os, n)
  }

  /** The pass, stated declaratively. */
  function Dispatch(ch: Channel, c: Campaign, template: Option<Template>, eligible: seq<Contact>,
                    send: Sender, clock: Clock): (r: Outcome)
    ensures r.Aborted? <==> template.None? || |eligible| == 0
    ensures template.None? ==> r == Aborted(c.(status := Failed), TemplateNotFound)
    ensures template.Some? && |eligible| == 0 ==> r == Aborted(c.(status := Failed), NoActiveContacts)
    ensures r.Dispatched? ==> CompletedPass(ch, c, template.value, eligible, send, clock, r.pass)
  {
    if template.None? then Aborted(c.(status := Failed), TemplateNotFound)
    else if |eligible| == 0 then Aborted(c.(status := Failed), NoActiveContacts)
    else
      var n := |eligible|;
      var os := DeliverAll(ch, c, template.value, eligible, send, clock);
      var final := ProgressAfter(c.progress, n, os);
      Dispatched(Pass(c.(status := Completed, progress := final), Recorded(os),
                      ProgressEvents(c.id, c.progress, n, os) + [CampaignCompleted(c.id, final)], Pauses(os, n)))
  }

  /** Handling one more contact extends the stored messages, the events
      and the pauses by what that contact contributes. */
  lemma OutcomeAppend(id: CampaignId, base: Progress, n: nat, os: seq<Option<Message>>, o: Option<Message>)
    ensures Recorded(os + [o]) == Recorded(os) + (if o.Some? then [o.value] else [])
    ensures ProgressEvents(id, base, n, os + [o]) ==
      ProgressEvents(id, base, n, os) + (if o.Some? then [ProgressUpdate(id, ProgressAfter(base, n, os + [o]), |os| + 1, n)] else [])
    ensures Pauses(os + [o], n) == Pauses(os, n) + (if o.Some? && |os| + 1 < n then 1 else 0)
  {
    assert (os + [o])[..|os|] == os;
  }

  /** What a pass has accumulated so far: the campaign with its running
      counters, the stored messages, the events and the pauses taken. */
  datatype Tally = Tally(campaign: Campaign, messages: seq<Message>, events: seq<Event>, pauses: nat)

  /** The tally once the contacts with outcomes `handled` are done. */
  function TallyOf(c: Campaign, n: nat, handled: seq<Option<Message>>): Tally {
    Tally(c.(progress := ProgressAfter(c.progress, n, handled)), Recorded(handled),
          ProgressEvents(c.id, c.progress, n, handled), Pauses(handled, n))
  }

  /** One loop iteration after the send, updating the tally in place: bump
      one counter; for a stored message, append it and its progress event
      and pause unless it was the last contact. */
  method Record(c: Campaign, n: nat, s: Tally, i: nat, stored: Option<Message>, ghost handled: seq<Option<Message>>)
    returns (s': Tally)
    requires i == |handled| && s == TallyOf(c, n, handled)
    ensures s' == TallyOf(c, n, handled + [stored])
  {
    ProgressAfterAppend(c.progress, n, handled, stored);
    OutcomeAppend(c.id, c.progress, n, handled, stored);
    var p := s.campaign.progress;
    match stored {
      case None =>
        s' := s.(campaign := s.campaign.(progress := p.(failed := p.failed + 1)));
      case Some(m) =>
        p := if m.status == Sent then p.(sent := p.sent + 1) else p.(failed := p.failed + 1);
        s' := Tally(s.campaign.(progress := p), s.messages + [m],
                    s.events + [ProgressUpdate(c.id, p, i + 1, n)],
                    if i < n - 1 then s.pauses + 1 else s.pauses);
        ghost var next := handled + [stored];
        assert p == ProgressAfter(c.progress, n, next);
        assert s'.campaign == c.(progress := ProgressAfter(c.progress, n, next));
        assert s'.messages == Recorded(next);
        assert s'.events == ProgressEvents(c.id, c.progress, n, next);
        assert s'.pauses == Pauses(next, n);
    }
  }

  /** The end of the pass: mark the campaign completed and announce it
      with its final counters. */
  function Finish(c: Campaign, s: Tally): Outcome {
    var campaign := s.campaign.(status := Completed);
    Dispatched(Pass(campaign, s.messages, s.events + [CampaignCompleted(c.id, campaign.progress)], s.pauses))
  }

  /** The declarative pass is the tally over every contact, finished. */
  lemma DispatchFinishes(ch: Channel, c: Campaign, t: Template, eligible: seq<Contact>,
                         send: Sender, clock: Clock)
    requires |eligible| > 0
    ensures Dispatch(ch, c, Some(t), eligible, send, clock) ==
      Finish(c, TallyOf(c, |eligible|, DeliverAll(ch, c, t, eligible, send, clock)))
  {
  }

  /** One loop iteration: send to contact `i` and record the outcome. */
  method HandleContact(ch: Channel, c: Campaign, t: Template, eligible: seq<Contact>, i: nat,
                       send: Sender, clock: Clock, s: Tally) returns (s': Tally)
    requires i < |eligible|
    requires s == TallyOf(c, |eligible|, DeliverAll(ch, c, t, eligible[..i], send, clock))
    ensures s' == TallyOf(c, |eligible|, DeliverAll(ch, c, t, eligible[..i + 1], send, clock))
  {
    ghost var handled := DeliverAll(ch, c, t, eligible[..i], send, clock);
    var stored := SendOne(ch, c, t, eligible[i], i, send, clock);
    DeliverAllAppend(ch, c, t, eligible, i, send, clock);
    s' := Record(c, |eligible|, s, i, stored, handled);
  }

  /** The loop over the eligible contacts, in order. */
  method HandleAll(ch: Channel, c: Campaign, t: Template, eligible: seq<Contact>,
                   send: Sender, clock: Clock) returns (tally: Tally)
    ensures tally == TallyOf(c, |eligible|, DeliverAll(ch, c, t, eligible, send, clock))
  {
    var n := |eligible|;
    tally := Tally(c.(progress := c.progress.(total := n)), [], [], 0);
    var i := 0;
    while i < n
      invariant 0 <= i <= n
      invariant tally == TallyOf(c, n, DeliverAll(ch, c, t, eligible[..i], send, clock))
    {
      tally := HandleContact(ch, c, t, eligible, i, send, clock, tally);
      i := i + 1;
    }
    assert eligible[..n] == eligible;
  }

  /** The pass as the source runs it: one contact at a time, the counters
      updated in place; a stored message is followed by an event and, unless
      it was the last contact, a pause, while a refused one only counts as
      failed. */
  method RunPass(ch: Channel, c: Campaign, template: Option<Template>, eligible: seq<Contact>,
                 send: Sender, clock: Clock) returns (r: Outcome)
    ensures r == Dispatch(ch, c, template, eligible, send, clock)
  {
    if template.None? {
      return Aborted(c.(status := Failed), TemplateNotFound);
    }
    if |eligible| == 0 {
      return Aborted(c.(status := Failed), NoActiveContacts);
    }
    var tally := HandleAll(ch, c, template.value, eligible, send, clock);
    DispatchFinishes(ch, c, template.value, eligible, send, clock);
    r := Finish(c, tally);
  }

  /** One iteration's work up to the send: render the body for the contact;
      an empty body is refused by the first save, otherwise call the
      provider and record the message as sent or failed. */
  method SendOne(ch: Channel, c: Campaign, t: Template, contact: Contact, i: nat,
                 send: Sender, clock: Clock) returns (stored: Option<Message>)
    ensures stored == Deliver(ch, c, t, contact, i, send, clock)
  {
    var text := MessageText(t.body, c.variables, contact);
    if text.None? {
      return None;
    }
    var content := text.value;
    var message := NewMessage(c.id, contact.id, t.id, content);
    var response := send(contact.phone, content);
    if response.SendOk? {
      message := message.(status := Sent, sentAt := Some(clock(i)),
                          whatsappMessageId := if ch == WhatsAppChannel then Some(response.messageId) else None);
    } else {
      message := message.(status := MessageFailed, errorMessage := Some(response.error));
    }
    stored := Some(message);
  }

  /** Counting sent contacts over a longer prefix never counts fewer, and
      counts at most one more per extra contact. */
  lemma {:induction false} SentCountPrefix(os: seq<Option<Message>>, a: nat, b: nat)
    requires a <= b <= |os|
    ensures SentCount(os[..a]) <= SentCount(os[..b]) <= SentCount(os[..a]) + (b - a)
    decreases b - a
  {
    if a < b {
      SentCountPrefix(os, a, b - 1);
      assert os[..b][..b - 1] == os[..b - 1];
    }
  }

  /** When every contact was counted as sent, all of them are. */
  lemma {:induction false} SentCountAllSent(os: seq<Option<Message>>)
    requires forall i :: 0 <= i < |os| ==> CountedSent(os[i])
    ensures SentCount(os) == |os|
  {
    if |os| > 0 {
      SentCountAllSent(os[..|os| - 1]);
    }
  }

  /** With every outcome a stored message, the stored messages are the
      outcomes, one per contact. */
  lemma {:induction false} RecordedAll(os: seq<Option<Message>>)
    requires forall i :: 0 <= i < |os| ==> os[i].Some?
    ensures |Recorded(os)| == |os|
    ensures forall i :: 0 <= i < |os| ==> Recorded(os)[i] == os[i].value
  {
    if |os| > 0 {
      var init := os[..|os| - 1];
      RecordedAll(init);
      assert Recorded(os) == Recorded(init) + [os[|os| - 1].value];
    }
  }

  /** With every outcome a stored message, there is one event per contact
      and a pause after every contact but the last. */
  lemma {:induction false} EventsAndPausesAll(id: CampaignId, base: Progress, n: nat, os: seq<Option<Message>>)
    requires forall i :: 0 <= i < |os| ==> os[i].Some?
    requires |os| <= n
    ensures var es := ProgressEvents(id, base, n, os);
      && |es| == |os|
      && forall i :: 0 <= i < |os| ==> es[i] == ProgressUpdate(id, ProgressAfter(base, n, os[..i + 1]), i + 1, n)
    ensures Pauses(os, n) == if |os| == n && n > 0 then n - 1 else |os|
  {
    if |os| > 0 {
      var init := os[..|os| - 1];
      EventsAndPausesAll(id, base, n, init);
      var rest := ProgressEvents(id, base, n, init);
      var es := ProgressEvents(id, base, n, os);
      forall i | 0 <= i < |os|
        ensures es[i] == ProgressUpdate(id, ProgressAfter(base, n, os[..i + 1]), i + 1, n)
      {
        if i < |init| {
          assert es[i] == rest[i];
          assert init[..i + 1] == os[..i + 1];
        } else {
          assert os[..i + 1] == os;
        }
      }
    }
  }

  /** When no body renders empty, every outcome is a stored message. */
  lemma AllStored(ch: Channel, c: Campaign, t: Template, eligible: seq<Contact>,
                  send: Sender, clock: Clock)
    requires forall i :: 0 <= i < |eligible| ==> MessageText(t.body, c.variables, eligible[i]).Some?
    ensures var os := DeliverAll(ch, c, t, eligible, send, clock);
      forall i :: 0 <= i < |os| ==> os[i].Some?
  {
    var os := DeliverAll(ch, c, t, eligible, send, clock);
    forall i | 0 <= i < |os| ensures os[i].Some? {
      assert os[i] == Deliver(ch, c, t, eligible[i], i, send, clock);
    }
  }

  /** When no body renders empty, a pass stores one message per contact, in
      contact order. */
  lemma PassOneMessagePerContact(ch: Channel, c: Campaign, t: Template, eligible: seq<Contact>,
                                 send: Sender, clock: Clock)
    requires |eligible| > 0
    requires forall i :: 0 <= i < |eligible| ==> MessageText(t.body, c.variables, eligible[i]).Some?
    ensures var r := Dispatch(ch, c, Some(t), eligible, send, clock);
      && r.Dispatched?
      && |r.pass.messages| == |eligible|
      && forall i :: 0 <= i < |eligible| ==>
           && r.pass.messages[i].contactId == eligible[i].id
           && Some(r.pass.messages[i]) == Deliver(ch, c, t, eligible[i], i, send, clock)
  {
    var os := DeliverAll(ch, c, t, eligible, send, clock);
    AllStored(ch, c, t, eligible, send, clock);
    RecordedAll(os);
    var r := Dispatch(ch, c, Some(t), eligible, send, clock);
    assert r.pass.messages == Recorded(os);
  }

  /** When no body renders empty, a pass emits one progress event per
      contact, carrying its position, then the completion event, and pauses
      between consecutive sends. */
  lemma PassOneEventPerContact(ch: Channel, c: Campaign, t: Template, eligible: seq<Contact>,
                               send: Sender, clock: Clock)
    requires |eligible| > 0
    requires forall i :: 0 <= i < |eligible| ==> MessageText(t.body, c.variables, eligible[i]).Some?
    ensures var r := Dispatch(ch, c, Some(t), eligible, send, clock);
      && r.Dispatched?
      && |r.pass.events| == |eligible| + 1
      && (forall i :: 0 <= i < |eligible| ==>
            r.pass.events[i].ProgressUpdate? && r.pass.events[i].currentContact == i + 1)
      && r.pass.pauses == |eligible| - 1
  {
    var n := |eligible|;
    var os := DeliverAll(ch, c, t, eligible, send, clock);
    AllStored(ch, c, t, eligible, send, clock);
    var r := Dispatch(ch, c, Some(t), eligible, send, clock);
    EventsWithCompletion(c.id, c.progress, os, CampaignCompleted(c.id, r.pass.campaign.progress));
    assert r.pass.events == ProgressEvents(c.id, c.progress, n, os) + [CampaignCompleted(c.id, r.pass.campaign.progress)];
  }

  /** With every message stored, the events are one per contact, at its
      position, then the final one; and there are n - 1 pauses. */
  lemma EventsWithCompletion(id: CampaignId, base: Progress, os: seq<Option<Message>>, last: Event)
    requires |os| > 0 && forall i :: 0 <= i < |os| ==> os[i].Some?
    ensures var es := ProgressEvents(id, base, |os|, os) + [last];
      && |es| == |os| + 1
      && forall i :: 0 <= i < |os| ==> es[i].ProgressUpdate? && es[i].currentContact == i + 1
    ensures Pauses(os, |os|) == |os| - 1
  {
    EventsAndPausesAll(id, base, |os|, os);
  }

  /** A contact whose body renders empty takes the error path: a pass over
      that contact alone stores nothing, sends nothing, emits only the
      completion event, takes no pause and counts the contact as failed. */
  lemma EmptyBodyStoresNothing(ch: Channel, c: Campaign, t: Template, contact: Contact,
                               send: Sender, clock: Clock)
    requires MessageText(t.body, c.variables, contact).None?
    ensures var r := Dispatch(ch, c, Some(t), [contact], send, clock);
      && r.Dispatched?
      && r.pass.messages == []
      && r.pass.events == [CampaignCompleted(c.id, r.pass.campaign.progress)]
      && r.pass.pauses == 0
      && r.pass.campaign.progress == c.progress.(total := 1, failed := c.progress.failed + 1)
  {
    var os := DeliverAll(ch, c, t, [contact], send, clock);
    assert os == [None];
    assert os[..0] == [];
  }

  /** Contacts none of whose messages was stored leave no message, no
      progress event and no pause. */
  lemma {:induction false} NoneStored(id: CampaignId, base: Progress, n: nat, os: seq<Option<Message>>)
    requires forall i :: 0 <= i < |os| ==> os[i].None?
    ensures Recorded(os) == [] && ProgressEvents(id, base, n, os) == [] && Pauses(os, n) == 0
  {
    if |os| > 0 {
      var init := os[..|os| - 1];
      NoneStored(id, base, n, init);
      OutcomeAppend(id, base, n, init, os[|os| - 1]);
      assert init + [os[|os| - 1]] == os;
    }
  }

  /** A campaign whose variables hold a key the server cannot build a
      pattern from still completes, but every contact is counted as failed
      and nothing is stored, sent or paused for. */
  lemma PassWithUnparsableKey(ch: Channel, c: Campaign, t: Template, eligible: seq<Contact>,
                              send: Sender, clock: Clock)
    requires |eligible| > 0 && HasUnparsableKey(c.variables)
    ensures var r := Dispatch(ch, c, Some(t), eligible, send, clock);
      && r.Dispatched?
      && r.pass.campaign.status == Completed
      && r.pass.messages == []
      && r.pass.events == [CampaignCompleted(c.id, r.pass.campaign.progress)]
      && r.pass.pauses == 0
      && r.pass.campaign.progress == c.progress.(total := |eligible|, failed := c.progress.failed + |eligible|)
  {
    var n := |eligible|;
    var os := DeliverAll(ch, c, t, eligible, send, clock);
    forall i | 0 <= i < n ensures os[i].None? {
      DeliverUnparsableKey(ch, c, t, eligible[i], i, send, clock);
    }
    NoneStored(c.id, c.progress, n, os);
    ProgressAfterNoneSent(c.progress, n, os);
  }

  /** Every progress event stays within the counters reached after the
      last contact, and when the last contact's message is stored the last
      event shows exactly those counters. */
  lemma ProgressEventsFinal(id: CampaignId, base: Progress, n: nat, os: seq<Option<Message>>)
    requires |os| > 0
    ensures var es := ProgressEvents(id, base, n, os);
      var final := ProgressAfter(base, n, os);
      forall e :: e in es ==>
        e.ProgressUpdate? && e.progress.sent <= final.sent && e.progress.failed <= final.failed
    ensures var es := ProgressEvents(id, base, n, os);
      os[|os| - 1].Some? ==> |es| > 0 && es[|es| - 1] == ProgressUpdate(id, ProgressAfter(base, n, os), |os|, n)
  {
    var es := ProgressEvents(id, base, n, os);
    ProgressEventsMonotone(id, base, n, os);
    forall e | e in es
      ensures e.ProgressUpdate? && e.progress.sent <= ProgressAfter(base, n, os).sent
      ensures e.progress.failed <= ProgressAfter(base, n, os).failed
    {
      assert EventWithin(e, id, base, n, os);
    }
  }

  /** The dashboard never sees a counter go down during a pass, every
      progress event stays within the counters the campaign completes with,
      and when the last contact's message is stored its event shows them. */
  lemma PassProgressMonotone(ch: Channel, c: Campaign, template: Option<Template>, eligible: seq<Contact>,
                             send: Sender, clock: Clock)
    requires Dispatch(ch, c, template, eligible, send, clock).Dispatched?
    ensures var p := Dispatch(ch, c, template, eligible, send, clock).pass;
      var progressEvents := p.events[..|p.events| - 1];
      && EventsOrdered(progressEvents)
      && (forall e :: e in progressEvents ==>
            && e.ProgressUpdate?
            && e.progress.sent <= p.campaign.progress.sent
            && e.progress.failed <= p.campaign.progress.failed)
      && p.events[|p.events| - 1] == CampaignCompleted(c.id, p.campaign.progress)
      && (Deliver(ch, c, template.value, eligible[|eligible| - 1], |eligible| - 1, send, clock).Some? ==>
            |p.events| >= 2 && p.events[|p.events| - 2] == ProgressUpdate(c.id, p.campaign.progress, |eligible|, |eligible|))
  {
    var n := |eligible|;
    var os := DeliverAll(ch, c, template.value, eligible, send, clock);
    var p := Dispatch(ch, c, template, eligible, send, clock).pass;
    assert CompletedPass(ch, c, template.value, eligible, send, clock, p);
    CompletionShape(c.id, c.progress, n, os, p);
  }

  /** The events of a pass are its progress events, ordered and bounded by
      the final counters, followed by the completion event; the last
      contact's stored message puts its progress event just before it. */
  lemma CompletionShape(id: CampaignId, base: Progress, n: nat, os: seq<Option<Message>>, p: Pass)
    requires |os| == n > 0 && p.campaign.progress == ProgressAfter(base, n, os)
    requires p.events == ProgressEvents(id, base, n, os) + [CampaignCompleted(id, p.campaign.progress)]
    ensures var progressEvents := p.events[..|p.events| - 1];
      && EventsOrdered(progressEvents)
      && (forall e :: e in progressEvents ==>
            && e.ProgressUpdate?
            && e.progress.sent <= p.campaign.progress.sent
            && e.progress.failed <= p.campaign.progress.failed)
      && p.events[|p.events| - 1] == CampaignCompleted(id, p.campaign.progress)
      && (os[n - 1].Some? ==> |p.events| >= 2 && p.events[|p.events| - 2] == ProgressUpdate(id, p.campaign.progress, n, n))
  {
    var es := ProgressEvents(id, base, n, os);
    assert p.events[..|p.events| - 1] == es;
    ProgressEventsMonotone(id, base, n, os);
    ProgressEventsFinal(id, base, n, os);
  }

  /** For a campaign starting from zero counters, each progress event's
      sent and failed counts add up to the position of the contact just
      handled, which never exceeds the total. */
  lemma PassProgressCountsContacts(ch: Channel, c: Campaign, template: Option<Template>, eligible: seq<Contact>,
                                   send: Sender, clock: Clock)
    requires Dispatch(ch, c, template, eligible, send, clock).Dispatched?
    requires c.progress.sent == 0 && c.progress.failed == 0
    ensures var p := Dispatch(ch, c, template, eligible, send, clock).pass;
      forall e :: e in p.events[..|p.events| - 1] ==>
        && e.ProgressUpdate?
        && e.progress.sent + e.progress.failed == e.currentContact
        && e.currentContact <= e.totalContacts == e.progress.total == |eligible|
  {
    var p := Dispatch(ch, c, template, eligible, send, clock).pass;
    var n := |eligible|;
    var os := DeliverAll(ch, c, template.value, eligible, send, clock);
    ProgressEventsMonotone(c.id, c.progress, n, os);
    assert p.events[..|p.events| - 1] == ProgressEvents(c.id, c.progress, n, os);
  }

  /** Every contact whose body renders non-empty has its message, carrying
      that rendering, stored by the pass. */
  lemma PassStoresRendered(ch: Channel, c: Campaign, t: Template, eligible: seq<Contact>,
                           send: Sender, clock: Clock)
    requires |eligible| > 0
    ensures forall i :: 0 <= i < |eligible| && MessageText(t.body, c.variables, eligible[i]).Some? ==>
      && Deliver(ch, c, t, eligible[i], i, send, clock).Some?
      && Deliver(ch, c, t, eligible[i], i, send, clock).value.content == MessageText(t.body, c.variables, eligible[i]).value
      && Deliver(ch, c, t, eligible[i], i, send, clock).value in Dispatch(ch, c, Some(t), eligible, send, clock).pass.messages
  {
    var os := DeliverAll(ch, c, t, eligible, send, clock);
    forall i | 0 <= i < |eligible| && MessageText(t.body, c.variables, eligible[i]).Some?
      ensures os[i].Some? && os[i].value in Recorded(os)
    {
      assert os[i] in os;
    }
    assert Dispatch(ch, c, Some(t), eligible, send, clock).pass.messages == Recorded(os);
  }

  /** The counters after contacts none of which was counted as sent. */
  lemma ProgressAfterNoneSent(base: Progress, n: nat, os: seq<Option<Message>>)
    requires forall i :: 0 <= i < |os| ==> !CountedSent(os[i])
    ensures ProgressAfter(base, n, os) == base.(total := n, failed := base.failed + |os|)
  {
  }

  /** A pass whose every body is non-empty and whose every send succeeds
      counts every contact as sent and none as failed. */
  lemma PassAllSucceed(ch: Channel, c: Campaign, t: Template, eligible: seq<Contact>,
                       send: Sender, clock: Clock)
    requires |eligible| > 0
    requires forall i :: 0 <= i < |eligible| ==>
      && MessageText(t.body, c.variables, eligible[i]).Some?
      && send(eligible[i].phone, MessageText(t.body, c.variables, eligible[i]).value).SendOk?
    ensures var r := Dispatch(ch, c, Some(t), eligible, send, clock);
      && r.Dispatched?
      && r.pass.campaign.status == Completed
      && r.pass.campaign.progress == c.progress.(total := |eligible|, sent := c.progress.sent + |eligible|)
  {
    var os := DeliverAll(ch, c, t, eligible, send, clock);
    AllSent(ch, c, t, eligible, send, clock);
    SentCountAllSent(os);
    assert ProgressAfter(c.progress, |eligible|, os) == c.progress.(total := |eligible|, sent := c.progress.sent + |eligible|);
  }

  /** With every body non-empty and every send accepted, every contact is
      counted as sent. */
  lemma AllSent(ch: Channel, c: Campaign, t: Template, eligible: seq<Contact>,
                send: Sender, clock: Clock)
    requires forall i :: 0 <= i < |eligible| ==>
      && MessageText(t.body, c.variables, eligible[i]).Some?
      && send(eligible[i].phone, MessageText(t.body, c.variables, eligible[i]).value).SendOk?
    ensures var os := DeliverAll(ch, c, t, eligible, send, clock);
      forall i :: 0 <= i < |os| ==> CountedSent(os[i])
  {
    var os := DeliverAll(ch, c, t, eligible, send, clock);
    forall i | 0 <= i < |os| ensures CountedSent(os[i]) {
      var d := Deliver(ch, c, t, eligible[i], i, send, clock);
      assert os[i] == d;
      assert d.Some? && d.value.status == Sent;
    }
  }

  /** Every stored message of outcomes whose sends all failed is failed. */
  lemma RecordedAllFailed(os: seq<Option<Message>>)
    requires forall i :: 0 <= i < |os| ==> os[i].Some? ==> os[i].value.status == MessageFailed
    ensures forall m :: m in Recorded(os) ==> m.status == MessageFailed
  {
    forall m | m in Recorded(os) ensures m.status == MessageFailed {
      var i :| 0 <= i < |os| && os[i] == Some(m);
    }
  }

  /** A pass whose every send fails still completes the campaign, with
      every contact counted as failed, none as sent, and every stored
      message failed with its provider's error; when no body renders empty
      there is one such message per contact. */
  lemma PassAllFail(ch: Channel, c: Campaign, t: Template, eligible: seq<Contact>,
                    send: Sender, clock: Clock)
    requires |eligible| > 0
    requires forall i :: 0 <= i < |eligible| && MessageText(t.body, c.variables, eligible[i]).Some? ==>
      send(eligible[i].phone, MessageText(t.body, c.variables, eligible[i]).value).SendError?
    ensures var r := Dispatch(ch, c, Some(t), eligible, send, clock);
      && r.Dispatched?
      && r.pass.campaign.status == Completed
      && r.pass.campaign.progress == c.progress.(total := |eligible|, failed := c.progress.failed + |eligible|)
      && (forall m :: m in r.pass.messages ==> m.status == MessageFailed)
      && (forall i :: 0 <= i < |eligible| && MessageText(t.body, c.variables, eligible[i]).Some? ==>
            && Deliver(ch, c, t, eligible[i], i, send, clock).Some?
            && Deliver(ch, c, t, eligible[i], i, send, clock).value in r.pass.messages
            && Deliver(ch, c, t, eligible[i], i, send, clock).value.errorMessage
               == Some(send(eligible[i].phone, MessageText(t.body, c.variables, eligible[i]).value).error))
      && ((forall i :: 0 <= i < |eligible| ==> MessageText(t.body, c.variables, eligible[i]).Some?) ==>
            |r.pass.messages| == |eligible|)
  {
    var os := DeliverAll(ch, c, t, eligible, send, clock);
    forall i | 0 <= i < |os| ensures os[i].Some? ==> os[i].value.status == MessageFailed {
      assert os[i] == Deliver(ch, c, t, eligible[i], i, send, clock);
    }
    ProgressAfterNoneSent(c.progress, |eligible|, os);
    RecordedAllFailed(os);
    PassStoresRendered(ch, c, t, eligible, send, clock);
    if forall i :: 0 <= i < |eligible| ==> MessageText(t.body, c.variables, eligible[i]).Some? {
      PassOneMessagePerContact(ch, c, t, eligible, send, clock);
    }
    var r := Dispatch(ch, c, Some(t), eligible, send, clock);
    assert r.pass.messages == Recorded(os);
    assert r.pass.campaign.progress == ProgressAfter(c.progress, |eligible|, os);
  }

  /** When every send fails with the same error, every stored message is
      failed with that error. */
  lemma PassFailsWith(ch: Channel, c: Campaign, t: Template, eligible: seq<Contact>,
                      send: Sender, clock: Clock, error: string)
    requires forall i :: 0 <= i < |eligible| && MessageText(t.body, c.variables, eligible[i]).Some? ==>
      send(eligible[i].phone, MessageText(t.body, c.variables, eligible[i]).value) == SendError(error)
    ensures forall m :: m in Recorded(DeliverAll(ch, c, t, eligible, send, clock)) ==>
      m.status == MessageFailed && m.errorMessage == Some(error)
  {
    var os := DeliverAll(ch, c, t, eligible, send, clock);
    forall m | m in Recorded(os) ensures m.status == MessageFailed && m.errorMessage == Some(error) {
      var i :| 0 <= i < |os| && os[i] == Some(m);
    }
  }

  /** Twilio sends never record a provider id in the message, so no status
      receipt can ever be matched to them; WhatsApp sends record exactly the
      id the provider returned. */
  lemma PassProviderIds(ch: Channel, c: Campaign, template: Option<Template>, eligible: seq<Contact>,
                        send: Sender, clock: Clock)
    requires Dispatch(ch, c, template, eligible, send, clock).Dispatched?
    ensures var ms := Dispatch(ch, c, template, eligible, send, clock).pass.messages;
      && (ch == TwilioChannel ==> forall m :: m in ms ==> m.whatsappMessageId == None)
      && (ch == WhatsAppChannel ==> forall m :: m in ms ==> (m.whatsappMessageId.Some? <==> m.status == Sent))
  {
    var os := DeliverAll(ch, c, template.value, eligible, send, clock);
    forall m | m in Recorded(os)
      ensures m.whatsappMessageId.Some? <==> ch == WhatsAppChannel && m.status == Sent
    {
      var i :| 0 <= i < |os| && os[i] == Some(m);
    }
  }

  /** Pacing: a WhatsApp pass over three contacts at the default rate waits
      two seconds in all (two one-second pauses), and a Twilio pass at its
      default rate waits twelve. */
  lemma PacingExample(c: Campaign, p: Pass)
    requires c.rateLimitPerMinute == 0 && p.pauses == 2
    ensures Waited(WhatsAppChannel, c, p) == 2000.0
    ensures Waited(TwilioChannel, c, p) == 12000.0
  {
  }
}

=== FILE: domain.dfy ===
/** The persisted records the delivery engine reads and writes: campaigns with
    their status and progress counters, per-recipient messages, contacts and
    templates, and the events pushed to connected dashboards. Documents are
    immutable values here; a store is a map or a sequence of them. */
module Domain {
  import opened Wrappers
  import opened TemplateText

  /** Milliseconds since the epoch. */
  type Time = int
  type CampaignId = nat
  type ContactId = nat
  type TemplateId = nat
  type JobId = nat

  datatype CampaignStatus = Scheduled | Sending | Completed | Paused | Cancelled | Failed

  /** The campaign's `provider` field; the schema default is `Auto`. */
  datatype ProviderChoice = WhatsAppProvider | TwilioProvider | AutoProvider

  /** The five progress counters of a campaign, each defaulting to 0. */
  datatype Progress = Progress(total: nat, sent: nat, delivered: nat, read: nat, failed: nat)

  const ZeroProgress: Progress := Progress(0, 0, 0, 0, 0)

  /** Schema default of `rateLimitPerMinute`. */
  const DefaultRateLimit: nat := 60

  datatype Campaign = Campaign(
    id: CampaignId,
    name: string,
    templateId: TemplateId,
    contacts: seq<ContactId>,
    variables: Bindings,
    scheduledAt: Time,
    status: CampaignStatus,
    progress: Progress,
    rateLimitPerMinute: nat,
    provider: ProviderChoice,
    jobId: Option<JobId>)

  /** A campaign as the schema defaults it: scheduled, zero progress, the
      default rate, automatic provider selection and no queue job. */
  function NewCampaign(id: CampaignId, name: string, templateId: TemplateId, contacts: seq<ContactId>,
                       variables: Bindings, scheduledAt: Time): (c: Campaign)
    ensures c.status == Scheduled && c.progress == ZeroProgress
    ensures c.rateLimitPerMinute == 60 && c.provider == AutoProvider && c.jobId == None
    ensures c.id == id && c.contacts == contacts && c.scheduledAt == scheduledAt
  {
    Campaign(id, name, templateId, contacts, variables, scheduledAt, Scheduled, ZeroProgress,
             DefaultRateLimit, AutoProvider, None)
  }

  /** One field of a document written back by `save()`: the handler's value
      when it changed that field since loading the document, otherwise
      whatever the store holds now. */
  function SavedField<T(==)>(stored: T, loaded: T, edited: T): T {
    if edited != loaded then edited else stored
  }

  /** What `save()` of a campaign loaded earlier leaves in the store. Only
      the fields the handler changed on its copy are written, so a field
      another copy wrote in the meantime survives unless this copy changed
      it too. */
  function SaveChanged(stored: Campaign, loaded: Campaign, edited: Campaign): (r: Campaign)
    ensures stored == loaded ==> r == edited
    ensures edited == loaded ==> r == stored
    ensures r.status == (if edited.status != loaded.status then edited.status else stored.status)
    ensures r.jobId == (if edited.jobId != loaded.jobId then edited.jobId else stored.jobId)
  {
    Campaign(
      SavedField(stored.id, loaded.id, edited.id),
      SavedField(stored.name, loaded.name, edited.name),
      SavedField(stored.templateId, loaded.templateId, edited.templateId),
      SavedField(stored.contacts, loaded.contacts, edited.contacts),
      SavedField(stored.variables, loaded.variables, edited.variables),
      SavedField(stored.scheduledAt, loaded.scheduledAt, edited.scheduledAt),
      SavedField(stored.status, loaded.status, edited.status),
      SavedField(stored.progress, loaded.progress, edited.progress),
      SavedField(stored.rateLimitPerMinute, loaded.rateLimitPerMinute, edited.rateLimitPerMinute),
      SavedField(stored.provider, loaded.provider, edited.provider),
      SavedField(stored.jobId, loaded.jobId, edited.jobId))
  }

  /** A queue job id names at most one campaign (unique sparse index). */
  predicate JobIdsUnique(campaigns: map<CampaignId, Campaign>) {
    forall a, b :: a in campaigns && b in campaigns && a != b && campaigns[a].jobId.Some? ==>
      campaigns[a].jobId != campaigns[b].jobId
  }

  datatype MessageStatus = Pending | Sent | Delivered | Read | MessageFailed

  /** Schema default of `maxRetries`. */
  const DefaultMaxRetries: nat := 3

  datatype Message = Message(
    campaignId: CampaignId,
    contactId: ContactId,
    templateId: TemplateId,
    content: string,
    status: MessageStatus,
    whatsappMessageId: Option<string>,
    sentAt: Option<Time>,
    deliveredAt: Option<Time>,
    readAt: Option<Time>,
    errorMessage: Option<string>,
    retryCount: nat,
    maxRetries: nat)

  /** A freshly created message: pending, no provider id, no timestamps,
      retry count 0 of at most 3. */
  function NewMessage(campaignId: CampaignId, contactId: ContactId, templateId: TemplateId,
                      content: string): (m: Message)
    ensures m.status == Pending && m.whatsappMessageId == None
    ensures m.sentAt == None && m.deliveredAt == None && m.readAt == None
    ensures m.retryCount == 0 && m.maxRetries == 3
    ensures m.campaignId == campaignId && m.contactId == contactId && m.content == content
  {
    Message(campaignId, contactId, templateId, content, Pending, None, None, None, None, None,
            0, DefaultMaxRetries)
  }

  /** A provider message id names at most one message (unique sparse index). */
  predicate ProviderIdsUnique(messages: seq<Message>) {
    forall i, j :: 0 <= i < |messages| && 0 <= j < |messages| && i != j && messages[i].whatsappMessageId.Some? ==>
      messages[i].whatsappMessageId != messages[j].whatsappMessageId
  }

  datatype ContactStatus = Active | Inactive | Blocked

  datatype Contact = Contact(
    id: ContactId,
    name: string,
    phone: string,
    email: Option<string>,
    tags: seq<string>,
    status: ContactStatus,
    metadata: Bindings,
    optedOut: bool)

  datatype Template = Template(id: TemplateId, body: string)

  /** The contacts a campaign may message: those it lists that are active
      and not opted out, in the store's order. */
  function Eligible(store: seq<Contact>, ids: seq<ContactId>): (r: seq<Contact>)
    ensures |r| <= |store|
    ensures forall c :: c in r <==> c in store && c.id in ids && c.status == Active && !c.optedOut
  {
    if |store| == 0 then []
    else
      var c := store[0];
      var rest := Eligible(store[1..], ids);
      assert forall x :: x in store <==> x == c || x in store[1..];
      if c.id in ids && c.status == Active && !c.optedOut then [c] + rest else rest
  }

  datatype JobError = CampaignNotFound | NoProviderCredentials | TemplateNotFound | NoActiveContacts

  /** Events pushed to connected dashboards. */
  datatype Event =
    | StatusUpdate(campaignId: CampaignId, status: CampaignStatus, snapshot: Option<Progress>, error: Option<JobError>)
    | ProgressUpdate(campaignId: CampaignId, progress: Progress, currentContact: nat, totalContacts: nat)
    | CampaignCompleted(campaignId: CampaignId, progress: Progress)
}

=== FILE: forgot_password.dfy ===
/** The forgot-password page: the email format check and the checks run
    before a reset link is requested. */
module ForgotPassword {
  import opened Wrappers
  import opened Text

  /** The class `[^\s@]`. */
  predicate Plain(c: char) {
    !IsSpace(c) && c != '@'
  }

  predicate AllPlain(s: string) {
    forall i :: 0 <= i < |s| ==> Plain(s[i])
  }

  /** Every character but the one at `a` is plain. */
  predicate PlainExcept(s: string, a: int) {
    forall i :: 0 <= i < |s| && i != a ==> Plain(s[i])
  }

  /** The strings `/^[^\s@]+@[^\s@]+\.[^\s@]+$/` accepts, read off the
      pattern: a plain run, `@`, a plain run, a dot and a plain run. The dot
      is plain itself, so besides the one `@` everything is plain, and the
      dot sits strictly inside the part after the `@`. */
  predicate EmailPattern(s: string) {
    exists a, d :: 0 < a && a + 1 < d < |s| - 1 && s[a] == '@' && s[d] == '.' && PlainExcept(s, a)
  }

  /** The position of the first `c` in `s`. */
  function IndexOf(s: string, c: char): (r: Option<nat>)
    ensures r.None? <==> c !in s
    ensures r.Some? ==> r.value < |s| && s[r.value] == c && c !in s[..r.value]
  {
    if |s| == 0 then None
    else if s[0] == c then Some(0)
    else
      match IndexOf(s[1..], c)
      case None => None
      case Some(i) =>
        assert s[..i + 1] == [s[0]] + s[1..][..i];
        Some(i + 1)
  }

  /** A dot that is neither the first nor the last character. */
  predicate DotInside(d: string) {
    |d| >= 3 && '.' in d[1..|d| - 1]
  }

  /** `validateEmail`, computed by cutting at the first `@`: a non-empty
      plain part before it, and after it a plain part with a dot inside. */
  function ValidateEmail(s: string): (r: bool)
    ensures r ==> HasNoSpace(s)
    ensures r ==> exists a :: 0 < a < |s| && s[a] == '@' && forall i :: 0 <= i < |s| && i != a ==> s[i] != '@'
    ensures r ==> s[0] != '@'
  {
    match IndexOf(s, '@')
    case None => false
    case Some(a) =>
      var local, domain := s[..a], s[a + 1..];
      var ok := local != "" && AllPlain(local) && AllPlain(domain) && DotInside(domain);
      assert ok ==> forall i :: 0 <= i < |s| && i != a ==> (if i < a then s[i] == local[i] else s[i] == domain[i - a - 1]);
      ok
  }

  /** An accepted email has the pattern's shape. */
  lemma ValidateEmailMatches(s: string)
    requires ValidateEmail(s)
    ensures EmailPattern(s)
  {
    var a := IndexOf(s, '@').value;
    var domain := s[a + 1..];
    var j :| 1 <= j < |domain| - 1 && domain[j] == '.';
    assert s[a + 1 + j] == '.';
    assert forall i :: 0 <= i < |s| && i != a ==> (if i < a then s[i] == s[..a][i] else s[i] == domain[i - a - 1]);
    assert PlainExcept(s, a);
  }

  /** The only `@` of a string is its first. */
  lemma OnlyAtIsFirst(s: string, a: nat)
    requires a < |s| && s[a] == '@' && PlainExcept(s, a)
    ensures IndexOf(s, '@') == Some(a)
  {
    assert s[..a + 1][a] == '@';
  }

  /** A string of the pattern's shape is accepted. */
  lemma PatternValidates(s: string)
    requires EmailPattern(s)
    ensures ValidateEmail(s)
  {
    var a, d :| 0 < a && a + 1 < d < |s| - 1 && s[a] == '@' && s[d] == '.' && PlainExcept(s, a);
    OnlyAtIsFirst(s, a);
    var domain := s[a + 1..];
    assert domain[1..|domain| - 1][d - a - 2] == '.';
    assert AllPlain(s[..a]) by {
      forall i | 0 <= i < a ensures Plain(s[..a][i]) {
        assert s[..a][i] == s[i];
      }
    }
    assert AllPlain(domain) by {
      forall i | 0 <= i < |domain| ensures Plain(domain[i]) {
        assert domain[i] == s[a + 1 + i];
      }
    }
  }

  /** The cut at the first `@` accepts exactly what the pattern accepts. */
  lemma ValidateEmailIsPattern(s: string)
    ensures ValidateEmail(s) <==> EmailPattern(s)
  {
    if ValidateEmail(s) {
      ValidateEmailMatches(s);
    }
    if EmailPattern(s) {
      PatternValidates(s);
    }
  }

  const EnterEmail: string := "Please enter your email address"
  const EnterValidEmail: string := "Please enter a valid email address"

  /** What `handleSubmit` does: refuse with one message, or request a reset
      link for the email as typed. */
  datatype ForgotStep = Refuse(message: string) | RequestLink(email: string)

  /** `handleSubmit`: a blank field first, then the format; only an email
      passing both is sent. */
  function SubmitForgot(email: string): (r: ForgotStep)
    ensures Trim(email) == "" ==> r == Refuse(EnterEmail)
    ensures Trim(email) != "" && !ValidateEmail(email) ==> r == Refuse(EnterValidEmail)
    ensures r.RequestLink? ==> r.email == email && ValidateEmail(email)
  {
    if Trim(email) == "" then Refuse(EnterEmail)
    else if !ValidateEmail(email) then Refuse(EnterValidEmail)
    else RequestLink(email)
  }

  /** The blank check only chooses the message: the format check alone
      decides whether a link is requested, since no valid email is blank. */
  lemma RequestIffValid(email: string)
    ensures SubmitForgot(email).RequestLink? <==> ValidateEmail(email)
  {
    if ValidateEmail(email) {
      TrimEmptyIffAllSpace(email);
      assert !IsSpace(email[0]);
    }
  }
}

=== FILE: ingestion.dfy ===
/** Delivery-receipt ingestion (`handleWhatsAppWebhook` and
    `updateMessageStatus`): each status receipt names a provider message id;
    the matching message takes the new status, records the first delivery
    and read times, and its campaign moves one unit from the old status's
    counter to the new one. */
module Ingestion {
  import opened Wrappers
  import opened Domain
  import opened Scheduler

  /** The receipt statuses that have a progress counter. */
  datatype ReceiptStatus = ReceiptSent | ReceiptDelivered | ReceiptRead | ReceiptFailed

  function AsMessageStatus(s: ReceiptStatus): (r: MessageStatus)
    ensures r != Pending
  {
    match s
    case ReceiptSent => Sent
    case ReceiptDelivered => Delivered
    case ReceiptRead => Read
    case ReceiptFailed => MessageFailed
  }

  /** One receipt; the timestamp is in seconds. */
  datatype Receipt = Receipt(id: string, status: ReceiptStatus, timestamp: int)

  /** The first message carrying provider id `id`, if any. */
  function FindByProviderId(ms: seq<Message>, id: string): (r: Option<nat>)
    ensures r.Some? ==> r.value < |ms| && ms[r.value].whatsappMessageId == Some(id)
    ensures r.Some? ==> forall j :: 0 <= j < r.value ==> ms[j].whatsappMessageId != Some(id)
    ensures r.None? ==> forall j :: 0 <= j < |ms| ==> ms[j].whatsappMessageId != Some(id)
  {
    if |ms| == 0 then None
    else if ms[0].whatsappMessageId == Some(id) then Some(0)
    else
      match FindByProviderId(ms[1..], id)
      case None => None
      case Some(k) => Some(k + 1)
  }

  /** The counter kept for a message status; `pending` has none, so reading
      it gives nothing to decrement. */
  function Counter(p: Progress, s: MessageStatus): nat {
    match s
    case Pending => 0
    case Sent => p.sent
    case Delivered => p.delivered
    case Read => p.read
    case MessageFailed => p.failed
  }

  function SetCounter(p: Progress, s: MessageStatus, v: nat): Progress {
    match s
    case Pending => p
    case Sent => p.(sent := v)
    case Delivered => p.(delivered := v)
    case Read => p.(read := v)
    case MessageFailed => p.(failed := v)
  }

  /** Move one unit from the previous status's counter (never below 0) to
      the next status's counter; nothing moves when the status is unchanged. */
  function Transfer(p: Progress, prev: MessageStatus, next: MessageStatus): (r: Progress)
    requires next != Pending
    ensures prev == next ==> r == p
    ensures prev != next ==> Counter(r, next) == Counter(p, next) + 1
    ensures prev != next && prev != Pending ==>
      Counter(r, prev) == (if Counter(p, prev) > 0 then Counter(p, prev) - 1 else 0)
    ensures forall s :: s != prev && s != next ==> Counter(r, s) == Counter(p, s)
    ensures r.total == p.total
  {
    if prev == next then p
    else
      var dec := if Counter(p, prev) > 0 then SetCounter(p, prev, Counter(p, prev) - 1) else p;
      SetCounter(dec, next, Counter(dec, next) + 1)
  }

  /** The four counted statuses added up. */
  function Counted(p: Progress): nat {
    p.sent + p.delivered + p.read + p.failed
  }

  /** A transfer out of a counter that holds the message keeps the number
      of counted messages; a transfer out of an empty or uncounted status
      adds one. */
  lemma TransferConserves(p: Progress, prev: MessageStatus, next: MessageStatus)
    requires next != Pending && prev != next
    ensures Counter(p, prev) > 0 && prev != Pending ==> Counted(Transfer(p, prev, next)) == Counted(p)
    ensures Counter(p, prev) == 0 ==> Counted(Transfer(p, prev, next)) == Counted(p) + 1
  {
    var r := Transfer(p, prev, next);
    assert Counted(r) == Counter(r, Sent) + Counter(r, Delivered) + Counter(r, Read) + Counter(r, MessageFailed);
    assert Counted(p) == Counter(p, Sent) + Counter(p, Delivered) + Counter(p, Read) + Counter(p, MessageFailed);
  }

  /** The message after a receipt: the new status, and a delivery or read time
      (seconds scaled to milliseconds) only if none is recorded yet. */
  function Stamp(m: Message, rc: Receipt): (m': Message)
    ensures m'.status == AsMessageStatus(rc.status)
    ensures m'.deliveredAt == if m'.status == Delivered && m.deliveredAt.None? then Some(rc.timestamp * 1000) else m.deliveredAt
    ensures m'.readAt == if m'.status == Read && m.readAt.None? then Some(rc.timestamp * 1000) else m.readAt
    ensures m' == m.(status := m'.status, deliveredAt := m'.deliveredAt, readAt := m'.readAt)
  {
    var status := AsMessageStatus(rc.status);
    if status == Delivered && m.deliveredAt.None? then m.(status := status, deliveredAt := Some(rc.timestamp * 1000))
    else if status == Read && m.readAt.None? then m.(status := status, readAt := Some(rc.timestamp * 1000))
    else m.(status := status)
  }

  /** `updateMessageStatus` for one receipt. */
  function ApplyReceipt(w: World, rc: Receipt): (r: World)
    ensures |r.messages| == |w.messages| && r.queue == w.queue && r.nextJobId == w.nextJobId && r.events == w.events
    ensures r.campaigns.Keys == w.campaigns.Keys
    ensures FindByProviderId(w.messages, rc.id).None? ==> r == w
    ensures var i := FindByProviderId(w.messages, rc.id);
      i.Some? && w.messages[i.value].campaignId !in w.campaigns ==> r == w
    ensures var i := FindByProviderId(w.messages, rc.id);
      i.Some? && w.messages[i.value].campaignId in w.campaigns ==>
        var m := w.messages[i.value];
        var c := w.campaigns[m.campaignId];
        && r.messages == w.messages[i.value := Stamp(m, rc)]
        && r.campaigns == w.campaigns[m.campaignId := c.(progress := Transfer(c.progress, m.status, AsMessageStatus(rc.status)))]
    ensures Valid(w) ==> Valid(r)
  {
    match FindByProviderId(w.messages, rc.id)
    case None => w
    case Some(i) =>
      var m := w.messages[i];
      if m.campaignId !in w.campaigns then w
      else
        var c := w.campaigns[m.campaignId];
        var next := AsMessageStatus(rc.status);
        var campaigns := if m.status != next then w.campaigns[m.campaignId := c.(progress := Transfer(c.progress, m.status, next))]
                         else w.campaigns;
        var r := w.(messages := w.messages[i := Stamp(m, rc)], campaigns := campaigns);
        ProgressKeepsValid(w, m.campaignId, Transfer(c.progress, m.status, next), r);
        r
  }

  /** Changing only a campaign's counters keeps the store invariants. */
  lemma ProgressKeepsValid(w: World, id: CampaignId, p: Progress, r: World)
    requires id in w.campaigns && r.queue == w.queue && r.nextJobId == w.nextJobId
    requires r.campaigns == w.campaigns[id := w.campaigns[id].(progress := p)] || r.campaigns == w.campaigns
    ensures Valid(w) ==> Valid(r)
  {
    if Valid(w) && r.campaigns != w.campaigns {
      ReplaceKeepsValid(w, w.campaigns[id].(progress := p), r);
    }
  }

  /** Only the matched message changes, and never in its content, its
      provider id or its retry bookkeeping. */
  lemma ApplyReceiptFrame(w: World, rc: Receipt, j: nat)
    requires j < |w.messages|
    ensures var m := w.messages[j];
      var m' := ApplyReceipt(w, rc).messages[j];
      && m'.content == m.content && m'.whatsappMessageId == m.whatsappMessageId
      && m'.retryCount == m.retryCount && m'.maxRetries == m.maxRetries && m'.sentAt == m.sentAt
      && (m.whatsappMessageId != Some(rc.id) ==> m' == m)
  {
  }

  /** Messages without a provider id, such as every Twilio send, are never
      touched by a receipt. */
  lemma ReceiptsSkipMessagesWithoutId(w: World, rc: Receipt, j: nat)
    requires j < |w.messages| && w.messages[j].whatsappMessageId.None?
    ensures ApplyReceipt(w, rc).messages[j] == w.messages[j]
  {
    ApplyReceiptFrame(w, rc, j);
  }

  /** Applying the same receipt twice is applying it once. */
  lemma ApplyReceiptIdempotent(w: World, rc: Receipt)
    ensures ApplyReceipt(ApplyReceipt(w, rc), rc) == ApplyReceipt(w, rc)
  {
    var w1 := ApplyReceipt(w, rc);
    var i := FindByProviderId(w.messages, rc.id);
    if i.Some? && w.messages[i.value].campaignId in w.campaigns {
      var k := i.value;
      var m := w.messages[k];
      var m1 := Stamp(m, rc);
      assert w1.messages[k] == m1;
      forall j | 0 <= j < |w.messages|
        ensures w1.messages[j].whatsappMessageId == w.messages[j].whatsappMessageId
      {
      }
      FindSameIds(w.messages, w1.messages, rc.id);
      assert Stamp(m1, rc) == m1;
      assert w1.messages[k := m1] == w1.messages;
    }
  }

  /** Lookup by provider id depends on the provider ids alone. */
  lemma {:induction false} FindSameIds(a: seq<Message>, b: seq<Message>, id: string)
    requires |a| == |b|
    requires forall j :: 0 <= j < |a| ==> a[j].whatsappMessageId == b[j].whatsappMessageId
    ensures FindByProviderId(a, id) == FindByProviderId(b, id)
  {
    if |a| > 0 {
      FindSameIds(a[1..], b[1..], id);
    }
  }

  /** Receipts are not forced forward: a read message that later receives
      a delivered receipt goes back to delivered, keeps its read time, and
      the campaign moves a unit from read back to delivered. */
  lemma ReadThenDeliveredGoesBack(w: World, rc: Receipt)
    requires rc.status == ReceiptDelivered
    requires var i := FindByProviderId(w.messages, rc.id);
      i.Some? && w.messages[i.value].campaignId in w.campaigns && w.messages[i.value].status == Read
    ensures var i := FindByProviderId(w.messages, rc.id).value;
      var m := w.messages[i];
      var p := w.campaigns[m.campaignId].progress;
      var r := ApplyReceipt(w, rc);
      && r.messages[i].status == Delivered
      && r.messages[i].readAt == m.readAt
      && r.campaigns[m.campaignId].progress.delivered == p.delivered + 1
      && r.campaigns[m.campaignId].progress.read == (if p.read > 0 then p.read - 1 else 0)
  {
    var i := FindByProviderId(w.messages, rc.id).value;
    var m := w.messages[i];
    assert Counter(Transfer(w.campaigns[m.campaignId].progress, Read, Delivered), Delivered)
      == w.campaigns[m.campaignId].progress.delivered + 1;
  }

  /** The receipts applied one after the other, in order. */
  function ApplyAll(w: World, rcs: seq<Receipt>): (r: World)
    ensures |r.messages| == |w.messages| && r.queue == w.queue && r.events == w.events
    ensures Valid(w) ==> Valid(r)
    decreases |rcs|
  {
    if |rcs| == 0 then w else ApplyAll(ApplyReceipt(w, rcs[0]), rcs[1..])
  }

  lemma {:induction false} ApplyAllAppend(w: World, a: seq<Receipt>, b: seq<Receipt>)
    ensures ApplyAll(w, a + b) == ApplyAll(ApplyAll(w, a), b)
    decreases |a|
  {
    if |a| == 0 {
      assert a + b == b;
    } else {
      assert (a + b)[0] == a[0];
      assert (a + b)[1..] == a[1..] + b;
      ApplyAllAppend(ApplyReceipt(w, a[0]), a[1..], b);
    }
  }

  /** A change notification; `statuses` may be absent. */
  datatype Change = Change(field: string, statuses: Option<seq<Receipt>>)

  datatype Entry = Entry(changes: seq<Change>)

  /** The receipts a webhook payload carries, in payload order: only those
      inside changes of the `messages` field. */
  function Receipts(entries: seq<Entry>): seq<Receipt> {
    if |entries| == 0 then [] else ChangeReceipts(entries[0].changes) + Receipts(entries[1..])
  }

  function ChangeReceipts(changes: seq<Change>): seq<Receipt> {
    if |changes| == 0 then []
    else
      var here := if changes[0].field == "messages" && changes[0].statuses.Some? then changes[0].statuses.value else [];
      here + ChangeReceipts(changes[1..])
  }

  /** The handler's nested loops: entries, then changes, then statuses. */
  function HandleChanges(w: World, changes: seq<Change>): World
    decreases |changes|
  {
    if |changes| == 0 then w
    else
      var c := changes[0];
      var w1 := if c.field == "messages" && c.statuses.Some? then ApplyAll(w, c.statuses.value) else w;
      HandleChanges(w1, changes[1..])
  }

  function HandleWebhook(w: World, entries: seq<Entry>): World
    decreases |entries|
  {
    if |entries| == 0 then w else HandleWebhook(HandleChanges(w, entries[0].changes), entries[1..])
  }

  lemma {:induction false} HandleChangesApplies(w: World, changes: seq<Change>)
    ensures HandleChanges(w, changes) == ApplyAll(w, ChangeReceipts(changes))
    decreases |changes|
  {
    if |changes| > 0 {
      var c := changes[0];
      var here := if c.field == "messages" && c.statuses.Some? then c.statuses.value else [];
      var w1 := if c.field == "messages" && c.statuses.Some? then ApplyAll(w, c.statuses.value) else w;
      assert w1 == ApplyAll(w, here);
      HandleChangesApplies(w1, changes[1..]);
      ApplyAllAppend(w, here, ChangeReceipts(changes[1..]));
    }
  }

  /** The webhook handler applies exactly the receipts of `messages`
      changes, in payload order, and nothing else. */
  lemma {:induction false} HandleWebhookApplies(w: World, entries: seq<Entry>)
    ensures HandleWebhook(w, entries) == ApplyAll(w, Receipts(entries))
    decreases |entries|
  {
    if |entries| > 0 {
      HandleChangesApplies(w, entries[0].changes);
      HandleWebhookApplies(HandleChanges(w, entries[0].changes), entries[1..]);
      ApplyAllAppend(w, ChangeReceipts(entries[0].changes), Receipts(entries[1..]));
    }
  }

  /** A payload delivered twice in a row has the effect of one copy when it
      carries a single receipt. */
  lemma RepeatedReceiptIsNoop(w: World, rc: Receipt)
    ensures ApplyAll(w, [rc, rc]) == ApplyAll(w, [rc])
  {
    assert [rc, rc] == [rc] + [rc];
    ApplyAllAppend(w, [rc], [rc]);
    assert [rc][1..] == [];
    ApplyReceiptIdempotent(w, rc);
  }
}

=== FILE: lists.dfy ===
/** The array operations the client forms use on their small lists:
    `filter` by value and by index, membership, and `Array.from(new Set(xs))`,
    which keeps the first occurrence of each element in order. */
module Lists {

  predicate Distinct<T(==,!new)>(xs: seq<T>) {
    forall i, j :: 0 <= i < j < |xs| ==> xs[i] != xs[j]
  }

  /** `xs.filter(y => y !== x)`. */
  function Without<T(==,!new)>(xs: seq<T>, x: T): (r: seq<T>)
    ensures x !in r
    ensures forall y :: y in r <==> y in xs && y != x
    ensures |r| <= |xs|
  {
    if |xs| == 0 then []
    else if xs[0] == x then Without(xs[1..], x)
    else [xs[0]] + Without(xs[1..], x)
  }

  lemma {:induction false} WithoutAppend<T(!new)>(xs: seq<T>, ys: seq<T>, x: T)
    ensures Without(xs + ys, x) == Without(xs, x) + Without(ys, x)
  {
    if |xs| == 0 {
      assert xs + ys == ys;
    } else {
      assert (xs + ys)[1..] == xs[1..] + ys;
      WithoutAppend(xs[1..], ys, x);
    }
  }

  /** Filtering out a value that is not there keeps the list as it is. */
  lemma {:induction false} WithoutAbsent<T(!new)>(xs: seq<T>, x: T)
    requires x !in xs
    ensures Without(xs, x) == xs
  {
    if |xs| > 0 {
      assert xs[0] != x;
      WithoutAbsent(xs[1..], x);
      assert xs == [xs[0]] + xs[1..];
    }
  }

  /** Appending a fresh value and filtering it out again is a round trip. */
  lemma WithoutAppended<T(!new)>(xs: seq<T>, x: T)
    requires x !in xs
    ensures Without(xs + [x], x) == xs
  {
    WithoutAppend(xs, [x], x);
    WithoutAbsent(xs, x);
    assert Without([x], x) == [];
  }

  /** In a list without duplicates, an element occurs neither before nor
      after its own position. */
  lemma DistinctSplit<T(!new)>(xs: seq<T>, i: nat)
    requires Distinct(xs) && i < |xs|
    ensures xs == xs[..i] + ([xs[i]] + xs[i + 1..])
    ensures xs[i] !in xs[..i] && xs[i] !in xs[i + 1..]
  {
    assert xs == xs[..i] + ([xs[i]] + xs[i + 1..]);
    forall j | 0 <= j < i ensures xs[..i][j] != xs[i] {
      assert xs[..i][j] == xs[j];
    }
    var after := xs[i + 1..];
    forall j | 0 <= j < |after| ensures after[j] != xs[i] {
      assert after[j] == xs[i + 1 + j];
    }
  }

  /** Filtering out the one copy of `x` closes the gap it leaves. */
  lemma WithoutOnly<T(!new)>(before: seq<T>, after: seq<T>, x: T)
    requires x !in before && x !in after
    ensures Without(before + ([x] + after), x) == before + after
  {
    WithoutAppend(before, [x] + after, x);
    WithoutAppend([x], after, x);
    WithoutAbsent(before, x);
    WithoutAbsent(after, x);
    assert Without([x], x) == [];
  }

  /** Filtering keeps the order of what it keeps, so no duplicates appear. */
  lemma {:induction false} WithoutDistinct<T(!new)>(xs: seq<T>, x: T)
    requires Distinct(xs)
    ensures Distinct(Without(xs, x))
  {
    if |xs| > 0 {
      assert Distinct(xs[1..]) by {
        forall i, j | 0 <= i < j < |xs[1..]| ensures xs[1..][i] != xs[1..][j] {
          assert xs[1..][i] == xs[i + 1] && xs[1..][j] == xs[j + 1];
        }
      }
      WithoutDistinct(xs[1..], x);
      var rest := Without(xs[1..], x);
      if xs[0] != x {
        assert xs[0] !in xs[1..] by {
          forall j | 0 <= j < |xs[1..]| ensures xs[1..][j] != xs[0] {
            assert xs[1..][j] == xs[j + 1];
          }
        }
        assert xs[0] !in rest;
        var r := [xs[0]] + rest;
        forall i, j | 0 <= i < j < |r| ensures r[i] != r[j] {
          if i == 0 {
            assert r[j] == rest[j - 1] && r[j] in rest;
          } else {
            assert r[i] == rest[i - 1] && r[j] == rest[j - 1];
          }
        }
      }
    }
  }

  lemma AppendDistinct<T(!new)>(xs: seq<T>, x: T)
    requires Distinct(xs) && x !in xs
    ensures Distinct(xs + [x])
  {
    var r := xs + [x];
    forall i, j | 0 <= i < j < |r| ensures r[i] != r[j] {
      if j == |xs| {
        assert r[i] == xs[i] && r[i] in xs;
      } else {
        assert r[i] == xs[i] && r[j] == xs[j];
      }
    }
  }

  /** The list back to front, as a newest-first listing shows a store kept
      in insertion order. */
  function Reverse<T>(xs: seq<T>): (r: seq<T>)
    ensures |r| == |xs|
    ensures forall i :: 0 <= i < |xs| ==> r[i] == xs[|xs| - 1 - i]
  {
    if |xs| == 0 then [] else [xs[|xs| - 1]] + Reverse(xs[..|xs| - 1])
  }

  /** `xs.filter((_, j) => j !== i)`, walking the list as `filter` does. */
  function RemoveAt<T>(xs: seq<T>, i: int): (r: seq<T>)
    ensures 0 <= i < |xs| ==> r == xs[..i] + xs[i + 1..]
    ensures !(0 <= i < |xs|) ==> r == xs
  {
    if |xs| == 0 then []
    else
      var rest := RemoveAt(xs[1..], i - 1);
      if i == 0 then rest
      else
        assert 0 < i < |xs| ==> xs[..i] == [xs[0]] + xs[1..][..i - 1] && xs[i + 1..] == xs[1..][i..];
        [xs[0]] + rest
  }

  /** Removing the entry just appended is a round trip. */
  lemma RemoveLast<T(!new)>(xs: seq<T>, x: T)
    ensures RemoveAt(xs + [x], |xs|) == xs
  {
    assert (xs + [x])[..|xs|] == xs;
  }

  /** `Array.from(new Set(xs))`: each element once, at the place of its first
      occurrence. */
  function Dedup<T(==,!new)>(xs: seq<T>): (r: seq<T>)
    ensures Distinct(r)
    ensures forall y :: y in r <==> y in xs
  {
    if |xs| == 0 then []
    else
      var d := Dedup(xs[..|xs| - 1]);
      var last := xs[|xs| - 1];
      assert xs == xs[..|xs| - 1] + [last];
      if last in d then d
      else AppendDistinct(d, last); d + [last]
  }

  /** Deduplication drops exactly the repeated elements: what it makes of
      `xs + [x]` is what it makes of `xs`, plus `x` when `x` is new. */
  lemma DedupSnoc<T(!new)>(xs: seq<T>, x: T)
    ensures Dedup(xs + [x]) == if x in xs then Dedup(xs) else Dedup(xs) + [x]
  {
    assert (xs + [x])[..|xs|] == xs;
  }

  /** A list without duplicates is its own deduplication. */
  lemma {:induction false} DedupDistinct<T(!new)>(xs: seq<T>)
    requires Distinct(xs)
    ensures Dedup(xs) == xs
  {
    if |xs| > 0 {
      var init := xs[..|xs| - 1];
      assert Distinct(init) by {
        forall i, j | 0 <= i < j < |init| ensures init[i] != init[j] {
          assert init[i] == xs[i] && init[j] == xs[j];
        }
      }
      DedupDistinct(init);
      assert xs[|xs| - 1] !in init by {
        forall j | 0 <= j < |init| ensures init[j] != xs[|xs| - 1] {
          assert init[j] == xs[j];
        }
      }
      assert xs == init + [xs[|xs| - 1]];
    }
  }

  /** `xs.filter(x => !ys.includes(x))`. */
  function Missing<T(==,!new)>(xs: seq<T>, ys: seq<T>): (r: seq<T>)
    ensures forall y :: y in r <==> y in xs && y !in ys
    ensures |r| <= |xs|
  {
    if |xs| == 0 then []
    else if xs[0] in ys then Missing(xs[1..], ys)
    else [xs[0]] + Missing(xs[1..], ys)
  }

  lemma {:induction false} MissingDistinct<T(!new)>(xs: seq<T>, ys: seq<T>)
    requires Distinct(xs)
    ensures Distinct(Missing(xs, ys))
  {
    if |xs| > 0 {
      assert Distinct(xs[1..]) by {
        forall i, j | 0 <= i < j < |xs[1..]| ensures xs[1..][i] != xs[1..][j] {
          assert xs[1..][i] == xs[i + 1] && xs[1..][j] == xs[j + 1];
        }
      }
      MissingDistinct(xs[1..], ys);
      var rest := Missing(xs[1..], ys);
      if xs[0] !in ys {
        assert xs[0] !in rest by {
          forall j | 0 <= j < |xs[1..]| ensures xs[1..][j] != xs[0] {
            assert xs[1..][j] == xs[j + 1];
          }
        }
        var r := [xs[0]] + rest;
        forall i, j | 0 <= i < j < |r| ensures r[i] != r[j] {
          if i == 0 {
            assert r[j] == rest[j - 1] && r[j] in rest;
          } else {
            assert r[i] == rest[i - 1] && r[j] == rest[j - 1];
          }
        }
      }
    }
  }

  /** When everything in `xs` is already in `ys`, nothing is missing. */
  lemma MissingNone<T(!new)>(xs: seq<T>, ys: seq<T>)
    requires forall x :: x in xs ==> x in ys
    ensures Missing(xs, ys) == []
  {
  }
}

=== FILE: paging.dfy ===
/** Offset pagination as both listing routes do it: skip `(page - 1) * limit`
    items, return at most `limit` of the rest (a limit of 0 means no limit
    to the database), and report `ceil(total / limit)` pages. */
module Paging {
  import opened Wrappers

  /** `Math.ceil(n / d)` for a positive divisor. */
  function CeilDiv(n: nat, d: nat): (r: nat)
    requires d > 0
    ensures n <= r * d
    ensures r == 0 || (r - 1) * d < n
  {
    if n == 0 then 0 else (n - 1) / d + 1
  }

  /** One page of a listing. `totalPages` is None when the division by a
      zero limit gives no finite number. */
  datatype Page<T> = Page(items: seq<T>, totalPages: Option<nat>, currentPage: int, total: nat)

  const NegativeSkip: string := "skip value must be non-negative"

  /** The listing for `page` with at most `limit` items per page. */
  function Paginate<T>(all: seq<T>, page: int, limit: nat): (r: Result<Page<T>, string>)
    ensures r.Failure? <==> (page - 1) * limit < 0
    ensures r.Success? ==>
      var skip := (page - 1) * limit;
      && r.value.total == |all| && r.value.currentPage == page
      && (limit > 0 ==> r.value.totalPages == Some(CeilDiv(|all|, limit)) && |r.value.items| <= limit)
      && (limit == 0 ==> r.value.totalPages == None)
      && (skip >= |all| ==> r.value.items == [])
      && (skip < |all| ==> skip + |r.value.items| <= |all|
                           && all[skip..] == r.value.items + all[skip + |r.value.items|..])
      && (skip < |all| && limit > 0 ==> |r.value.items| == if skip + limit <= |all| then limit else |all| - skip)
  {
    var skip := (page - 1) * limit;
    if skip < 0 then Failure(NegativeSkip)
    else
      var rest := if skip >= |all| then [] else all[skip..];
      var items := if limit == 0 || limit >= |rest| then rest else rest[..limit];
      assert skip < |all| ==> all[skip..] == items + all[skip + |items|..];
      Success(Page(items, if limit == 0 then None else Some(CeilDiv(|all|, limit)), page, |all|))
  }

  /** Pages `page`, `page + 1`, ... up to the last non-empty one, joined. */
  function PagesFrom<T>(all: seq<T>, page: nat, limit: nat): seq<T>
    requires page >= 1 && limit > 0
    decreases |all| - (page - 1) * limit
  {
    if (page - 1) * limit >= |all| then []
    else
      NextOffset(page, limit);
      Paginate(all, page, limit).value.items + PagesFrom(all, page + 1, limit)
  }

  /** Page `page + 1` starts `limit` items after page `page`. */
  lemma NextOffset(page: nat, limit: nat)
    requires page >= 1
    ensures 0 <= (page - 1) * limit && page * limit == (page - 1) * limit + limit
  {
  }

  /** Walking the pages in order from page `page` on yields exactly the
      items from that page's offset on, none lost or repeated. */
  lemma {:induction false} PagesFromCover<T>(all: seq<T>, page: nat, limit: nat)
    requires page >= 1 && limit > 0
    ensures (page - 1) * limit < |all| ==> PagesFrom(all, page, limit) == all[(page - 1) * limit..]
    ensures (page - 1) * limit >= |all| ==> PagesFrom(all, page, limit) == []
    decreases |all| - (page - 1) * limit
  {
    var skip := (page - 1) * limit;
    if skip < |all| {
      assert page * limit == skip + limit;
      var items := Paginate(all, page, limit).value.items;
      PagesFromCover(all, page + 1, limit);
      if page * limit < |all| {
        assert |items| == limit;
      } else {
        assert |items| == |all| - skip;
        assert all[skip + |items|..] == [];
      }
    }
  }

  lemma MulLe(a: int, b: int, d: nat)
    requires a <= b
    ensures a * d <= b * d
  {
  }

  lemma PageNonEmpty<T>(all: seq<T>, page: int, limit: nat)
    requires page >= 1 && limit > 0
    ensures Paginate(all, page, limit).Success?
    ensures Paginate(all, page, limit).value.items != [] <==> (page - 1) * limit < |all|
  {
    MulLe(0, page - 1, limit);
  }

  /** All pages together are the whole listing, and exactly the pages 1 to
      `totalPages` are non-empty. */
  lemma PagesCoverAll<T>(all: seq<T>, limit: nat, page: int)
    requires limit > 0
    ensures PagesFrom(all, 1, limit) == all
    ensures 1 <= page ==>
      (Paginate(all, page, limit).value.items != [] <==> page <= CeilDiv(|all|, limit))
  {
    PagesFromCover(all, 1, limit);
    assert all[0..] == all;
    if 1 <= page {
      var skip := (page - 1) * limit;
      var n := CeilDiv(|all|, limit);
      PageNonEmpty(all, page, limit);
      if page <= n {
        MulLe(page - 1, n - 1, limit);
        assert skip < |all|;
      } else {
        MulLe(n, page - 1, limit);
        assert skip >= |all|;
      }
      assert Paginate(all, page, limit).value.items != [] <==> skip < |all|;
    }
  }
}

=== FILE: providers.dfy ===
/** Provider selection and the two provider clients. The network calls are
    oracles (total functions), so a client cannot throw: every transport
    error comes back as a failed `SendResult`. */
module Providers {
  import opened Wrappers
  import opened Text
  import opened Domain

  /** Process environment variables. */
  type Env = map<string, string>

  /** A variable is configured when it is present and non-empty (JavaScript
      truthiness of `process.env.X`). */
  predicate IsSet(env: Env, name: string) {
    name in env && env[name] != ""
  }

  predicate HasWhatsAppCredentials(env: Env) {
    IsSet(env, "WHATSAPP_ACCESS_TOKEN") && IsSet(env, "WHATSAPP_PHONE_NUMBER_ID")
  }

  predicate HasTwilioCredentials(env: Env) {
    IsSet(env, "TWILIO_ACCOUNT_SID") && IsSet(env, "TWILIO_AUTH_TOKEN")
  }

  datatype Transport = WhatsAppTransport | TwilioTransport

  /** `determineProvider`: an explicit choice is returned as is; `auto`
      prefers WhatsApp whenever both of its credentials are configured, falls
      back to Twilio, and otherwise fails before anything is sent. */
  function DetermineProvider(choice: ProviderChoice, env: Env): (r: Result<Transport, JobError>)
    ensures choice == WhatsAppProvider ==> r == Success(WhatsAppTransport)
    ensures choice == TwilioProvider ==> r == Success(TwilioTransport)
    ensures choice == AutoProvider ==>
      (r == Success(WhatsAppTransport) <==> HasWhatsAppCredentials(env))
    ensures choice == AutoProvider ==>
      (r == Success(TwilioTransport) <==> !HasWhatsAppCredentials(env) && HasTwilioCredentials(env))
    ensures r.Failure? <==>
      choice == AutoProvider && !HasWhatsAppCredentials(env) && !HasTwilioCredentials(env)
    ensures r.Failure? ==> r.error == NoProviderCredentials
  {
    match choice
    case WhatsAppProvider => Success(WhatsAppTransport)
    case TwilioProvider => Success(TwilioTransport)
    case AutoProvider =>
      if HasWhatsAppCredentials(env) then Success(WhatsAppTransport)
      else if HasTwilioCredentials(env) then Success(TwilioTransport)
      else Failure(NoProviderCredentials)
  }

  /** What a provider client reports for one send. */
  datatype SendResult = SendOk(messageId: string) | SendError(error: string)

  /** The Graph API's answer to a text-message request: the ids it assigned,
      or the error message it (or the HTTP layer) gave. */
  datatype GraphResponse = GraphOk(messageIds: seq<string>) | GraphError(message: string)

  /** The Graph API call: (recipient digits, body) to response. */
  type GraphApi = (string, string) -> GraphResponse

  /** The Twilio SDK call: (recipient address, body) to the sid or the error
      message. */
  type TwilioApi = (string, string) -> SendResult

  /** The error Node reports for `response.data.messages[0].id` when the
      response lists no message. */
  const MissingMessageIdError: string := "Cannot read properties of undefined (reading 'id')"

  const TwilioNotInitialized: string := "Twilio client not initialized"

  /** WhatsApp recipient format: every `+` removed, nothing else touched. */
  function WhatsAppRecipient(phone: string): (r: string)
    ensures '+' !in r
    ensures '+' !in phone ==> r == phone
  {
    RemoveChar(phone, '+')
  }

  /** Formatting for WhatsApp is idempotent and works piecewise. */
  lemma WhatsAppRecipientProperties(a: string, b: string)
    ensures WhatsAppRecipient(WhatsAppRecipient(a)) == WhatsAppRecipient(a)
    ensures WhatsAppRecipient(a + b) == WhatsAppRecipient(a) + WhatsAppRecipient(b)
  {
    RemoveCharAppend(a, b, '+');
  }

  /** Twilio recipient format: `whatsapp:` then the number, with one leading
      `+` added only when it has none. */
  function TwilioRecipient(phone: string): (r: string)
    ensures |r| >= 10 && r[..10] == "whatsapp:+"
    ensures |phone| > 0 && phone[0] == '+' ==> r[9..] == phone
    ensures !(|phone| > 0 && phone[0] == '+') ==> r[10..] == phone
  {
    var withPlus := if |phone| > 0 && phone[0] == '+' then phone else "+" + phone;
    "whatsapp:" + withPlus
  }

  /** `sendWhatsAppMessage`: success carries the first id the API assigned. */
  function SendWhatsApp(api: GraphApi, phone: string, body: string): (r: SendResult)
    ensures var resp := api(WhatsAppRecipient(phone), body);
      && (r.SendOk? <==> resp.GraphOk? && |resp.messageIds| > 0)
      && (r.SendOk? ==> r.messageId == resp.messageIds[0])
      && (resp.GraphError? ==> r == SendError(resp.message))
  {
    match api(WhatsAppRecipient(phone), body)
    case GraphOk(ids) => if |ids| > 0 then SendOk(ids[0]) else SendError(MissingMessageIdError)
    case GraphError(message) => SendError(message)
  }

  /** `sendTwilioWhatsAppMessage`: without an initialised client every send
      fails; otherwise the SDK's result is returned for the formatted address. */
  function SendTwilio(clientReady: bool, api: TwilioApi, phone: string, body: string): (r: SendResult)
    ensures !clientReady ==> r == SendError(TwilioNotInitialized)
    ensures clientReady ==> r == api(TwilioRecipient(phone), body)
  {
    if !clientReady then SendError(TwilioNotInitialized) else api(TwilioRecipient(phone), body)
  }

  /** Formatting for Twilio never doubles a leading `+`, and a number already
      formatted is formatted the same again once the scheme is removed. */
  lemma TwilioRecipientNoDoublePlus(phone: string)
    ensures TwilioRecipient(phone)[10..] == (if |phone| > 0 && phone[0] == '+' then phone[1..] else phone)
    ensures TwilioRecipient(TwilioRecipient(phone)[9..]) == TwilioRecipient(phone)
  {
    var r := TwilioRecipient(phone);
    if |phone| > 0 && phone[0] == '+' {
      assert r[10..] == r[9..][1..];
    }
    assert r[9..][0] == '+';
    assert "whatsapp:" + r[9..] == r;
  }
}

=== FILE: reset_password.dfy ===
/** The reset-password page: the password rules and the order they are
    reported in, the strength meter, and the checks run before the new
    password is sent. */
module ResetPassword {
  import opened Wrappers
  import opened Text
  import AuthRoutes

  const TooShort: string := "Password must be at least 6 characters long"
  const NeedsLowercase: string := "Password must contain at least one lowercase letter"
  const NeedsUppercase: string := "Password must contain at least one uppercase letter"
  const NeedsNumber: string := "Password must contain at least one number"

  predicate HasLower(p: string) {
    exists i :: 0 <= i < |p| && IsLower(p[i])
  }

  predicate HasUpper(p: string) {
    exists i :: 0 <= i < |p| && IsUpper(p[i])
  }

  predicate HasDigit(p: string) {
    exists i :: 0 <= i < |p| && IsDigit(p[i])
  }

  /** The class `[@$!%*?&]`. */
  predicate IsSymbol(c: char) {
    c == '@' || c == '$' || c == '!' || c == '%' || c == '*' || c == '?' || c == '&'
  }

  predicate HasSymbol(p: string) {
    exists i :: 0 <= i < |p| && IsSymbol(p[i])
  }

  /** The rules the page enforces, in the order it checks them. */
  datatype Rule = MinLength | Lowercase | Uppercase | Number

  const Rules: seq<Rule> := [MinLength, Lowercase, Uppercase, Number]

  predicate Meets(p: string, rule: Rule) {
    match rule
    case MinLength => |p| >= 6
    case Lowercase => HasLower(p)
    case Uppercase => HasUpper(p)
    case Number => HasDigit(p)
  }

  function RuleMessage(rule: Rule): string {
    match rule
    case MinLength => TooShort
    case Lowercase => NeedsLowercase
    case Uppercase => NeedsUppercase
    case Number => NeedsNumber
  }

  /** The first rule of `rules` that `p` breaks. */
  function FirstBroken(p: string, rules: seq<Rule>): (r: Option<Rule>)
    ensures r.None? <==> forall i :: 0 <= i < |rules| ==> Meets(p, rules[i])
    ensures r.Some? ==> exists i :: 0 <= i < |rules| && rules[i] == r.value && !Meets(p, r.value)
                                  && forall j :: 0 <= j < i ==> Meets(p, rules[j])
  {
    if |rules| == 0 then None
    else if !Meets(p, rules[0]) then Some(rules[0])
    else
      var r := FirstBroken(p, rules[1..]);
      assert forall i :: 1 <= i < |rules| ==> rules[i] == rules[1..][i - 1];
      if r.Some? then
        var i :| 0 <= i < |rules[1..]| && rules[1..][i] == r.value && !Meets(p, r.value)
                 && forall j :: 0 <= j < i ==> Meets(p, rules[1..][j]);
        assert rules[i + 1] == r.value;
        r
      else r
  }

  /** `validatePassword`: `""` for an acceptable password, otherwise the
      message of the first rule it breaks. */
  function ValidatePassword(p: string): (r: string)
    ensures r == "" <==> |p| >= 6 && HasLower(p) && HasUpper(p) && HasDigit(p)
  {
    if |p| < 6 then TooShort
    else if !HasLower(p) then NeedsLowercase
    else if !HasUpper(p) then NeedsUppercase
    else if !HasDigit(p) then NeedsNumber
    else ""
  }

  /** The message is always the one of the first broken rule, in the order
      length, lowercase, uppercase, number. */
  lemma ValidateReportsFirstBroken(p: string)
    ensures ValidatePassword(p) == match FirstBroken(p, Rules)
      case None => ""
      case Some(rule) => RuleMessage(rule)
  {
    var r1, r2, r3 := Rules[1..], Rules[2..], Rules[3..];
    assert r1[1..] == r2 && r2[1..] == r3 && r3[1..] == [];
    if Meets(p, MinLength) {
      assert FirstBroken(p, Rules) == FirstBroken(p, r1);
      if Meets(p, Lowercase) {
        assert FirstBroken(p, r1) == FirstBroken(p, r2);
        if Meets(p, Uppercase) {
          assert FirstBroken(p, r2) == FirstBroken(p, r3);
        }
      }
    }
  }

  function Count(b: bool): nat {
    if b then 1 else 0
  }

  /** `getPasswordStrength`: one point per criterion met. */
  function Strength(p: string): (r: nat)
    ensures r <= 5
    ensures r == 5 <==> |p| >= 6 && HasLower(p) && HasUpper(p) && HasDigit(p) && HasSymbol(p)
    ensures r == 0 <==> |p| < 6 && !HasLower(p) && !HasUpper(p) && !HasDigit(p) && !HasSymbol(p)
  {
    Count(|p| >= 6) + Count(HasLower(p)) + Count(HasUpper(p)) + Count(HasDigit(p)) + Count(HasSymbol(p))
  }

  const VeryWeakText: string := "Very Weak"
  const WeakText: string := "Weak"
  const GoodText: string := "Good"
  const StrongText: string := "Strong"

  const Red: string := "bg-red-500"
  const Orange: string := "bg-orange-500"
  const Yellow: string := "bg-yellow-500"
  const Green: string := "bg-green-500"

  /** `getStrengthText`. */
  function StrengthText(strength: int): string {
    if strength <= 1 then VeryWeakText
    else if strength <= 2 then WeakText
    else if strength <= 3 then GoodText
    else StrongText
  }

  /** `getStrengthColor`. */
  function StrengthColor(strength: int): string {
    if strength <= 1 then Red
    else if strength <= 2 then Orange
    else if strength <= 3 then Yellow
    else Green
  }

  /** The meter's band for a strength: 0 up to 1, then 2, 3, and 4 or more. */
  function Band(strength: int): (r: nat)
    ensures r <= 3
    ensures strength <= 1 ==> r == 0
    ensures strength >= 4 ==> r == 3
    ensures 1 < strength < 4 ==> r == strength - 1
  {
    if strength <= 1 then 0 else if strength >= 4 then 3 else strength - 1
  }

  /** Text and colour are two labels for the same band: they change at the
      same thresholds, and the text never goes down as strength goes up. */
  lemma TextAndColorAgree(a: int, b: int)
    ensures StrengthText(a) == [VeryWeakText, WeakText, GoodText, StrongText][Band(a)]
    ensures StrengthColor(a) == [Red, Orange, Yellow, Green][Band(a)]
    ensures StrengthText(a) == StrengthText(b) <==> StrengthColor(a) == StrengthColor(b)
    ensures a <= b ==> Band(a) <= Band(b)
  {
  }

  /** A password the page accepts scores at least 4 and shows as strong. */
  lemma AcceptedIsStrong(p: string)
    requires ValidatePassword(p) == ""
    ensures Strength(p) >= 4
    ensures StrengthText(Strength(p)) == StrongText && StrengthColor(Strength(p)) == Green
  {
  }

  /** Without a symbol, a strength of 4 is exactly an accepted password. */
  lemma StrongWithoutSymbolIsAccepted(p: string)
    requires !HasSymbol(p)
    ensures Strength(p) >= 4 <==> ValidatePassword(p) == ""
  {
  }

  /** The meter can call a password strong that the page then refuses: one
      with a symbol but no digit. */
  lemma StrongButRefused()
    ensures var p := "abcdE@";
      Strength(p) == 4 && StrengthText(Strength(p)) == StrongText && ValidatePassword(p) == NeedsNumber
  {
    var p := "abcdE@";
    assert IsLower(p[0]) && IsUpper(p[4]) && IsSymbol(p[5]);
    assert forall i :: 0 <= i < |p| ==> !IsDigit(p[i]);
  }

  const FillAllFields: string := "Please fill in all fields"
  const PasswordsDiffer: string := "Passwords do not match"

  /** What `handleSubmit` does: refuse with one message, or send the token
      and the new password. */
  datatype ResetStep = Refuse(message: string) | SendReset(token: string, password: string)

  /** `handleSubmit`: an empty field, then a weak password, then a mismatch;
      only a form that passes all three is sent. */
  function SubmitReset(token: string, password: string, confirm: string): (r: ResetStep)
    ensures r.SendReset? <==> password != "" && ValidatePassword(password) == "" && password == confirm
    ensures r.SendReset? ==> r.token == token && r.password == password
    ensures password == "" || confirm == "" ==> r == Refuse(FillAllFields)
    ensures password != "" && confirm != "" && ValidatePassword(password) != "" ==> r == Refuse(ValidatePassword(password))
    ensures password != "" && confirm != "" && ValidatePassword(password) == "" && password != confirm ==> r == Refuse(PasswordsDiffer)
  {
    if password == "" || confirm == "" then Refuse(FillAllFields)
    else if ValidatePassword(password) != "" then Refuse(ValidatePassword(password))
    else if password != confirm then Refuse(PasswordsDiffer)
    else SendReset(token, password)
  }

  /** Whatever the page sends passes the server's own password checks, so a
      reset the server refuses is refused for its token alone. */
  lemma SentPasswordPassesServerChecks(token: string, password: string, confirm: string)
    requires SubmitReset(token, password, confirm).SendReset?
    ensures password != "" && |password| >= AuthRoutes.MinPasswordLength
  {
  }
}

=== FILE: scheduler.dfy ===
/** The campaign job queue and its processor. A campaign is enqueued as a
    `send-campaign` job (immediately when its time has passed, otherwise
    with the remaining delay); the processor moves a scheduled campaign to
    `sending`, picks a provider and runs one delivery pass, and marks the
    campaign failed when anything goes wrong. Jobs whose campaign is no
    longer scheduled do nothing, which also makes queue retries harmless. */
module Scheduler {
  import opened Wrappers
  import opened Domain
  import opened Providers
  import opened Templating
  import opened Delivery

  /** Retry policy every job is enqueued with. */
  const JobAttempts: nat := 3
  const BackoffDelay: nat := 2000

  /** A queued job: the campaign it sends, the delay it was enqueued with
      (None for "run now") and its retry policy. */
  datatype Job = Job(campaignId: CampaignId, delay: Option<nat>, attempts: nat, backoffDelay: nat)

  /** Campaigns by id, the job queue by job id, the next id the queue will
      hand out, every stored message and every event pushed so far. */
  datatype World = World(
    campaigns: map<CampaignId, Campaign>,
    queue: map<JobId, Job>,
    nextJobId: JobId,
    messages: seq<Message>,
    events: seq<Event>)

  /** Everything outside the database a job depends on: the contact and
      template collections, the environment, the two provider APIs and the
      clock. */
  datatype Services = Services(
    contacts: seq<Contact>,
    templates: map<TemplateId, Template>,
    env: Env,
    graph: GraphApi,
    twilio: TwilioApi,
    clock: Clock)

  /** Store invariants: campaigns are filed under their own id, job ids
      already handed out are below `nextJobId`, and a job id names at most
      one campaign. */
  predicate Valid(w: World) {
    && (forall id :: id in w.campaigns ==> w.campaigns[id].id == id)
    && (forall j :: j in w.queue ==> j < w.nextJobId)
    && (forall id :: id in w.campaigns && w.campaigns[id].jobId.Some? ==> w.campaigns[id].jobId.value < w.nextJobId)
    && JobIdsUnique(w.campaigns)
  }

  /** The enqueue delay: none when the scheduled time is not in the future,
      otherwise the milliseconds left. */
  function EnqueueDelay(scheduledAt: Time, now: Time): (r: Option<nat>)
    ensures r.None? <==> scheduledAt <= now
    ensures r.Some? ==> now + r.value == scheduledAt
  {
    var delay := scheduledAt - now;
    if delay <= 0 then None else Some(delay)
  }

  /** `scheduleCampaign`: enqueue a fresh job for the campaign and record
      its id on the campaign. */
  function ScheduleCampaign(w: World, id: CampaignId, now: Time): (r: (World, JobId))
    requires id in w.campaigns
    ensures var (w', job) := r;
      && job == w.nextJobId && w'.nextJobId == job + 1
      && w'.queue == w.queue[job := Job(id, EnqueueDelay(w.campaigns[id].scheduledAt, now), 3, 2000)]
      && w'.campaigns == w.campaigns[id := w.campaigns[id].(jobId := Some(job))]
      && w'.messages == w.messages && w'.events == w.events
    ensures Valid(w) ==> Valid(r.0)
  {
    var c := w.campaigns[id];
    var job := w.nextJobId;
    var w' := w.(queue := w.queue[job := Job(id, EnqueueDelay(c.scheduledAt, now), JobAttempts, BackoffDelay)],
                 nextJobId := job + 1,
                 campaigns := w.campaigns[id := c.(jobId := Some(job))]);
    (w', job)
  }

  const CampaignOrJobNotFound: string := "Campaign or job not found"
  const CampaignNotFoundMessage: string := "Campaign not found"

  /** `cancelCampaign`: fails unless the campaign exists and holds a job id;
      otherwise removes that job and leaves the campaign cancelled without a
      job, whatever its status was. */
  function CancelCampaign(w: World, id: CampaignId): (r: Result<World, string>)
    ensures r.Failure? <==> id !in w.campaigns || w.campaigns[id].jobId.None?
    ensures r.Failure? ==> r.error == CampaignOrJobNotFound
    ensures r.Success? ==>
      var c := w.campaigns[id];
      && r.value.campaigns == w.campaigns[id := c.(status := Cancelled, jobId := None)]
      && r.value.queue == w.queue - {c.jobId.value}
      && r.value.nextJobId == w.nextJobId && r.value.messages == w.messages && r.value.events == w.events
    ensures r.Success? && Valid(w) ==> Valid(r.value)
  {
    if id !in w.campaigns || w.campaigns[id].jobId.None? then Failure(CampaignOrJobNotFound)
    else
      var c := w.campaigns[id];
      Success(w.(queue := w.queue - {c.jobId.value},
                 campaigns := w.campaigns[id := c.(status := Cancelled, jobId := None)]))
  }

  /** The queue after a reschedule: the campaign's old job removed when it
      had one, and the new job added. */
  function RequeuedQueue(w: World, id: CampaignId, at: Time, now: Time): (q: map<JobId, Job>)
    requires id in w.campaigns
    ensures w.nextJobId in q && q[w.nextJobId] == Job(id, EnqueueDelay(at, now), JobAttempts, BackoffDelay)
    ensures forall j :: j in w.queue && Some(j) != w.campaigns[id].jobId && j != w.nextJobId ==>
      j in q && q[j] == w.queue[j]
    ensures forall j :: j in q ==> j == w.nextJobId || (j in w.queue && Some(j) != w.campaigns[id].jobId)
  {
    var previous := w.campaigns[id].jobId;
    var kept := if previous.Some? then w.queue - {previous.value} else w.queue;
    kept[w.nextJobId := Job(id, EnqueueDelay(at, now), JobAttempts, BackoffDelay)]
  }

  /** `rescheduleCampaign` as the code runs it. The handler loads its own
      copy of the campaign. When that copy holds a job, `cancelCampaign`
      loads a second copy and saves it cancelled and without a job. The
      first copy then gets the new time, status `scheduled` and the new job,
      and its save writes only what changed on that copy: a campaign that
      was scheduled all along is left cancelled, holding the fresh job. */
  function RescheduleCampaign(w: World, id: CampaignId, at: Time, now: Time): (r: Result<World, string>)
    ensures r.Failure? <==> id !in w.campaigns
    ensures r.Failure? ==> r.error == CampaignNotFoundMessage
    ensures r.Success? ==>
      var c := w.campaigns[id];
      && r.value.campaigns.Keys == w.campaigns.Keys
      && var c' := r.value.campaigns[id];
      && c' == c.(scheduledAt := at, status := c'.status, jobId := c'.jobId)
      && (c'.status == Cancelled <==> c.status == Scheduled && c.jobId.Some?)
      && (c'.status == Scheduled <==> !(c.status == Scheduled && c.jobId.Some?))
      && (Valid(w) ==> c'.jobId == Some(w.nextJobId))
      && r.value.nextJobId == w.nextJobId + 1
      && r.value.queue == RequeuedQueue(w, id, at, now)
      && (forall k :: k in w.campaigns && k != id ==> r.value.campaigns[k] == w.campaigns[k])
      && r.value.messages == w.messages && r.value.events == w.events
    ensures r.Success? && Valid(w) ==> Valid(r.value)
  {
    if id !in w.campaigns then Failure(CampaignNotFoundMessage)
    else
      var loaded := w.campaigns[id];
      var w1 := if loaded.jobId.Some? then CancelCampaign(w, id).value else w;
      var edited := loaded.(scheduledAt := at, status := Scheduled, jobId := Some(w.nextJobId));
      var saved := SaveChanged(w1.campaigns[id], loaded, edited);
      Success(w1.(queue := RequeuedQueue(w, id, at, now),
                  nextJobId := w.nextJobId + 1,
                  campaigns := w1.campaigns[id := saved]))
  }

  /** The reschedule the code evidently intends: cancel the current job if
      there is one, then set the new time, put the campaign back to
      scheduled and enqueue it again. */
  function RescheduleCampaignIntended(w: World, id: CampaignId, at: Time, now: Time): (r: Result<World, string>)
    ensures r.Failure? <==> id !in w.campaigns
    ensures r.Failure? ==> r.error == CampaignNotFoundMessage
    ensures r.Success? ==>
      var c := w.campaigns[id];
      && r.value.campaigns == w.campaigns[id := c.(scheduledAt := at, status := Scheduled, jobId := Some(w.nextJobId))]
      && r.value.nextJobId == w.nextJobId + 1
      && r.value.queue == RequeuedQueue(w, id, at, now)
      && r.value.messages == w.messages && r.value.events == w.events
    ensures r.Success? && Valid(w) ==> Valid(r.value)
  {
    if id !in w.campaigns then Failure(CampaignNotFoundMessage)
    else
      var w1 := if w.campaigns[id].jobId.Some? then CancelCampaign(w, id).value else w;
      var c := w1.campaigns[id];
      var w2 := w1.(campaigns := w1.campaigns[id := c.(scheduledAt := at, status := Scheduled)]);
      Success(ScheduleCampaign(w2, id, now).0)
  }

  /** As written, rescheduling a campaign that is scheduled and holds a job
      leaves it cancelled: its fresh job is in the queue, but when it runs
      it finds the campaign not scheduled and does nothing, so the campaign
      is never sent. */
  lemma RescheduledScheduledCampaignIsSkipped(w: World, svc: Services, id: CampaignId, at: Time, now: Time)
    requires Valid(w) && id in w.campaigns && w.campaigns[id].status == Scheduled && w.campaigns[id].jobId.Some?
    ensures var w' := RescheduleCampaign(w, id, at, now).value;
      && w'.campaigns[id].jobId == Some(w.nextJobId) && w.nextJobId in w'.queue
      && w'.campaigns[id].status == Cancelled
      && ProcessJob(w', svc, id) == (w', JobSkipped)
  {
  }

  /** With the intended reschedule the fresh job does run the campaign. */
  lemma RescheduledCampaignRuns(w: World, svc: Services, id: CampaignId, at: Time, now: Time)
    requires Valid(w) && id in w.campaigns
    ensures var w' := RescheduleCampaignIntended(w, id, at, now).value;
      && w'.campaigns[id].jobId == Some(w.nextJobId) && w.nextJobId in w'.queue
      && ProcessJob(w', svc, id).1 != JobSkipped
  {
    var w' := RescheduleCampaignIntended(w, id, at, now).value;
    ProcessJobOutcome(w', svc, id);
  }

  /** A campaign the startup scan enqueues: scheduled, due now or later, and
      without a job. */
  predicate StartupCandidate(c: Campaign, now: Time) {
    c.status == Scheduled && c.scheduledAt >= now && c.jobId.None?
  }

  /** `scheduleExistingCampaigns`: visit the campaigns in the order the
      store returns them and enqueue each candidate. */
  function ScheduleExisting(w: World, now: Time, order: seq<CampaignId>): (r: World)
    ensures r.messages == w.messages && r.events == w.events && r.nextJobId >= w.nextJobId
    ensures r.campaigns.Keys == w.campaigns.Keys
    ensures Valid(w) ==> Valid(r)
    decreases |order|
  {
    if |order| == 0 then w
    else ScheduleExisting(ScanStep(w, now, order[0]), now, order[1..])
  }

  /** The scan's visit of campaign `id`: enqueue it when it is a candidate. */
  function ScanStep(w: World, now: Time, id: CampaignId): (r: World)
    ensures r.messages == w.messages && r.events == w.events && r.nextJobId >= w.nextJobId
    ensures r.campaigns.Keys == w.campaigns.Keys
    ensures Valid(w) ==> Valid(r)
  {
    if id in w.campaigns && StartupCandidate(w.campaigns[id], now) then ScheduleCampaign(w, id, now).0 else w
  }

  /** The visit of a candidate gives it a queued job and changes nothing
      else about it. */
  lemma ScanStepCandidate(w: World, now: Time, id: CampaignId)
    requires Valid(w) && id in w.campaigns && StartupCandidate(w.campaigns[id], now)
    ensures var r := ScanStep(w, now, id);
      && r.campaigns[id].jobId.Some? && r.campaigns[id] == w.campaigns[id].(jobId := r.campaigns[id].jobId)
      && r.campaigns[id].jobId.value in r.queue
  {
  }

  /** The visit of one campaign leaves every other campaign as it was, and
      keeps every queued job. */
  lemma ScanStepOther(w: World, now: Time, x: CampaignId, id: CampaignId)
    requires id in w.campaigns && (x != id || !StartupCandidate(w.campaigns[id], now))
    ensures ScanStep(w, now, x).campaigns[id] == w.campaigns[id]
    ensures w.queue.Keys <= ScanStep(w, now, x).queue.Keys
  {
  }

  /** After the startup scan a campaign is changed only by receiving a job,
      which it receives exactly when it was a candidate listed by the scan;
      past-due scheduled campaigns are left as they were. */
  lemma {:induction false} ScheduleExistingEffect(w: World, now: Time, order: seq<CampaignId>, id: CampaignId)
    requires Valid(w) && id in w.campaigns
    ensures var r := ScheduleExisting(w, now, order);
      var c := w.campaigns[id];
      && (id in order && StartupCandidate(c, now) ==>
            r.campaigns[id].jobId.Some? && r.campaigns[id] == c.(jobId := r.campaigns[id].jobId)
            && r.campaigns[id].jobId.value in r.queue)
      && (!(id in order && StartupCandidate(c, now)) ==> r.campaigns[id] == c)
    decreases |order|
  {
    if |order| > 0 {
      var x := order[0];
      var w1 := ScanStep(w, now, x);
      assert order == [x] + order[1..];
      ScheduleExistingEffect(w1, now, order[1..], id);
      if x == id && StartupCandidate(w.campaigns[id], now) {
        ScanStepCandidate(w, now, id);
        ScheduledJobStays(w1, now, order[1..], id);
      } else {
        ScanStepOther(w, now, x, id);
      }
    }
  }

  /** The scan's input: the store's answer to "scheduled and due now or
      later", which lists exactly those campaigns, in some order. */
  predicate ScanOrder(w: World, now: Time, order: seq<CampaignId>) {
    && (forall id :: id in order ==> id in w.campaigns && w.campaigns[id].status == Scheduled && w.campaigns[id].scheduledAt >= now)
    && (forall id :: id in w.campaigns && w.campaigns[id].status == Scheduled && w.campaigns[id].scheduledAt >= now ==> id in order)
  }

  /** Over the store's own answer, the startup scan gives exactly the
      candidates a queued job and changes no other campaign, whatever order
      the answer comes in. */
  lemma ScheduleExistingOverStore(w: World, now: Time, order: seq<CampaignId>)
    requires Valid(w) && ScanOrder(w, now, order)
    ensures var r := ScheduleExisting(w, now, order);
      forall id :: id in w.campaigns ==>
        && (StartupCandidate(w.campaigns[id], now) ==>
              r.campaigns[id].jobId.Some? && r.campaigns[id] == w.campaigns[id].(jobId := r.campaigns[id].jobId)
              && r.campaigns[id].jobId.value in r.queue)
        && (!StartupCandidate(w.campaigns[id], now) ==> r.campaigns[id] == w.campaigns[id])
  {
    forall id | id in w.campaigns
      ensures var r := ScheduleExisting(w, now, order);
        && (StartupCandidate(w.campaigns[id], now) ==>
              r.campaigns[id].jobId.Some? && r.campaigns[id] == w.campaigns[id].(jobId := r.campaigns[id].jobId)
              && r.campaigns[id].jobId.value in r.queue)
        && (!StartupCandidate(w.campaigns[id], now) ==> r.campaigns[id] == w.campaigns[id])
    {
      ScheduleExistingEffect(w, now, order, id);
    }
  }

  /** Once a campaign holds a job, the startup scan leaves it and its job
      alone. */
  lemma {:induction false} ScheduledJobStays(w: World, now: Time, order: seq<CampaignId>, id: CampaignId)
    requires Valid(w) && id in w.campaigns && w.campaigns[id].jobId.Some? && w.campaigns[id].jobId.value in w.queue
    ensures var r := ScheduleExisting(w, now, order);
      r.campaigns[id] == w.campaigns[id] && w.campaigns[id].jobId.value in r.queue
    decreases |order|
  {
    if |order| > 0 {
      ScanStepOther(w, now, order[0], id);
      ScheduledJobStays(ScanStep(w, now, order[0]), now, order[1..], id);
    }
  }

  /** How the processor finishes a job. */
  datatype JobResult = JobSkipped | JobDone(transport: Transport) | JobFailed(error: JobError)

  /** The client a resolved transport sends through. */
  function SenderFor(t: Transport, svc: Services): Sender {
    match t
    case WhatsAppTransport => (phone: string, body: string) => SendWhatsApp(svc.graph, phone, body)
    case TwilioTransport =>
      (phone: string, body: string) => SendTwilio(HasTwilioCredentials(svc.env), svc.twilio, phone, body)
  }

  function ChannelFor(t: Transport): Channel {
    match t
    case WhatsAppTransport => WhatsAppChannel
    case TwilioTransport => TwilioChannel
  }

  function TemplateOf(svc: Services, id: TemplateId): Option<Template> {
    if id in svc.templates then Some(svc.templates[id]) else None
  }

  /** The failure branch of the processor: the campaign is stored as
      failed and a failed status update carrying the error is pushed. */
  function FailJob(w: World, c: Campaign, events: seq<Event>, e: JobError): (World, JobResult) {
    (w.(campaigns := w.campaigns[c.id := c.(status := Failed)],
        events := events + [StatusUpdate(c.id, Failed, None, Some(e))]),
     JobFailed(e))
  }

  /** The `send-campaign` processor for the job of campaign `id`. */
  function ProcessJob(w: World, svc: Services, id: CampaignId): (r: (World, JobResult))
    requires Valid(w)
    ensures id !in w.campaigns ==> r == (w, JobFailed(CampaignNotFound))
    ensures id in w.campaigns && w.campaigns[id].status != Scheduled ==> r == (w, JobSkipped)
    ensures Valid(r.0) && r.0.queue == w.queue && r.0.nextJobId == w.nextJobId
    ensures r.0.campaigns.Keys == w.campaigns.Keys
    ensures forall x :: x in w.campaigns && x != id ==> r.0.campaigns[x] == w.campaigns[x]
  {
    if id !in w.campaigns then (w, JobFailed(CampaignNotFound))
    else if w.campaigns[id].status != Scheduled then (w, JobSkipped)
    else
      var r := RunJob(w, svc, w.campaigns[id]);
      ReplaceKeepsValid(w, r.0.campaigns[id], r.0);
      r
  }

  /** The processor once it found campaign `c` scheduled: announce that it
      is sending, pick the transport, run the pass and store the campaign
      back under its id with the same job, completed or failed. */
  function RunJob(w: World, svc: Services, c: Campaign): (r: (World, JobResult))
    ensures c.id in r.0.campaigns && r.0.campaigns == w.campaigns[c.id := r.0.campaigns[c.id]]
    ensures r.0.campaigns[c.id].id == c.id && r.0.campaigns[c.id].jobId == c.jobId
    ensures r.0.queue == w.queue && r.0.nextJobId == w.nextJobId
  {
    var sending := c.(status := Sending);
    var started := w.events + [StatusUpdate(c.id, Sending, Some(c.progress), None)];
    match DetermineProvider(c.provider, svc.env)
    case Failure(e) => FailJob(w, sending, started, e)
    case Success(transport) =>
      var eligible := Eligible(svc.contacts, c.contacts);
      match Dispatch(ChannelFor(transport), sending, TemplateOf(svc, c.templateId), eligible,
                     SenderFor(transport, svc), svc.clock)
      case Aborted(_, e) => FailJob(w, sending, started, e)
      case Dispatched(p) =>
        (w.(campaigns := w.campaigns[c.id := p.campaign],
            messages := w.messages + p.messages,
            events := started + p.events),
         JobDone(transport))
  }

  /** Storing a campaign back under its own id with its job id unchanged
      keeps the store invariants. */
  lemma ReplaceKeepsValid(w: World, c: Campaign, w': World)
    requires Valid(w) && c.id in w.campaigns && c.jobId == w.campaigns[c.id].jobId
    requires w'.campaigns == w.campaigns[c.id := c] && w'.queue == w.queue && w'.nextJobId == w.nextJobId
    ensures Valid(w')
  {
  }

  /** A scheduled campaign's job ends with the campaign completed or failed,
      failed exactly when the job reports an error, after first announcing
      that it is sending. */
  lemma ProcessJobOutcome(w: World, svc: Services, id: CampaignId)
    requires Valid(w) && id in w.campaigns && w.campaigns[id].status == Scheduled
    ensures var r := ProcessJob(w, svc, id);
      && r.1 != JobSkipped
      && (r.0.campaigns[id].status == Failed <==> r.1.JobFailed?)
      && (r.0.campaigns[id].status == Completed <==> r.1.JobDone?)
      && |r.0.events| > |w.events|
      && r.0.events[|w.events|] == StatusUpdate(id, Sending, Some(w.campaigns[id].progress), None)
      && (r.1.JobFailed? ==>
            r.0.messages == w.messages
            && r.0.events[|r.0.events| - 1] == StatusUpdate(id, Failed, None, Some(r.1.error)))
  {
    RunJobOutcome(w, svc, w.campaigns[id]);
  }

  lemma RunJobOutcome(w: World, svc: Services, c: Campaign)
    ensures var r := RunJob(w, svc, c);
      && r.1 != JobSkipped
      && (r.0.campaigns[c.id].status == Failed <==> r.1.JobFailed?)
      && (r.0.campaigns[c.id].status == Completed <==> r.1.JobDone?)
      && |r.0.events| > |w.events|
      && r.0.events[|w.events|] == StatusUpdate(c.id, Sending, Some(c.progress), None)
      && (r.1.JobFailed? ==>
            r.0.messages == w.messages
            && r.0.events[|r.0.events| - 1] == StatusUpdate(c.id, Failed, None, Some(r.1.error)))
  {
    match DetermineProvider(c.provider, svc.env)
    case Failure(e) =>
    case Success(t) =>
      var d := Dispatch(ChannelFor(t), c.(status := Sending), TemplateOf(svc, c.templateId),
                        Eligible(svc.contacts, c.contacts), SenderFor(t, svc), svc.clock);
      if d.Dispatched? {
        RunJobDispatched(w, svc, c, t);
      }
  }

  /** A failed job leaves its campaign in a state the processor skips, so
      the queue's retries of that job change nothing. */
  lemma RetryAfterFailureIsNoop(w: World, svc: Services, id: CampaignId)
    requires Valid(w)
    requires ProcessJob(w, svc, id).1.JobFailed?
    ensures var w' := ProcessJob(w, svc, id).0;
      ProcessJob(w', svc, id).0 == w'
  {
  }

  /** Running the processor on the state it produced changes nothing more:
      every outcome leaves the campaign missing or no longer scheduled. */
  lemma ProcessJobIdempotent(w: World, svc: Services, id: CampaignId)
    requires Valid(w)
    ensures var w' := ProcessJob(w, svc, id).0;
      ProcessJob(w', svc, id).0 == w'
  {
    var (w', res) := ProcessJob(w, svc, id);
    if id in w.campaigns && w.campaigns[id].status == Scheduled {
      ProcessJobOutcome(w, svc, id);
    }
  }

  /** A cancelled campaign's job, should it still run, does nothing. */
  lemma CancelledJobIsNoop(w: World, svc: Services, id: CampaignId)
    requires Valid(w) && CancelCampaign(w, id).Success?
    ensures var w' := CancelCampaign(w, id).value;
      ProcessJob(w', svc, id) == (w', JobSkipped)
  {
  }

  /** With `auto` and no credentials at all the campaign fails before any
      message is created. */
  lemma NoCredentialsFailsBeforeSending(w: World, svc: Services, id: CampaignId)
    requires Valid(w) && id in w.campaigns && w.campaigns[id].status == Scheduled
    requires w.campaigns[id].provider == AutoProvider
    requires !HasWhatsAppCredentials(svc.env) && !HasTwilioCredentials(svc.env)
    ensures var (w', res) := ProcessJob(w, svc, id);
      && res == JobFailed(NoProviderCredentials)
      && w'.campaigns[id] == w.campaigns[id].(status := Failed)
      && w'.messages == w.messages
  {
  }

  /** An explicit Twilio campaign on a server without Twilio credentials
      still runs the pass: every message fails with the client error and
      the campaign is marked completed. When no body renders empty there is
      one such message per contact. */
  lemma ExplicitTwilioWithoutClientCompletes(w: World, svc: Services, id: CampaignId)
    requires Valid(w) && id in w.campaigns && w.campaigns[id].status == Scheduled
    requires w.campaigns[id].provider == TwilioProvider && !HasTwilioCredentials(svc.env)
    requires w.campaigns[id].templateId in svc.templates
    requires |Eligible(svc.contacts, w.campaigns[id].contacts)| > 0
    ensures var (w', res) := ProcessJob(w, svc, id);
      var n := |Eligible(svc.contacts, w.campaigns[id].contacts)|;
      && res == JobDone(TwilioTransport)
      && w'.campaigns[id].status == Completed
      && w'.campaigns[id].progress.sent == w.campaigns[id].progress.sent
      && w'.campaigns[id].progress.failed == w.campaigns[id].progress.failed + n
      && |w.messages| <= |w'.messages| <= |w.messages| + n
      && w'.messages[..|w.messages|] == w.messages
      && (forall m :: m in w'.messages[|w.messages|..] ==>
           m.status == MessageFailed && m.errorMessage == Some(TwilioNotInitialized))
      && ((forall k :: 0 <= k < n ==>
             MessageText(svc.templates[w.campaigns[id].templateId].body, w.campaigns[id].variables,
                    Eligible(svc.contacts, w.campaigns[id].contacts)[k]).Some?) ==>
           |w'.messages| == |w.messages| + n)
  {
    var c := w.campaigns[id];
    var sending := c.(status := Sending);
    var t := svc.templates[c.templateId];
    var eligible := Eligible(svc.contacts, c.contacts);
    var send := SenderFor(TwilioTransport, svc);
    forall i | 0 <= i < |eligible| && MessageText(t.body, sending.variables, eligible[i]).Some?
      ensures send(eligible[i].phone, MessageText(t.body, sending.variables, eligible[i]).value) == SendError(TwilioNotInitialized)
    {
    }
    PassAllFail(TwilioChannel, sending, t, eligible, send, svc.clock);
    RunJobDispatched(w, svc, c, TwilioTransport);
    PassFailsWith(TwilioChannel, sending, t, eligible, send, svc.clock, TwilioNotInitialized);
    var ms := Dispatch(TwilioChannel, sending, Some(t), eligible, send, svc.clock).pass.messages;
    assert (w.messages + ms)[|w.messages|..] == ms;
  }

  /** A job whose transport resolves and whose pass runs stores the pass's
      campaign and appends the pass's messages and events after the
      sending announcement. */
  lemma RunJobDispatched(w: World, svc: Services, c: Campaign, transport: Transport)
    requires DetermineProvider(c.provider, svc.env) == Success(transport)
    requires Dispatch(ChannelFor(transport), c.(status := Sending), TemplateOf(svc, c.templateId),
                      Eligible(svc.contacts, c.contacts), SenderFor(transport, svc), svc.clock).Dispatched?
    ensures var p := Dispatch(ChannelFor(transport), c.(status := Sending), TemplateOf(svc, c.templateId),
                              Eligible(svc.contacts, c.contacts), SenderFor(transport, svc), svc.clock).pass;
      RunJob(w, svc, c) ==
        (w.(campaigns := w.campaigns[c.id := p.campaign],
            messages := w.messages + p.messages,
            events := w.events + [StatusUpdate(c.id, Sending, Some(c.progress), None)] + p.events),
         JobDone(transport))
  {
  }
}

=== FILE: template_form.dfy ===
/** The template form's client-side helpers: extracting the `{{name}}`
    placeholders of a body into declared variables, the preview that shows
    each declared variable as `[NAME]`, and the variable list editor. */
module TemplateForm {
  import opened Wrappers
  import opened Text
  import opened TemplateText
  import opened Lists

  datatype VariableType = TextVariable | NumberVariable | DateVariable

  datatype TemplateVariable = TemplateVariable(name: string, kind: VariableType, required: bool)

  /** The editor's empty draft: no name, type text, not required. */
  const EmptyVariable: TemplateVariable := TemplateVariable("", TextVariable, false)

  function Names(vars: seq<TemplateVariable>): (r: seq<string>)
    ensures |r| == |vars|
    ensures forall i :: 0 <= i < |vars| ==> r[i] == vars[i].name
  {
    seq(|vars|, i requires 0 <= i < |vars| => vars[i].name)
  }

  // ---------------------------------------------------------------------------
  // The scanner for /\{\{(\w+)\}\}/g
  // ---------------------------------------------------------------------------

  /** The length of the run of word characters `s` starts with. */
  function WordRun(s: string): (n: nat)
    ensures n <= |s|
    ensures forall i :: 0 <= i < n ==> IsWordChar(s[i])
    ensures n == |s| || !IsWordChar(s[n])
  {
    if |s| == 0 || !IsWordChar(s[0]) then 0 else 1 + WordRun(s[1..])
  }

  lemma {:induction false} WordRunExact(s: string, n: nat)
    requires n < |s| && !IsWordChar(s[n])
    requires forall i :: 0 <= i < n ==> IsWordChar(s[i])
    ensures WordRun(s) == n
  {
    if n > 0 {
      WordRunExact(s[1..], n - 1);
    }
  }

  /** The name captured by a match that starts at the first character of `s`.
      A greedy `\w+` that is not followed by `}}` cannot succeed with a
      shorter run either, since a shorter run is followed by a word
      character, so the longest run decides. */
  function MatchAt(s: string): (r: Option<string>)
    ensures r.Some? ==> IsKey(r.value) && |r.value| + 4 <= |s| && s[..|r.value| + 4] == Placeholder(r.value)
  {
    if |s| < 2 || s[0] != '{' || s[1] != '{' then None
    else
      var n := WordRun(s[2..]);
      if n > 0 && n + 4 <= |s| && s[n + 2] == '}' && s[n + 3] == '}' then
        var k := s[2..n + 2];
        assert s[..n + 4] == Placeholder(k);
        Some(k)
      else None
  }

  /** Wherever a placeholder starts, the scanner matches exactly it: the
      regex and the placeholder syntax agree. */
  lemma MatchAtPlaceholder(s: string, k: string)
    requires IsKey(k) && Placeholder(k) <= s
    ensures MatchAt(s) == Some(k)
  {
    assert forall i :: 0 <= i < |k| ==> s[2..][i] == k[i];
    assert s[2..][|k|] == '}';
    WordRunExact(s[2..], |k|);
    assert s[2..|k| + 2] == k;
  }

  /** The captured names of every match of `/\{\{(\w+)\}\}/g` in `s`, left to
      right: after a match the search resumes behind it, otherwise one
      character further on. */
  function Scan(s: string): (r: seq<string>)
    ensures forall i :: 0 <= i < |r| ==> IsKey(r[i])
    decreases |s|
  {
    if |s| == 0 then []
    else match MatchAt(s)
      case Some(k) => [k] + Scan(s[|k| + 4..])
      case None => Scan(s[1..])
  }

  /** No match starts inside brace-free text. */
  lemma {:induction false} ScanLit(t: string, x: string)
    requires BraceFree(t)
    ensures Scan(t + x) == Scan(x)
  {
    if |t| > 0 {
      assert (t + x)[0] == t[0] && t[0] != '{';
      assert (t + x)[1..] == t[1..] + x;
      ScanLit(t[1..], x);
    } else {
      assert t + x == x;
    }
  }

  /** A placeholder is one match, and scanning resumes right after it. */
  lemma ScanToken(k: string, x: string)
    requires IsKey(k)
    ensures Scan(Placeholder(k) + x) == [k] + Scan(x)
  {
    var s := Placeholder(k) + x;
    MatchAtPlaceholder(s, k);
    assert s[|k| + 4..] == x;
  }

  /** The keys of a body's placeholders, in order. */
  function Keys(ps: seq<Piece>): seq<string> {
    if |ps| == 0 then []
    else match ps[0]
      case Token(k) => [k] + Keys(ps[1..])
      case Lit(_) => Keys(ps[1..])
  }

  /** On a well-formed body the regex finds exactly its placeholders, in
      order: the scanner and the piece structure agree. */
  lemma {:induction false} ScanFlatten(ps: seq<Piece>)
    requires AllWellFormed(ps)
    ensures Scan(Flatten(ps)) == Keys(ps)
  {
    if |ps| > 0 {
      FlattenCons(ps[0], ps[1..]);
      assert [ps[0]] + ps[1..] == ps;
      assert WellFormed(ps[0]);
      ScanFlatten(ps[1..]);
      match ps[0]
      case Token(k) => ScanToken(k, Flatten(ps[1..]));
      case Lit(t) => ScanLit(t, Flatten(ps[1..]));
    }
  }

  // ---------------------------------------------------------------------------
  // Extraction
  // ---------------------------------------------------------------------------

  /** The variables extraction appends: the body's distinct names in order of
      first occurrence, less those already declared, as text variables that
      are not required. */
  function Discovered(body: string, vars: seq<TemplateVariable>): (r: seq<TemplateVariable>)
    ensures forall i :: 0 <= i < |r| ==> r[i].kind == TextVariable && !r[i].required
    ensures Names(r) == Missing(Dedup(Scan(body)), Names(vars))
  {
    var unseen := Missing(Dedup(Scan(body)), Names(vars));
    seq(|unseen|, i requires 0 <= i < |unseen| => TemplateVariable(unseen[i], TextVariable, false))
  }

  /** What extraction appends is new, distinct and drawn from the body, and
      together with the declared names it covers every name in the body. */
  lemma DiscoveredCovers(body: string, vars: seq<TemplateVariable>)
    ensures var found := Discovered(body, vars);
      && (forall i :: 0 <= i < |found| ==> found[i].name in Scan(body) && found[i].name !in Names(vars))
      && (forall k :: k in Scan(body) ==> k in Names(vars) || k in Names(found))
      && Distinct(Names(found))
  {
    var found := Discovered(body, vars);
    assert forall i :: 0 <= i < |found| ==> found[i].name == Names(found)[i];
    MissingDistinct(Dedup(Scan(body)), Names(vars));
  }

  /** `extractVariablesFromBody`. */
  function ExtractVariables(body: string, vars: seq<TemplateVariable>): (r: seq<TemplateVariable>)
    ensures |vars| <= |r| && r[..|vars|] == vars
    ensures forall i :: |vars| <= i < |r| ==> r[i].kind == TextVariable && !r[i].required
    ensures forall i :: |vars| <= i < |r| ==> r[i].name in Scan(body) && r[i].name !in Names(vars)
    ensures forall k :: k in Scan(body) ==> k in Names(r)
    ensures Distinct(Names(r[|vars|..]))
  {
    var found := Discovered(body, vars);
    DiscoveredCovers(body, vars);
    var r := vars + found;
    assert r[..|vars|] == vars && r[|vars|..] == found;
    NamesAppend(vars, found);
    r
  }

  lemma NamesAppend(a: seq<TemplateVariable>, b: seq<TemplateVariable>)
    ensures Names(a + b) == Names(a) + Names(b)
  {
  }

  /** A second extraction over the same body finds every name declared and
      adds nothing. */
  lemma ExtractIdempotent(body: string, vars: seq<TemplateVariable>)
    ensures ExtractVariables(body, ExtractVariables(body, vars)) == ExtractVariables(body, vars)
  {
    var r := ExtractVariables(body, vars);
    MissingNone(Dedup(Scan(body)), Names(r));
    assert Discovered(body, r) == [];
    assert r + [] == r;
  }

  /** On a well-formed body the appended names are the body's placeholder
      keys, each once, in order of first use, less the declared ones. */
  lemma ExtractFromPieces(ps: seq<Piece>, vars: seq<TemplateVariable>)
    requires AllWellFormed(ps)
    ensures Names(ExtractVariables(Flatten(ps), vars)[|vars|..]) == Missing(Dedup(Keys(ps)), Names(vars))
  {
    ScanFlatten(ps);
    var r := ExtractVariables(Flatten(ps), vars);
    assert r[|vars|..] == Discovered(Flatten(ps), vars);
  }

  // ---------------------------------------------------------------------------
  // Preview
  // ---------------------------------------------------------------------------

  /** What the preview shows for a variable: its name upper-cased in square
      brackets. */
  function PreviewText(name: string): (r: string)
    ensures IsKey(name) ==> BraceFree(r)
  {
    var u := ToUpper(name);
    assert IsKey(name) ==> forall i :: 0 <= i < |u| ==> IsWordChar(u[i]);
    "[" + u + "]"
  }

  /** One binding per declared variable, in the order they are declared. */
  function PreviewBindings(vars: seq<TemplateVariable>): (r: Bindings)
    ensures |r| == |vars|
    ensures forall i :: 0 <= i < |vars| ==> r[i] == (vars[i].name, PreviewText(vars[i].name))
  {
    seq(|vars|, i requires 0 <= i < |vars| => (vars[i].name, PreviewText(vars[i].name)))
  }

  /** `generatePreview`: for each declared variable in turn, every
      `{{name}}` replaced by `[NAME]`. */
  function Preview(body: string, vars: seq<TemplateVariable>): string {
    ReplaceEach(body, PreviewBindings(vars))
  }

  predicate KeyNames(vars: seq<TemplateVariable>) {
    forall i :: 0 <= i < |vars| ==> IsKey(vars[i].name)
  }

  /** The piece the preview makes of one piece of the body. */
  function PreviewPiece(p: Piece, vars: seq<TemplateVariable>): Piece {
    match p
    case Lit(_) => p
    case Token(k) => if k in Names(vars) then Lit(PreviewText(k)) else p
  }

  /** The first preview binding of a placeholder key is its variable's
      `[NAME]`, and undeclared keys have none. */
  lemma PreviewResolvesPiece(p: Piece, vars: seq<TemplateVariable>)
    ensures ResolvePiece(p, PreviewBindings(vars)) == PreviewPiece(p, vars)
  {
    var bs := PreviewBindings(vars);
    if p.Token? {
      var k := p.key;
      var v := FirstValue(bs, k);
      if k in Names(vars) {
        var j :| 0 <= j < |vars| && Names(vars)[j] == k;
        assert bs[j].0 == k;
        var m :| 0 <= m < |bs| && bs[m] == (k, v.value);
      } else {
        forall m | 0 <= m < |bs| ensures bs[m].0 != k {
          assert bs[m].0 == Names(vars)[m];
        }
      }
    }
  }

  /** On a well-formed body, the preview turns exactly the placeholders of
      declared variables into `[NAME]` and leaves every other placeholder
      and all literal text as it was. */
  lemma PreviewPieces(ps: seq<Piece>, vars: seq<TemplateVariable>)
    requires AllWellFormed(ps) && KeyNames(vars)
    ensures Preview(Flatten(ps), vars) == Flatten(seq(|ps|, i requires 0 <= i < |ps| => PreviewPiece(ps[i], vars)))
  {
    var bs := PreviewBindings(vars);
    assert CleanBindings(bs);
    ReplaceEachResolves(ps, bs);
    var rs := Resolve(ps, bs);
    forall i | 0 <= i < |ps| ensures rs[i] == PreviewPiece(ps[i], vars) {
      PreviewResolvesPiece(ps[i], vars);
    }
    assert rs == seq(|ps|, i requires 0 <= i < |ps| => PreviewPiece(ps[i], vars));
  }

  // ---------------------------------------------------------------------------
  // The variable list editor
  // ---------------------------------------------------------------------------

  /** `addVariable`: the draft, name untrimmed, is appended when its trimmed
      name is non-empty, and the editor is reset; otherwise nothing changes. */
  function AddVariable(vars: seq<TemplateVariable>, draft: TemplateVariable): (r: (seq<TemplateVariable>, TemplateVariable))
    ensures Trim(draft.name) != "" ==> r.0 == vars + [draft] && r.1 == EmptyVariable
    ensures Trim(draft.name) == "" ==> r == (vars, draft)
  {
    if Trim(draft.name) != "" then (vars + [draft], EmptyVariable) else (vars, draft)
  }

  /** `removeVariable(i)`. */
  function RemoveVariable(vars: seq<TemplateVariable>, i: int): (r: seq<TemplateVariable>)
    ensures 0 <= i < |vars| ==> |r| == |vars| - 1
    ensures 0 <= i < |vars| ==> forall j :: 0 <= j < |r| ==> r[j] == if j < i then vars[j] else vars[j + 1]
    ensures !(0 <= i < |vars|) ==> r == vars
  {
    RemoveAt(vars, i)
  }

  /** Removing the variable just added restores the list. */
  lemma RemoveUndoesAdd(vars: seq<TemplateVariable>, draft: TemplateVariable)
    requires Trim(draft.name) != ""
    ensures RemoveVariable(AddVariable(vars, draft).0, |vars|) == vars
  {
    RemoveLast(vars, draft);
  }
}

=== FILE: template_text.dfy ===
/** Message bodies seen as a sequence of pieces: literal text without braces
    and `{{key}}` placeholders whose key is made of word characters. On such
    bodies the literal global replacement of `Text` has a structural meaning:
    replacing `{{key}}` turns exactly the `key` placeholders into text. */
module TemplateText {
  import opened Wrappers
  import opened Text

  datatype Piece = Lit(text: string) | Token(key: string)

  /** An ordered list of (key, value) pairs, as JavaScript's `Map` iterates. */
  type Bindings = seq<(string, string)>

  predicate IsKey(k: string) {
    |k| > 0 && forall i :: 0 <= i < |k| ==> IsWordChar(k[i])
  }

  predicate BraceFree(t: string) {
    '{' !in t && '}' !in t
  }

  predicate WellFormed(p: Piece) {
    match p
    case Lit(t) => BraceFree(t)
    case Token(k) => IsKey(k)
  }

  predicate AllWellFormed(ps: seq<Piece>) {
    forall i :: 0 <= i < |ps| ==> WellFormed(ps[i])
  }

  /** Every key is a word-character key and every value is brace-free. */
  predicate CleanBindings(bs: Bindings) {
    forall i :: 0 <= i < |bs| ==> IsKey(bs[i].0) && BraceFree(bs[i].1)
  }

  function Placeholder(key: string): (r: string)
    ensures |r| == |key| + 4
  {
    "{{" + key + "}}"
  }

  function PieceText(p: Piece): string {
    match p
    case Lit(t) => t
    case Token(k) => Placeholder(k)
  }

  function Flatten(ps: seq<Piece>): string {
    if |ps| == 0 then "" else PieceText(ps[0]) + Flatten(ps[1..])
  }

  lemma FlattenCons(p: Piece, rest: seq<Piece>)
    ensures Flatten([p] + rest) == PieceText(p) + Flatten(rest)
  {
    assert ([p] + rest)[1..] == rest;
  }

  /** The value of the first binding for `k`, if any. */
  function FirstValue(bs: Bindings, k: string): (r: Option<string>)
    ensures r.Some? <==> exists i :: 0 <= i < |bs| && bs[i].0 == k
    ensures r.Some? ==> exists i :: 0 <= i < |bs| && bs[i] == (k, r.value)
  {
    if |bs| == 0 then None
    else if bs[0].0 == k then Some(bs[0].1)
    else
      var r := FirstValue(bs[1..], k);
      assert forall i :: 1 <= i < |bs| ==> bs[i] == bs[1..][i - 1];
      r
  }

  function FillPiece(p: Piece, key: string, val: string): Piece {
    if p == Token(key) then Lit(val) else p
  }

  /** Every `key` placeholder turned into the literal `val`. */
  function Fill(ps: seq<Piece>, key: string, val: string): (r: seq<Piece>)
    ensures |r| == |ps|
    ensures forall i :: 0 <= i < |ps| ==> r[i] == FillPiece(ps[i], key, val)
  {
    seq(|ps|, i requires 0 <= i < |ps| => FillPiece(ps[i], key, val))
  }

  function ResolvePiece(p: Piece, bs: Bindings): Piece {
    match p
    case Lit(t) => p
    case Token(k) =>
      match FirstValue(bs, k)
      case Some(v) => Lit(v)
      case None => p
  }

  /** Every placeholder with a binding turned into the text of its first
      binding; placeholders without one stay as they are. */
  function Resolve(ps: seq<Piece>, bs: Bindings): (r: seq<Piece>)
    ensures |r| == |ps|
    ensures forall i :: 0 <= i < |ps| ==> r[i] == ResolvePiece(ps[i], bs)
  {
    seq(|ps|, i requires 0 <= i < |ps| => ResolvePiece(ps[i], bs))
  }

  /** The replacements applied one binding after the other, each global, as
      the source's `for (const [key, value] of map)` loops do. */
  function ReplaceEach(s: string, bs: Bindings): string
    decreases |bs|
  {
    if |bs| == 0 then s
    else ReplaceEach(ReplaceAll(s, Placeholder(bs[0].0), bs[0].1), bs[1..])
  }

  /** No occurrence of `{{key}}` starts inside brace-free text. */
  lemma LitSkips(t: string, x: string, key: string)
    requires BraceFree(t)
    ensures forall i :: 0 <= i < |t| ==> !(Placeholder(key) <= (t + x)[i..])
  {
    forall i | 0 <= i < |t|
      ensures !(Placeholder(key) <= (t + x)[i..])
    {
      assert (t + x)[i..][0] == t[i];
      assert t[i] != '{';
    }
  }

  /** No occurrence of `{{key}}` starts inside another key's placeholder. */
  lemma TokenSkips(k: string, x: string, key: string)
    requires IsKey(k) && IsKey(key) && k != key
    ensures forall i :: 0 <= i < |Placeholder(k)| ==> !(Placeholder(key) <= (Placeholder(k) + x)[i..])
  {
    var pat := Placeholder(key);
    var s := Placeholder(k) + x;
    assert forall j :: 0 <= j < |k| ==> s[j + 2] == k[j];
    assert s[0] == '{' && s[1] == '{' && s[|k| + 2] == '}' && s[|k| + 3] == '}';
    forall i | 0 <= i < |Placeholder(k)|
      ensures !(pat <= s[i..])
    {
      if i == 0 {
        var j: int;
        if |k| == |key| {
          var d :| 0 <= d < |k| && k[d] != key[d];
          j := d + 2;
          assert pat[j] == key[d];
        } else if |k| < |key| {
          j := |k| + 2;
          assert pat[j] == key[|k|];
        } else {
          j := |key| + 2;
          assert s[j] == k[|key|];
        }
        assert j < |pat| && j < |s| && s[j] != pat[j];
        assert s[0..] == s;
      } else if i == 1 {
        assert s[i..][1] == k[0];
      } else {
        assert s[i..][0] == s[i];
        if i < |k| + 2 {
          assert s[i] == k[i - 2];
        }
      }
    }
  }

  /** Replacing `{{key}}` in a clean body fills exactly the `key` placeholders. */
  lemma {:induction false} ReplaceAllFill(ps: seq<Piece>, key: string, val: string)
    requires AllWellFormed(ps) && IsKey(key) && BraceFree(val)
    ensures ReplaceAll(Flatten(ps), Placeholder(key), val) == Flatten(Fill(ps, key, val))
  {
    var pat := Placeholder(key);
    if |ps| > 0 {
      var rest := Flatten(ps[1..]);
      var filled := Fill(ps, key, val);
      assert filled[1..] == Fill(ps[1..], key, val);
      assert Flatten(filled) == PieceText(filled[0]) + Flatten(Fill(ps[1..], key, val));
      assert AllWellFormed(ps[1..]) by {
        forall i | 0 <= i < |ps[1..]| ensures WellFormed(ps[1..][i]) {
          assert ps[1..][i] == ps[i + 1];
        }
      }
      ReplaceAllFill(ps[1..], key, val);
      match ps[0]
      case Lit(t) =>
        LitSkips(t, rest, key);
        ReplaceAllSkip(t, rest, pat, val);
      case Token(k) =>
        if k == key {
          var s := pat + rest;
          assert pat <= s;
          assert s[|pat|..] == rest;
        } else {
          TokenSkips(k, rest, key);
          ReplaceAllSkip(Placeholder(k), rest, pat, val);
        }
    }
  }

  /** Applying the bindings one by one to a clean body resolves every
      placeholder to its first binding and leaves unbound ones verbatim. */
  lemma {:induction false} ReplaceEachResolves(ps: seq<Piece>, bs: Bindings)
    requires AllWellFormed(ps) && CleanBindings(bs)
    ensures ReplaceEach(Flatten(ps), bs) == Flatten(Resolve(ps, bs))
    decreases |bs|
  {
    if |bs| == 0 {
      assert Resolve(ps, bs) == ps;
    } else {
      var (key, val) := bs[0];
      ReplaceAllFill(ps, key, val);
      var filled := Fill(ps, key, val);
      assert CleanBindings(bs[1..]) by {
        forall i | 0 <= i < |bs[1..]| ensures IsKey(bs[1..][i].0) && BraceFree(bs[1..][i].1) {
          assert bs[1..][i] == bs[i + 1];
        }
      }
      ReplaceEachResolves(filled, bs[1..]);
      assert Resolve(filled, bs[1..]) == Resolve(ps, bs) by {
        forall i | 0 <= i < |ps|
          ensures ResolvePiece(filled[i], bs[1..]) == ResolvePiece(ps[i], bs)
        {
          match ps[i]
          case Lit(t) =>
          case Token(k) =>
            if k != key {
              assert FirstValue(bs, k) == FirstValue(bs[1..], k);
            }
        }
      }
    }
  }

  /** The first binding of a concatenation is the first binding of its front
      part, or else of its back part. */
  lemma {:induction false} FirstValueAppend(a: Bindings, b: Bindings, k: string)
    ensures FirstValue(a + b, k) == if FirstValue(a, k).Some? then FirstValue(a, k) else FirstValue(b, k)
  {
    if |a| == 0 {
      assert a + b == b;
    } else {
      assert (a + b)[0] == a[0];
      assert (a + b)[1..] == a[1..] + b;
      FirstValueAppend(a[1..], b, k);
    }
  }

  /** Resolving with clean bindings yields a clean body again. */
  lemma ResolveWellFormed(ps: seq<Piece>, bs: Bindings)
    requires AllWellFormed(ps) && CleanBindings(bs)
    ensures AllWellFormed(Resolve(ps, bs))
  {
    forall i | 0 <= i < |ps|
      ensures WellFormed(Resolve(ps, bs)[i])
    {
      match ps[i]
      case Lit(t) =>
      case Token(k) =>
        var r := FirstValue(bs, k);
        if r.Some? {
          var j :| 0 <= j < |bs| && bs[j] == (k, r.value);
          assert BraceFree(bs[j].1);
        }
    }
  }

  /** Resolving with `a` and then with `b` is resolving with `a` followed by `b`. */
  lemma ResolveCompose(ps: seq<Piece>, a: Bindings, b: Bindings)
    ensures Resolve(Resolve(ps, a), b) == Resolve(ps, a + b)
  {
    forall i | 0 <= i < |ps|
      ensures Resolve(Resolve(ps, a), b)[i] == Resolve(ps, a + b)[i]
    {
      match ps[i]
      case Lit(t) =>
      case Token(k) =>
        FirstValueAppend(a, b, k);
    }
  }

  lemma CleanAppend(a: Bindings, b: Bindings)
    requires CleanBindings(a) && CleanBindings(b)
    ensures CleanBindings(a + b)
  {
    forall i | 0 <= i < |a + b|
      ensures IsKey((a + b)[i].0) && BraceFree((a + b)[i].1)
    {
      if i >= |a| {
        assert (a + b)[i] == b[i - |a|];
      }
    }
  }
}

=== FILE: templating.dfy ===
/** Message rendering (`replaceVariables`, identical in both provider
    services): three ordered passes of global literal replacement, first the
    campaign's variables, then the contact's `name`, `phone` and `email`, then
    the contact's metadata. */
module Templating {
  import opened Wrappers
  import opened Text
  import opened TemplateText
  import opened Domain

  /** The built-in contact placeholders; a missing email renders as "". */
  function ContactFields(c: Contact): Bindings {
    [("name", c.name), ("phone", c.phone), ("email", c.email.GetOr(""))]
  }

  function Render(body: string, variables: Bindings, c: Contact): string {
    var afterCampaign := ReplaceEach(body, variables);
    var afterContact := ReplaceEach(afterCampaign, ContactFields(c));
    ReplaceEach(afterContact, c.metadata)
  }

  /** Every value that can be substituted is free of braces and every key is
      a word-character key. */
  predicate CleanInputs(variables: Bindings, c: Contact) {
    && CleanBindings(variables)
    && CleanBindings(c.metadata)
    && BraceFree(c.name) && BraceFree(c.phone) && BraceFree(c.email.GetOr(""))
  }

  /** Which value a placeholder receives: a campaign variable first, then the
      contact field of that name, then contact metadata; None leaves the
      placeholder as written. */
  function Lookup(variables: Bindings, c: Contact, k: string): Option<string> {
    if FirstValue(variables, k).Some? then FirstValue(variables, k)
    else if k == "name" then Some(c.name)
    else if k == "phone" then Some(c.phone)
    else if k == "email" then Some(c.email.GetOr(""))
    else FirstValue(c.metadata, k)
  }

  lemma ContactFieldsLookup(c: Contact, k: string)
    ensures FirstValue(ContactFields(c), k) ==
      if k == "name" then Some(c.name)
      else if k == "phone" then Some(c.phone)
      else if k == "email" then Some(c.email.GetOr(""))
      else None
  {
    var f := ContactFields(c);
    if k != "name" {
      assert FirstValue(f, k) == FirstValue(f[1..], k);
      assert f[1..] == [("phone", c.phone), ("email", c.email.GetOr(""))];
      if k != "phone" {
        assert FirstValue(f[1..], k) == FirstValue(f[1..][1..], k);
        assert f[1..][1..] == [("email", c.email.GetOr(""))];
        if k != "email" {
          assert f[1..][1..][1..] == [];
        }
      }
    }
  }

  /** The three passes act as one resolution whose precedence is `Lookup`. */
  lemma PassOrderIsPrecedence(variables: Bindings, c: Contact, k: string)
    ensures FirstValue(variables + ContactFields(c) + c.metadata, k) == Lookup(variables, c, k)
  {
    FirstValueAppend(variables + ContactFields(c), c.metadata, k);
    FirstValueAppend(variables, ContactFields(c), k);
    ContactFieldsLookup(c, k);
  }

  /** The body with every placeholder that `Lookup` binds replaced by its
      value. */
  function Rendered(ps: seq<Piece>, variables: Bindings, c: Contact): (r: seq<Piece>)
    ensures |r| == |ps|
  {
    seq(|ps|, i requires 0 <= i < |ps| =>
      match ps[i]
      case Lit(_) => ps[i]
      case Token(k) =>
        match Lookup(variables, c, k)
        case Some(v) => Lit(v)
        case None => ps[i])
  }

  /** Rendering a clean body replaces each placeholder by its `Lookup` value
      and leaves placeholders without one verbatim. */
  lemma {:induction false} RenderResolves(ps: seq<Piece>, variables: Bindings, c: Contact)
    requires AllWellFormed(ps) && CleanInputs(variables, c)
    ensures Render(Flatten(ps), variables, c) == Flatten(Rendered(ps, variables, c))
  {
    var fields := ContactFields(c);
    assert CleanBindings(fields);
    ReplaceEachResolves(ps, variables);
    var p1 := Resolve(ps, variables);
    ResolveWellFormed(ps, variables);
    ReplaceEachResolves(p1, fields);
    var p2 := Resolve(p1, fields);
    ResolveWellFormed(p1, fields);
    ReplaceEachResolves(p2, c.metadata);
    ResolveCompose(ps, variables, fields);
    ResolveCompose(ps, variables + fields, c.metadata);
    var all := variables + fields + c.metadata;
    forall i | 0 <= i < |ps|
      ensures Resolve(ps, all)[i] == Rendered(ps, variables, c)[i]
    {
      if ps[i].Token? {
        PassOrderIsPrecedence(variables, c, ps[i].key);
      }
    }
    assert Resolve(ps, all) == Rendered(ps, variables, c);
  }

  /** A campaign variable called `name` wins over the contact's name: two
      contacts differing only in name render the same body identically. */
  lemma CampaignVariableWins(ps: seq<Piece>, variables: Bindings, c: Contact, otherName: string)
    requires AllWellFormed(ps) && CleanInputs(variables, c) && BraceFree(otherName)
    requires FirstValue(variables, "name").Some?
    ensures Render(Flatten(ps), variables, c) == Render(Flatten(ps), variables, c.(name := otherName))
  {
    RenderResolves(ps, variables, c);
    RenderResolves(ps, variables, c.(name := otherName));
    RenderedIgnoresName(ps, variables, c, otherName);
  }

  lemma RenderedIgnoresName(ps: seq<Piece>, variables: Bindings, c: Contact, otherName: string)
    requires FirstValue(variables, "name").Some?
    ensures Rendered(ps, variables, c) == Rendered(ps, variables, c.(name := otherName))
  {
    var c2 := c.(name := otherName);
    var r1 := Rendered(ps, variables, c);
    var r2 := Rendered(ps, variables, c2);
    forall i | 0 <= i < |ps|
      ensures r1[i] == r2[i]
    {
      if ps[i].Token? {
        assert Lookup(variables, c, ps[i].key) == Lookup(variables, c2, ps[i].key);
      }
    }
  }

  /** A placeholder nothing binds is left exactly as written. */
  lemma UnmatchedPlaceholderStays(k: string, variables: Bindings, c: Contact)
    requires IsKey(k) && CleanInputs(variables, c)
    requires Lookup(variables, c, k) == None
    ensures Render(Placeholder(k), variables, c) == Placeholder(k)
  {
    var ps := [Token(k)];
    RenderResolves(ps, variables, c);
    assert Rendered(ps, variables, c) == ps;
    assert ps[1..] == [];
    assert Flatten(ps) == Placeholder(k) + "";
    assert Placeholder(k) + "" == Placeholder(k);
  }

  // ---------------------------------------------------------------------------
  // The server's patterns as written
  // ---------------------------------------------------------------------------

  predicate AllDigits(k: string) {
    |k| > 0 && forall i :: 0 <= i < |k| ==> IsDigit(k[i])
  }

  /** The decimal value of a string of digits. */
  function DigitsValue(k: string): nat
    requires forall i :: 0 <= i < |k| ==> IsDigit(k[i])
  {
    if |k| == 0 then 0
    else
      assert IsDigit(k[|k| - 1]);
      10 * DigitsValue(k[..|k| - 1]) + (k[|k| - 1] as int - '0' as int)
  }

  /** The text `new RegExp('{{' + key + '}}', 'g')` matches. The server does
      not escape the braces: after a key made only of digits the second `{`,
      the key and the first `}` form a braced quantifier, so the pattern for
      `2` matches two `{` and one `}`. Any other word-character key leaves
      every brace literal. */
  function ServerPattern(key: string): (r: string)
    ensures r != ""
    ensures !AllDigits(key) ==> r == Placeholder(key)
    ensures AllDigits(key) ==> r != Placeholder(key) && '}' in r && forall i :: 0 <= i < |r| ==> r[i] in "{}"
  {
    if AllDigits(key) then
      var r := seq(DigitsValue(key), _ => '{') + "}";
      assert Placeholder(key)[2] == key[0] && key[0] !in "{}";
      r
    else Placeholder(key)
  }

  /** The number of digits that open `s`. */
  function LeadingDigits(s: string): (k: nat)
    ensures k <= |s|
    ensures forall i :: 0 <= i < k ==> IsDigit(s[i])
    ensures k < |s| ==> !IsDigit(s[k])
  {
    if |s| > 0 && IsDigit(s[0]) then 1 + LeadingDigits(s[1..]) else 0
  }

  /** The bounds of a key `n,` or `n,m` (decimal digits on each side of one
      comma): after the pattern's first `{` such a key closes the braced
      quantifier `{n,}` or `{n,m}`. `None` for every other key. */
  function CommaBounds(key: string): (r: Option<(nat, Option<nat>)>)
    ensures r.Some? ==> ',' in key && !AllDigits(key) && !IsKey(key)
    ensures AllDigits(key) || IsKey(key) ==> r.None?
  {
    var j := LeadingDigits(key);
    if 0 < j < |key| && key[j] == ',' && LeadingDigits(key[j + 1..]) == |key| - j - 1 then
      var rest := key[j + 1..];
      assert !IsDigit(key[j]) && !IsWordChar(key[j]);
      Some((DigitsValue(key[..j]), if rest == "" then None else Some(DigitsValue(rest))))
    else None
  }

  /** How `new RegExp('{{' + key + '}}', 'g')` reads the server's pattern.
      A literal text (the placeholder itself, or the brace run of an
      all-digit key); for a key `n,` or `n,m`, a run of between n and m
      (unbounded for `n,`) `{` followed by `}`; and for `n,m` with n > m a
      syntax error, on which the constructor throws. */
  datatype ServerRegex = Literal(text: string) | BraceRun(lo: nat, hi: Option<nat>) | Unparsable

  function ServerRegexFor(key: string): (r: ServerRegex)
    ensures r.Literal? ==> r.text != ""
    ensures IsKey(key) && !AllDigits(key) ==> r == Literal(Placeholder(key))
    ensures AllDigits(key) ==> r == Literal(ServerPattern(key)) && r.text != Placeholder(key)
    ensures r.BraceRun? ==> CommaBounds(key) == Some((r.lo, r.hi)) && (r.hi.None? || r.lo <= r.hi.value)
    ensures r.Unparsable? <==> CommaBounds(key).Some? && CommaBounds(key).value.1.Some?
                               && CommaBounds(key).value.0 > CommaBounds(key).value.1.value
  {
    match CommaBounds(key)
    case None => Literal(ServerPattern(key))
    case Some((lo, hi)) => if hi.Some? && lo > hi.value then Unparsable else BraceRun(lo, hi)
  }

  /** The number of `{` that open `s`. */
  function LeadingBraces(s: string): (k: nat)
    ensures k <= |s|
    ensures forall i :: 0 <= i < k ==> s[i] == '{'
    ensures k < |s| ==> s[k] != '{'
  {
    if |s| > 0 && s[0] == '{' then 1 + LeadingBraces(s[1..]) else 0
  }

  /** The length of the match of `\{{lo,hi}\}` at the start of `s`. The
      greedy repetition takes the whole run of `{` up to `hi`; giving some
      back cannot help, as the next character would then be a `{` where a
      `}` is needed. So it matches exactly when the run's length is within
      the bounds and a `}` follows it. */
  function RunMatch(s: string, lo: nat, hi: Option<nat>): (r: Option<nat>)
    ensures r.Some? ==> 1 <= r.value <= |s| && s[r.value - 1] == '}'
    ensures r.Some? ==> lo <= r.value - 1 && (hi.None? || r.value - 1 <= hi.value)
    ensures r.Some? ==> forall i :: 0 <= i < r.value - 1 ==> s[i] == '{'
    ensures '}' !in s ==> r.None?
  {
    var k := LeadingBraces(s);
    if k < |s| && s[k] == '}' && lo <= k && (hi.None? || k <= hi.value) then Some(k + 1) else None
  }

  /** A global `replace` with a brace-run pattern: matches are taken left
      to right, never overlapping, and the replacement is not rescanned. */
  function ReplaceRun(s: string, lo: nat, hi: Option<nat>, rep: string): string
    decreases |s|
  {
    if |s| == 0 then s
    else match RunMatch(s, lo, hi)
      case Some(len) => rep + ReplaceRun(s[len..], lo, hi, rep)
      case None => [s[0]] + ReplaceRun(s[1..], lo, hi, rep)
  }

  /** Where no brace run matches, the text is left as it is. */
  lemma {:induction false} ReplaceRunNoMatch(s: string, lo: nat, hi: Option<nat>, rep: string)
    requires forall p :: 0 <= p < |s| ==> RunMatch(s[p..], lo, hi).None?
    ensures ReplaceRun(s, lo, hi, rep) == s
  {
    if |s| > 0 {
      assert s[0..] == s;
      forall p | 0 <= p < |s[1..]| ensures RunMatch(s[1..][p..], lo, hi).None? {
        assert s[1..][p..] == s[p + 1..];
      }
      ReplaceRunNoMatch(s[1..], lo, hi, rep);
      assert s == [s[0]] + s[1..];
    }
  }

  /** Text without a `}` is never changed by a brace-run pattern. */
  lemma ReplaceRunNeedsClose(s: string, lo: nat, hi: Option<nat>, rep: string)
    requires '}' !in s
    ensures ReplaceRun(s, lo, hi, rep) == s
  {
    forall p | 0 <= p < |s| ensures RunMatch(s[p..], lo, hi).None? {
      assert '}' !in s[p..];
    }
    ReplaceRunNoMatch(s, lo, hi, rep);
  }

  /** `s.replace(new RegExp('{{' + key + '}}', 'g'), rep)`; `None` when the
      constructor throws. */
  function ReplaceKey(s: string, key: string, rep: string): (r: Option<string>)
    ensures r.None? <==> ServerRegexFor(key).Unparsable?
    ensures CommaBounds(key).None? ==> r == Some(ReplaceAll(s, ServerPattern(key), rep))
    ensures IsKey(key) && !AllDigits(key) ==> r == Some(ReplaceAll(s, Placeholder(key), rep))
  {
    match ServerRegexFor(key)
    case Literal(p) => Some(ReplaceAll(s, p, rep))
    case BraceRun(lo, hi) => Some(ReplaceRun(s, lo, hi, rep))
    case Unparsable => None
  }

  /** No key of `bs` is one the server's pattern reads as a quantifier: none
      is made only of digits, none has the form `n,` or `n,m`. */
  predicate PlainKeys(bs: Bindings) {
    forall i :: 0 <= i < |bs| ==> !AllDigits(bs[i].0) && CommaBounds(bs[i].0).None?
  }

  /** Some key of `bs` makes the server's pattern a syntax error. */
  predicate HasUnparsableKey(bs: Bindings) {
    exists i :: 0 <= i < |bs| && ServerRegexFor(bs[i].0).Unparsable?
  }

  /** Word-character keys are plain unless made only of digits. */
  lemma CleanPlainKeys(bs: Bindings)
    requires CleanBindings(bs)
    requires forall i :: 0 <= i < |bs| ==> !AllDigits(bs[i].0)
    ensures PlainKeys(bs) && !HasUnparsableKey(bs)
  {
  }

  /** A variable pass as the server runs it: each binding in turn, replacing
      what its pattern matches; `None` when a pattern throws, which abandons
      the pass. It agrees with the literal pass when every key is plain. */
  function ReplaceEachAsWritten(s: string, bs: Bindings): (r: Option<string>)
    ensures r.None? <==> HasUnparsableKey(bs)
    ensures PlainKeys(bs) ==> r == Some(ReplaceEach(s, bs))
    decreases |bs|
  {
    if |bs| == 0 then Some(s)
    else
      assert forall i :: 0 <= i < |bs[1..]| ==> bs[1..][i] == bs[i + 1];
      assert HasUnparsableKey(bs) <==> ServerRegexFor(bs[0].0).Unparsable? || HasUnparsableKey(bs[1..]) by {
        if HasUnparsableKey(bs[1..]) {
          var i :| 0 <= i < |bs[1..]| && ServerRegexFor(bs[1..][i].0).Unparsable?;
          assert ServerRegexFor(bs[i + 1].0).Unparsable?;
        }
        if HasUnparsableKey(bs) && !ServerRegexFor(bs[0].0).Unparsable? {
          var i :| 0 <= i < |bs| && ServerRegexFor(bs[i].0).Unparsable?;
          assert ServerRegexFor(bs[1..][i - 1].0).Unparsable?;
        }
      }
      match ReplaceKey(s, bs[0].0, bs[0].1)
      case None => None
      case Some(t) => ReplaceEachAsWritten(t, bs[1..])
  }

  /** `replaceVariables` as written: the campaign-variable and metadata
      passes go through the server's patterns, and a pattern that throws
      abandons the rendering (`None`). With plain keys it is `Render`. */
  function RenderAsWritten(body: string, variables: Bindings, c: Contact): (r: Option<string>)
    ensures r.None? <==> HasUnparsableKey(variables) || HasUnparsableKey(c.metadata)
    ensures PlainKeys(variables) && PlainKeys(c.metadata) ==> r == Some(Render(body, variables, c))
  {
    match ReplaceEachAsWritten(body, variables)
    case None => None
    case Some(afterCampaign) =>
      var afterContact := ReplaceEach(afterCampaign, ContactFields(c));
      ReplaceEachAsWritten(afterContact, c.metadata)
  }

  /** The pattern the server builds for the key `2`. */
  lemma ServerPatternOfTwo()
    ensures ServerPattern("2") == "{{}"
  {
    assert AllDigits("2") && DigitsValue("2") == 2;
    assert seq(2, _ => '{') + "}" == "{{}";
  }

  /** The body made of the one placeholder `{{2}}`. */
  lemma DigitPlaceholderBody()
    ensures Flatten([Token("2")]) == "{{2}}" && AllWellFormed([Token("2")])
  {
    assert IsKey("2");
    FlattenCons(Token("2"), []);
    assert Placeholder("2") + "" == "{{2}}";
  }

  /** The intended rendering fills `{{2}}` with the variable's value. */
  lemma DigitKeyFilled(c: Contact)
    requires CleanInputs([("2", "x")], c)
    ensures Render("{{2}}", [("2", "x")], c) == "x"
  {
    var ps := [Token("2")];
    DigitPlaceholderBody();
    RenderResolves(ps, [("2", "x")], c);
    assert Lookup([("2", "x")], c, "2") == Some("x");
    assert Rendered(ps, [("2", "x")], c) == [Lit("x")];
    FlattenCons(Lit("x"), []);
    assert "x" + "" == "x";
  }

  /** `{{2}}` holds no occurrence of `{{}`. */
  lemma DigitPlaceholderMissesPattern()
    ensures NoMatch("{{2}}", "{{}")
  {
    var body: string := "{{2}}";
    forall i | 0 <= i <= |body| ensures !("{{}" <= body[i..]) {
      if i == 0 {
        assert body[0..][2] != '}';
      } else if i == 1 {
        assert body[1..][1] != '{';
      } else if i == 2 {
        assert body[2..][0] != '{';
      }
    }
  }

  /** The server's campaign-variable pass leaves `{{2}}` as it is. */
  lemma DigitCampaignPassMisses()
    ensures ReplaceEachAsWritten("{{2}}", [("2", "x")]) == Some("{{2}}")
  {
    ServerPatternOfTwo();
    DigitPlaceholderMissesPattern();
    ReplaceAllNoMatch("{{2}}", "{{}", "x");
    assert [("2", "x")][1..] == [];
  }

  /** No contact field is named `2`, so the contact pass leaves `{{2}}` as
      it is. */
  lemma DigitContactPassMisses(c: Contact)
    requires CleanInputs([("2", "x")], c)
    ensures ReplaceEach("{{2}}", ContactFields(c)) == "{{2}}"
  {
    var ps := [Token("2")];
    DigitPlaceholderBody();
    ContactFieldsLookup(c, "2");
    assert CleanBindings(ContactFields(c));
    ReplaceEachResolves(ps, ContactFields(c));
    assert Resolve(ps, ContactFields(c)) == ps;
  }

  /** A campaign variable named `2` on the body `{{2}}`: the intended
      rendering gives the variable's value, while the server as written
      sends the body unchanged, its pattern for `2` meaning `{{}`. */
  lemma DigitKeyNotFilled(c: Contact)
    requires CleanInputs([("2", "x")], c) && c.metadata == []
    ensures Render("{{2}}", [("2", "x")], c) == "x"
    ensures RenderAsWritten("{{2}}", [("2", "x")], c) == Some("{{2}}")
  {
    DigitKeyFilled(c);
    DigitCampaignPassMisses();
    DigitContactPassMisses(c);
  }

  /** The key `1,2` reads as the quantifier `{1,2}`. */
  lemma CommaKeyBounds()
    ensures ServerRegexFor("1,2") == BraceRun(1, Some(2))
  {
    assert LeadingDigits("1,2") == 1 by {
      assert LeadingDigits("1,2"[1..]) == 0;
    }
    assert "1,2"[2..] == "2" && LeadingDigits("2") == 1;
    assert "1,2"[..1] == "1" && DigitsValue("1") == 1 && DigitsValue("2") == 2;
  }

  /** The pattern `\{{1,2}\}` matches nowhere in `{{1,2}}`: the run of `{`
      at its start is followed by a digit, and the `}` near its end have no
      `{` before them. */
  lemma CommaPlaceholderMissesRun()
    ensures forall p :: 0 <= p < |"{{1,2}}"| ==> RunMatch("{{1,2}}"[p..], 1, Some(2)).None?
  {
    var body: string := "{{1,2}}";
    forall p | 0 <= p < |body| ensures RunMatch(body[p..], 1, Some(2)).None? {
      var t := body[p..];
      if p == 0 {
        assert t[2] == '1';
      } else if p == 1 {
        assert t[1] == '1';
      } else {
        assert t[0] != '{';
      }
    }
  }

  /** A placeholder longer than the text cannot occur in it. */
  lemma LongPatternMisses(s: string, pat: string, rep: string)
    requires pat != "" && |pat| > |s|
    ensures ReplaceAll(s, pat, rep) == s
  {
    ReplaceAllNoMatch(s, pat, rep);
  }

  /** Literal replacement fills `{{1,2}}` with the variable `1,2`. */
  lemma CommaLiteralFills()
    ensures ReplaceEach("{{1,2}}", [("1,2", "x")]) == "x"
  {
    var body: string := "{{1,2}}";
    assert Placeholder("1,2") == body;
    assert body <= body && body[|body|..] == "";
    assert ReplaceAll(body, body, "x") == "x" + ReplaceAll("", body, "x");
    assert [("1,2", "x")][1..] == [];
  }

  /** The server's campaign-variable pass leaves `{{1,2}}` as it is. */
  lemma CommaCampaignPassMisses()
    ensures ReplaceEachAsWritten("{{1,2}}", [("1,2", "x")]) == Some("{{1,2}}")
  {
    CommaKeyBounds();
    CommaPlaceholderMissesRun();
    ReplaceRunNoMatch("{{1,2}}", 1, Some(2), "x");
    assert ReplaceKey("{{1,2}}", "1,2", "x") == Some("{{1,2}}");
    assert [("1,2", "x")][1..] == [];
  }

  /** Every contact placeholder is longer than `{{1,2}}`, so the contact
      pass leaves it as it is. */
  lemma CommaContactPassMisses(c: Contact)
    ensures ReplaceEach("{{1,2}}", ContactFields(c)) == "{{1,2}}"
  {
    var body: string := "{{1,2}}";
    var fs := ContactFields(c);
    var f1 := fs[1..];
    var f2 := f1[1..];
    LongPatternMisses(body, Placeholder("name"), c.name);
    LongPatternMisses(body, Placeholder("phone"), c.phone);
    LongPatternMisses(body, Placeholder("email"), c.email.GetOr(""));
    assert f2[1..] == [];
    assert ReplaceEach(body, f2) == ReplaceEach(body, f2[1..]);
    assert ReplaceEach(body, f1) == ReplaceEach(body, f2);
    assert ReplaceEach(body, fs) == ReplaceEach(body, f1);
  }

  /** A campaign variable named `1,2` on the body `{{1,2}}`: literal
      replacement fills it, while the server's pattern, a run of one or two
      `{` then `}`, matches nothing and the body is sent unchanged. */
  lemma CommaKeyNotFilled(c: Contact)
    requires c.metadata == []
    ensures ReplaceEach("{{1,2}}", [("1,2", "x")]) == "x"
    ensures RenderAsWritten("{{1,2}}", [("1,2", "x")], c) == Some("{{1,2}}")
  {
    CommaLiteralFills();
    CommaCampaignPassMisses();
    CommaContactPassMisses(c);
    assert ReplaceEachAsWritten("{{1,2}}", c.metadata) == Some("{{1,2}}");
  }

  /** The key `2,1` is the quantifier `{2,1}`, whose bounds are out of
      order: building the pattern throws, so no body renders. */
  lemma UnparsableKeyThrows(body: string, v: string, c: Contact)
    ensures ServerRegexFor("2,1").Unparsable?
    ensures RenderAsWritten(body, [("2,1", v)], c).None?
  {
    assert LeadingDigits("2,1") == 1 by {
      assert LeadingDigits("2,1"[1..]) == 0;
    }
    assert "2,1"[2..] == "1" && LeadingDigits("1") == 1;
    assert "2,1"[..1] == "2" && DigitsValue("2") == 2 && DigitsValue("1") == 1;
    assert [("2,1", v)][0].0 == "2,1";
  }

  function ExamplePieces(): seq<Piece> {
    [Lit("Order "), Token("order_id"), Lit(" for "), Token("name")]
  }

  lemma ExampleWellFormed()
    ensures AllWellFormed(ExamplePieces())
  {
    assert IsKey("order_id") by {
      assert forall i :: 0 <= i < |"order_id"| ==> IsWordChar("order_id"[i]);
    }
    assert IsKey("name");
  }

  /** The example body, piece by piece. */
  lemma ExampleBody()
    ensures Flatten(ExamplePieces()) == "Order " + (Placeholder("order_id") + (" for " + Placeholder("name")))
  {
    var p4 := [Token("name")];
    FlattenCons(Token("name"), []);
    assert [Token("name")] + [] == p4;
    assert Placeholder("name") + "" == Placeholder("name");
    var p3 := [Lit(" for ")] + p4;
    FlattenCons(Lit(" for "), p4);
    var p2 := [Token("order_id")] + p3;
    FlattenCons(Token("order_id"), p3);
    FlattenCons(Lit("Order "), p2);
    assert [Lit("Order ")] + p2 == ExamplePieces();
  }

  lemma ExampleBodyText()
    ensures "Order " + (Placeholder("order_id") + (" for " + Placeholder("name"))) == "Order {{order_id}} for {{name}}"
  {
    assert Placeholder("order_id") == "{{order_id}}";
    assert Placeholder("name") == "{{name}}";
  }

  lemma ExampleRendered(r: seq<Piece>)
    requires r == [Lit("Order "), Lit("42"), Lit(" for "), Lit("Ann")]
    ensures Flatten(r) == "Order " + ("42" + (" for " + "Ann"))
  {
    var p4 := [Lit("Ann")];
    FlattenCons(Lit("Ann"), []);
    assert [Lit("Ann")] + [] == p4;
    assert "Ann" + "" == "Ann";
    var p3 := [Lit(" for ")] + p4;
    FlattenCons(Lit(" for "), p4);
    var p2 := [Lit("42")] + p3;
    FlattenCons(Lit("42"), p3);
    FlattenCons(Lit("Order "), p2);
    assert [Lit("Order ")] + p2 == r;
  }

  lemma ExampleRenderedText()
    ensures "Order " + ("42" + (" for " + "Ann")) == "Order 42 for Ann"
  {
  }

  /** The worked example: `Order {{order_id}} for {{name}}` with variable
      order_id = 42 for a contact named Ann renders `Order 42 for Ann`. */
  lemma OrderExample(c: Contact)
    requires c.name == "Ann" && CleanInputs([("order_id", "42")], c)
    ensures Render("Order {{order_id}} for {{name}}", [("order_id", "42")], c) == "Order 42 for Ann"
  {
    var ps := ExamplePieces();
    var vars := [("order_id", "42")];
    ExampleBody();
    ExampleBodyText();
    ExampleWellFormed();
    RenderResolves(ps, vars, c);
    var r := Rendered(ps, vars, c);
    assert Lookup(vars, c, "order_id") == Some("42");
    assert Lookup(vars, c, "name") == Some("Ann");
    assert r[1] == Lit("42");
    assert r[3] == Lit("Ann");
    assert r == [Lit("Order "), Lit("42"), Lit(" for "), Lit("Ann")];
    ExampleRendered(r);
    ExampleRenderedText();
  }
}

=== FILE: text.dfy ===
/** The JavaScript string operations the system relies on, written out over
    `seq<char>`: whitespace and trimming, ASCII character classes and case
    mapping, `split`/`join` on one character, removal of every occurrence of a
    character, substring search and global literal replacement. */
module Text {

  /** JavaScript's `\s` class, which is also the set `String.prototype.trim`
      strips: the ECMAScript WhiteSpace and LineTerminator characters. */
  predicate IsSpace(c: char) {
    || c == ' ' || c == '\t' || c == '\n' || c == '\r' || c == '\U{B}' || c == '\U{C}'
    || c == '\U{A0}' || c == '\U{1680}' || ('\U{2000}' <= c <= '\U{200A}')
    || c == '\U{2028}' || c == '\U{2029}' || c == '\U{202F}' || c == '\U{205F}'
    || c == '\U{3000}' || c == '\U{FEFF}'
  }

  /** JavaScript's `\d`: ASCII digits only. */
  predicate IsDigit(c: char) {
    '0' <= c <= '9'
  }

  predicate IsLower(c: char) {
    'a' <= c <= 'z'
  }

  predicate IsUpper(c: char) {
    'A' <= c <= 'Z'
  }

  /** JavaScript's `\w`: ASCII letters, digits and underscore. */
  predicate IsWordChar(c: char) {
    IsLower(c) || IsUpper(c) || IsDigit(c) || c == '_'
  }

  predicate HasNoSpace(s: string) {
    forall i :: 0 <= i < |s| ==> !IsSpace(s[i])
  }

  /** True when `s` neither starts nor ends with whitespace. */
  predicate IsTrimmed(s: string) {
    |s| == 0 || (!IsSpace(s[0]) && !IsSpace(s[|s| - 1]))
  }

  function TrimStart(s: string): (r: string)
    ensures |r| <= |s| && r == s[|s| - |r|..]
    ensures |r| == 0 || !IsSpace(r[0])
  {
    if |s| == 0 || !IsSpace(s[0]) then s else TrimStart(s[1..])
  }

  /** What `TrimStart` drops is whitespace. */
  lemma {:induction false} TrimStartDropsSpace(s: string)
    ensures forall i :: 0 <= i < |s| - |TrimStart(s)| ==> IsSpace(s[i])
  {
    if |s| > 0 && IsSpace(s[0]) {
      TrimStartDropsSpace(s[1..]);
      assert forall i :: 1 <= i < |s| ==> s[i] == s[1..][i - 1];
    }
  }

  function TrimEnd(s: string): (r: string)
    ensures |r| <= |s| && r == s[..|r|]
    ensures |r| == 0 || !IsSpace(r[|r| - 1])
  {
    if |s| == 0 || !IsSpace(s[|s| - 1]) then s else TrimEnd(s[..|s| - 1])
  }

  /** What `TrimEnd` drops is whitespace. */
  lemma {:induction false} TrimEndDropsSpace(s: string)
    ensures forall i :: |TrimEnd(s)| <= i < |s| ==> IsSpace(s[i])
  {
    if |s| > 0 && IsSpace(s[|s| - 1]) {
      TrimEndDropsSpace(s[..|s| - 1]);
    }
  }

  /** `String.prototype.trim`: the longest slice of `s` that neither starts
      nor ends with whitespace once the surrounding whitespace is dropped. */
  function Trim(s: string): (r: string)
    ensures IsTrimmed(r) && |r| <= |s|
    ensures IsTrimmed(s) ==> r == s
  {
    TrimEnd(TrimStart(s))
  }

  /** Every string of `xs` trimmed, in order. */
  function TrimEach(xs: seq<string>): (r: seq<string>)
    ensures |r| == |xs| && forall i :: 0 <= i < |xs| ==> r[i] == Trim(xs[i])
  {
    seq(|xs|, i requires 0 <= i < |xs| => Trim(xs[i]))
  }

  /** Trim of a string holding only whitespace is empty, and trim of a
      string with a non-space character is not. */
  lemma TrimEmptyIffAllSpace(s: string)
    ensures Trim(s) == "" <==> forall i :: 0 <= i < |s| ==> IsSpace(s[i])
  {
    var t := TrimStart(s);
    TrimStartDropsSpace(s);
    TrimEndDropsSpace(t);
    if Trim(s) == "" {
      assert |t| == 0;
    }
  }

  function ToLowerChar(c: char): char {
    if IsUpper(c) then (c as int + 32) as char else c
  }

  function ToUpperChar(c: char): char {
    if IsLower(c) then (c as int - 32) as char else c
  }

  /** `toLowerCase` restricted to ASCII letters. */
  function ToLower(s: string): (r: string)
    ensures |r| == |s|
    ensures forall i :: 0 <= i < |s| ==> r[i] == ToLowerChar(s[i])
  {
    if |s| == 0 then "" else [ToLowerChar(s[0])] + ToLower(s[1..])
  }

  /** `toUpperCase` restricted to ASCII letters. */
  function ToUpper(s: string): (r: string)
    ensures |r| == |s|
    ensures forall i :: 0 <= i < |s| ==> r[i] == ToUpperChar(s[i])
  {
    if |s| == 0 then "" else [ToUpperChar(s[0])] + ToUpper(s[1..])
  }

  /** `s.replace(/c/g, '')`: every occurrence of `c` dropped, the rest kept
      in order. */
  function RemoveChar(s: string, c: char): (r: string)
    ensures c !in r
    ensures |r| <= |s|
    ensures c !in s ==> r == s
  {
    if |s| == 0 then ""
    else if s[0] == c then RemoveChar(s[1..], c)
    else [s[0]] + RemoveChar(s[1..], c)
  }

  lemma RemoveCharAppend(a: string, b: string, c: char)
    ensures RemoveChar(a + b, c) == RemoveChar(a, c) + RemoveChar(b, c)
  {
    if |a| > 0 {
      assert (a + b)[1..] == a[1..] + b;
      RemoveCharAppend(a[1..], b, c);
    } else {
      assert a + b == b;
    }
  }

  /** `s.replace(/\D/g, '')`: the digits of `s`, in order. */
  function Digits(s: string): (r: string)
    ensures |r| <= |s|
    ensures forall i :: 0 <= i < |r| ==> IsDigit(r[i])
  {
    if |s| == 0 then ""
    else if IsDigit(s[0]) then [s[0]] + Digits(s[1..])
    else Digits(s[1..])
  }

  lemma DigitsAppend(a: string, b: string)
    ensures Digits(a + b) == Digits(a) + Digits(b)
  {
    if |a| > 0 {
      assert (a + b)[1..] == a[1..] + b;
      DigitsAppend(a[1..], b);
    } else {
      assert a + b == b;
    }
  }

  lemma DigitsOfDigits(s: string)
    requires forall i :: 0 <= i < |s| ==> IsDigit(s[i])
    ensures Digits(s) == s
  {
  }

  /** `xs.join(d)`. */
  function Join(xs: seq<string>, d: char): string {
    if |xs| == 0 then ""
    else if |xs| == 1 then xs[0]
    else xs[0] + [d] + Join(xs[1..], d)
  }

  /** A join starts with its first piece. */
  lemma JoinPrefix(xs: seq<string>, d: char)
    requires |xs| > 0
    ensures |xs[0]| <= |Join(xs, d)| && Join(xs, d)[..|xs[0]|] == xs[0]
  {
  }

  /** `s.split(d)` for a one-character separator: the pieces between
      separators, at least one, none holding `d`, and joining them back gives
      `s`. */
  function Split(s: string, d: char): (r: seq<string>)
    ensures |r| >= 1
    ensures forall i :: 0 <= i < |r| ==> d !in r[i]
    ensures Join(r, d) == s
  {
    if |s| == 0 then [""]
    else
      var rest := Split(s[1..], d);
      if s[0] == d then
        assert s == [d] + s[1..];
        [""] + rest
      else
        var r := [[s[0]] + rest[0]] + rest[1..];
        assert r[1..] == rest[1..];
        assert |rest| > 1 ==> Join(rest, d) == rest[0] + [d] + Join(rest[1..], d);
        assert s == [s[0]] + s[1..];
        r
  }

  /** Splitting text that starts with a non-separator puts that character
      in front of the first piece. */
  lemma SplitCons(c: char, t: string, d: char)
    requires c != d
    ensures Split([c] + t, d) == [[c] + Split(t, d)[0]] + Split(t, d)[1..]
  {
    assert ([c] + t)[1..] == t;
  }

  lemma {:induction false} SplitPiece(x: string, t: string, d: char)
    requires d !in x
    ensures Split(x + [d] + t, d) == [x] + Split(t, d)
  {
    var s := x + [d] + t;
    if |x| == 0 {
      assert s == [d] + t;
      assert s[1..] == t;
    } else {
      var tail := x[1..] + [d] + t;
      assert s == [x[0]] + tail;
      SplitPiece(x[1..], t, d);
      SplitCons(x[0], tail, d);
      assert [x[0]] + x[1..] == x;
    }
  }

  lemma SplitWhole(x: string, d: char)
    requires d !in x
    ensures Split(x, d) == [x]
  {
    if |x| > 0 {
      SplitWhole(x[1..], d);
      assert x == [x[0]] + x[1..];
    }
  }

  /** Splitting a join recovers the pieces when none holds the separator. */
  lemma {:induction false} SplitJoin(xs: seq<string>, d: char)
    requires |xs| >= 1
    requires forall i :: 0 <= i < |xs| ==> d !in xs[i]
    ensures Split(Join(xs, d), d) == xs
  {
    if |xs| == 1 {
      SplitWhole(xs[0], d);
    } else {
      SplitPiece(xs[0], Join(xs[1..], d), d);
      SplitJoin(xs[1..], d);
      assert xs == [xs[0]] + xs[1..];
    }
  }

  /** `sub` occurs in `s` at some position (`s.includes(sub)`). */
  predicate Contains(s: string, sub: string) {
    exists i :: 0 <= i <= |s| && sub <= s[i..]
  }

  /** No occurrence of `pat` starts anywhere in `s`. */
  predicate NoMatch(s: string, pat: string) {
    forall i :: 0 <= i <= |s| ==> !(pat <= s[i..])
  }

  /** `s.replace(new RegExp(pat, 'g'), rep)` for a pattern with no regular
      expression metacharacter in effect: occurrences of `pat` are found left
      to right, never overlapping, and the replacement text is not rescanned. */
  function ReplaceAll(s: string, pat: string, rep: string): string
    requires pat != ""
    decreases |s|
  {
    if |s| == 0 then s
    else if pat <= s then rep + ReplaceAll(s[|pat|..], pat, rep)
    else [s[0]] + ReplaceAll(s[1..], pat, rep)
  }

  /** Characters at which no occurrence of `pat` starts are copied through
      unchanged, ahead of the replacement of the rest. */
  lemma {:induction false} ReplaceAllSkip(t: string, x: string, pat: string, rep: string)
    requires pat != ""
    requires forall i :: 0 <= i < |t| ==> !(pat <= (t + x)[i..])
    ensures ReplaceAll(t + x, pat, rep) == t + ReplaceAll(x, pat, rep)
  {
    if |t| == 0 {
      assert t + x == x;
    } else {
      var s := t + x;
      assert s[0..] == s;
      assert !(pat <= s);
      assert s[1..] == t[1..] + x;
      forall i | 0 <= i < |t[1..]|
        ensures !(pat <= (t[1..] + x)[i..])
      {
        assert (t[1..] + x)[i..] == s[i + 1..];
      }
      assert s[0] == t[0];
      assert ReplaceAll(s, pat, rep) == [t[0]] + ReplaceAll(t[1..] + x, pat, rep);
      ReplaceAllSkip(t[1..], x, pat, rep);
      assert t == [t[0]] + t[1..];
    }
  }

  /** Replacing a pattern that does not occur leaves the text unchanged. */
  lemma {:induction false} ReplaceAllNoMatch(s: string, pat: string, rep: string)
    requires pat != ""
    requires NoMatch(s, pat)
    ensures ReplaceAll(s, pat, rep) == s
  {
    assert s + "" == s;
    ReplaceAllSkip(s, "", pat, rep);
  }
}

=== FILE: wrappers.dfy ===
/** Failure-compatible wrappers used across the model: an optional value and a
    result that carries either a value or an error. */
module Wrappers {

  datatype Option<+T> = None | Some(value: T) {

    predicate IsFailure() {
      None?
    }

    function PropagateFailure<U>(): Option<U>
      requires None?
    {
      None
    }

    function Extract(): T
      requires Some?
    {
      value
    }

    /** The value in Some, or `default` for None (JavaScript's `x || default`
        on an optional field). */
    function GetOr(default: T): T {
      match this
      case Some(v) => v
      case None => default
    }
  }

  datatype Result<+R, +E> = Success(value: R) | Failure(error: E) {

    predicate IsFailure() {
      Failure?
    }

    function PropagateFailure<U>(): Result<U, E>
      requires Failure?
    {
      Failure(error)
    }

    function Extract(): R
      requires Success?
    {
      value
    }
  }
}
